=== FILE: README.md ===
# revis-network core, modelled in Dafny

This project models the core of revis-network, a React component that draws
an interactive node-link graph on three stacked canvases: background shapes
at the bottom, edges in the middle, nodes on top. The modelled parts are:

- the camera (pan and scale, pointer to world, wheel zoom around the pointer,
  fit to screen, autopan at the border while dragging);
- hit-testing of nodes, edges, shapes and shape resize handles;
- resizing a shape by dragging a handle, and the bounds of nodes and shapes;
- the node and edge entities: construction, update, easing towards a
  destination, label truncation, the curve geometry of parallel edges and
  the pointer distance to an edge;
- the reconciliation of the live node and edge maps with a new graph
  (`checkGraph`), including the numbering of parallel edges;
- the pointer, keyboard and per-frame handlers of the network component;
- the layout helpers: comparators, parent/child marks, subtree widths,
  bounds, coordinate scaling and coordinate assignment;
- the renderer's frame throttle, redraw predicate, viewport culling and the
  order in which items are drawn.

JavaScript numbers are Dafny `real`s. Values that may be `undefined` or may
have become `NaN` are a `JsNum` (`Undef`, `NaN` or a number), so `||`,
`Math.max` and arithmetic on missing values behave as in JavaScript. Optional
definition fields are `Option<real>`, and `a || b` skips a missing value and
a zero. Node objects live in a heap keyed by identity, so edges and the
dragged list can keep referring to node objects that left the live map, as
they do in the source. A JavaScript `Map` is an ordered map (`OMap`) that
keeps insertion order. The two React reducers that own the interaction state
and the pan/scale state are not modelled: a handler returns the events it
dispatches to them, in order, and the `onMouse` callbacks it fires.

Modules, in dependency order:

| file | module | what it models |
|---|---|---|
| js_values.dfy | JsValues | `Option`, `JsNum`, `||`, `Math.max`/`min` on possibly missing numbers |
| seqs.dfy | Seqs | distinct sequences, occurrence counts, JavaScript `Set` insertion order |
| ordered_map.dfy | OrderedMaps | a JavaScript `Map`: insertion-ordered keys |
| camera.dfy | Camera | src/components/RevisNetwork/util.ts: the camera functions |
| curves.dfy | Curves | src/components/RevisNetwork/components/util.ts |
| node.dfy | Nodes | src/components/RevisNetwork/components/RevisNode.ts |
| edge.dfy | Edges | src/components/RevisNetwork/components/RevisEdge.ts |
| hit_test.dfy | HitTest | the node and edge hit-tests of util.ts |
| shapes.dfy | Shapes | the shape hit-test, handles, handle drag and getBounds of util.ts |
| graph_store.dfy | GraphStore | checkGraph and setGraphType in RevisNetwork.tsx |
| interaction.dfy | Interaction | the mouse, key and tick handlers in RevisNetwork.tsx |
| layout_utils.dfy | LayoutUtils | src/components/RevisNetwork/layout/utils.ts |
| renderer.dfy | Renderer | src/components/RevisNetwork/Renderer.tsx |

## Model

| member | source | states |
|---|---|---|
| Camera.MousePos | src/components/RevisNetwork/util.ts:187-197 | Without a bounding rectangle the answer is (-1000, -1000). Otherwise the answer is the world point that the world-to-screen map sends to the pointer's canvas-relative position. |
| Camera.MousePosOfNodeScreenPos | src/components/RevisNetwork/util.ts:31-36 | Round trip: a pointer placed over a node's screen position reads back exactly that node's world position. |
| Camera.ScreenEdgePan | src/components/RevisNetwork/util.ts:11-28 | The autopan vector is positive towards the left and top borders and negative towards the right and bottom borders. Its size is the distance past the 35-pixel margin, and the left or top test wins when both hold. There is no vector when the pointer is outside every margin. |
| Camera.BoundsScale | src/components/RevisNetwork/util.ts:119-127 | The answer is the largest scale at which the bounds, padded by one node size on every side, fit both screen axes. |
| Camera.RealMinZoom | src/components/RevisNetwork/util.ts:138-141 | The lower zoom limit is the smaller of the minimum zoom 0.6 and the fit scale, reduced by 5%. |
| Camera.WheelScale | src/components/RevisNetwork/util.ts:134-144 | The new scale is the wheel step `scale - 0.002 * deltaY`, clamped into [RealMinZoom, 6]. Each side of the clamp is stated separately. |
| Camera.WheelScaleJs | src/components/RevisNetwork/util.ts:138-144 | With a bound scale that is not a number the zoom is not a number either, because `Math.min` and `Math.max` pass NaN through. With a numeric bound scale it is WheelScale. |
| Camera.PanScaleFromMouseWheel | src/components/RevisNetwork/util.ts:129-164 | The new scale is WheelScale of the old scale and the wheel delta, and lies within [RealMinZoom, 6]. The new pan is AnchoredPan at the pointer's position inside the canvas, so the world point under the pointer stays put (WheelZoomKeepsAnchor). The destination pan, destination scale and autopan vector are kept. |
| Camera.AnchoredPanKeepsWorld | src/components/RevisNetwork/util.ts:146-161 | The re-anchored pan keeps the world point under the pointer, for any two non-zero scales. |
| Camera.WheelZoomKeepsAnchor | src/components/RevisNetwork/util.ts:129-164 | Zooming with the wheel leaves the world point under the pointer where it was on screen. |
| Camera.FitToScreen | src/components/RevisNetwork/util.ts:166-185 | There is no target without bounds. Otherwise the scale is the largest that fits the node-padded bounds into the screen less the padding, and the pan puts the centre of the bounds at the centre of the screen. |
| Camera.FitExample | src/components/RevisNetwork/util.ts:166-185 | Fitting a 100 by 100 box onto a 500 by 500 screen, with node size m and no padding, gives scale 500/(100+2m) and centres the box. |
| Curves.FitText | src/components/RevisNetwork/components/util.ts:13-15 | A label no longer than the allowance is drawn whole. A longer label is cut to exactly its first `allowed` characters and followed by the ellipsis suffix. |
| Curves.FitTextIdempotent | src/components/RevisNetwork/components/util.ts:13-15 | Truncating a label a second time with the same allowance changes nothing. |
| Curves.BezierEnds | src/components/RevisNetwork/components/util.ts:73-105 | The curve is at the start point at t = 0 and at the end point at t = 1. With the midpoint as control point it is the straight segment from start to end. |
| Curves.MinSegmentDistance | src/components/RevisNetwork/components/util.ts:88-103 | The running minimum is at most 1e9, at most each measured segment's distance, and equal to one of them or to 1e9. |
| Curves.DistanceToBezierEdge | src/components/RevisNetwork/components/util.ts:73-105 | The distance is the least of the nine measured segment distances, capped at 1e9. |
| Curves.MeasuredPolyline | src/components/RevisNetwork/components/util.ts:88-103 | The measured polyline starts at the start point and stops at the sample t = 0.9. It never reaches the end point. |
| Nodes.NewNode | src/components/RevisNetwork/components/RevisNode.ts:64-80 | Size is the definition's, else the configured default, else 30, and is never zero. Mass defaults to 1 and the position to the origin. `fixed` holds only when the definition says true. There is no destination and the node is not deleted. |
| Nodes.Update | src/components/RevisNetwork/components/RevisNode.ts:86-91 | The definition is replaced. `fixed` is cleared only by an explicit `fixed: false` and is never set. Nothing else changes. |
| Nodes.Destroy | src/components/RevisNetwork/components/RevisNode.ts:82-84 | Only the deletion flag changes. |
| Nodes.ScaleCoefficient | src/components/RevisNetwork/components/RevisNode.ts:100-105 | The scale bucket is below 1 exactly beyond zoom 1.5, which is what selects the longer label limits. |
| Nodes.DrawnSize | src/components/RevisNetwork/components/RevisNode.ts:108-115 | Apart from the 5 added while hovered, the drawn size is the first present, non-zero value among the style size, the configured default, the definition size and the constructed size. It is non-zero whenever the constructed size is. |
| Nodes.DefaultSizeShadowsDefinitionSize | src/components/RevisNetwork/components/RevisNode.ts:108-112 | Without a style size, a configured default size wins over the definition's own size. |
| Nodes.EaseStep | src/components/RevisNetwork/components/RevisNode.ts:117-128 | A node more than one unit from its destination on some axis moves halfway there. Otherwise the destination is dropped and the position kept. A node without a destination does not change. |
| Nodes.EaseStepDecreases | src/components/RevisNetwork/components/RevisNode.ts:117-128 | A step that moves the node strictly decreases its whole-unit distance to the destination. |
| Nodes.EaseUntilArrived | src/components/RevisNetwork/components/RevisNode.ts:117-128 | Easing terminates from every state and ends with no destination. A node without a destination is unchanged. Otherwise the node ends within one unit of the old destination on both axes, and on neither axis does it end further from it than it started. |
| Nodes.InnerLabelLimit | src/components/RevisNetwork/components/RevisNode.ts:172-178 | The inner label keeps 10 characters beyond zoom 1.5 and 7 otherwise. |
| Nodes.OuterLabelLimit | src/components/RevisNetwork/components/RevisNode.ts:184-200 | The outer label keeps 35 characters beyond zoom 1.5 and 12 otherwise. |
| Nodes.RenderNode | src/components/RevisNetwork/components/RevisNode.ts:93-200 | A frame sets bSize to the drawn size and takes one easing step. It draws the inner label whenever there is one. It draws the outer label only when labels are shown and the zoom exceeds 1.75. |
| Nodes.OuterLabelAlwaysLong | src/components/RevisNetwork/components/RevisNode.ts:184-200 | Whenever the outer label is drawn its limit is 35, so the 12-character limit is never used. |
| Edges.NewEdge | src/components/RevisNetwork/components/RevisEdge.ts:21-35 | Start is the from-node and end the to-node. Size is set only from a present, non-zero definition size. The duplicate number is kept. There is no control point yet and the edge is not deleted. |
| Edges.Update | src/components/RevisNetwork/components/RevisEdge.ts:84-86 | Only the definition changes. |
| Edges.Destroy | src/components/RevisNetwork/components/RevisEdge.ts:80-82 | Only the deletion flag changes. |
| Edges.Ends | src/components/RevisNetwork/components/RevisEdge.ts:55-58 | The ends exist exactly when both node objects are in the heap, and they are those nodes' positions. |
| Edges.ControlPointBetween | src/components/RevisNetwork/components/RevisEdge.ts:37-47 | For duplicate 0 the control point is the corner (end.x, start.y). Each further duplicate moves it 20 units further out on both axes: past the end along x, and away from the end along y. |
| Edges.ControlPoint | src/components/RevisNetwork/components/RevisEdge.ts:37-47 | The control point is the origin when an endpoint is missing, and ControlPointBetween of the two positions otherwise. |
| Edges.ParallelEdgesFanOut | src/components/RevisNetwork/components/RevisEdge.ts:37-47 | Edges between the same two points with different duplicate numbers get different control points. |
| Edges.DistanceFrom | src/components/RevisNetwork/components/RevisEdge.ts:55-78 | The distance is null when an endpoint is missing. A straight, non-duplicate edge uses the segment distance. Any other edge uses the sampled distance to its curve. |
| Edges.AdjustedTBounds | src/components/RevisNetwork/components/RevisEdge.ts:88-105 | The label parameter drifts at most 0.15 towards the start and at most 0.25 towards the end. A diagonal edge is not moved, a horizontal one moves the full 0.15 and a vertical one the full 0.25. |
| Edges.StraightArrowPoint | src/components/RevisNetwork/components/RevisEdge.ts:293-298 | The arrowhead of a straight edge lies the given ratio of the way back from the end towards the start. |
| Edges.DefaultArrowAtMidpoint | src/components/RevisNetwork/components/RevisEdge.ts:173 | With a missing or zero placement ratio the arrowhead is at the midpoint of a straight edge. |
| Edges.LineWidth | src/components/RevisNetwork/components/RevisEdge.ts:196 | The line is 4 screen pixels wide while hovered, and the style's width (default 2) otherwise. |
| Edges.LabelFontSize | src/components/RevisNetwork/components/RevisEdge.ts:222-229 | Wherever labels are drawn (zoom above 0.75) the label is 14 screen pixels beyond zoom 1.5 and 11 otherwise. |
| Edges.RenderEdge | src/components/RevisNetwork/components/RevisEdge.ts:150-323 | A frame draws nothing and answers false when an endpoint is missing, and draws nothing and answers true when the endpoints coincide. A curved edge recomputes its control and label points. The label is drawn only above zoom 0.75 with labels shown. |
| Edges.RenderStable | src/components/RevisNetwork/components/RevisEdge.ts:150-172 | A second frame with unchanged positions leaves the edge exactly as the first left it. |
| HitTest.FirstIndex | src/components/RevisNetwork/util.ts:67-75 | The answer is the least index that passes the test, and None exactly when no element passes. |
| HitTest.LastIndex | src/components/RevisNetwork/util.ts:282-293 | The answer is the greatest index that passes the test, and None exactly when no element passes. |
| HitTest.CheckNodeAtPosition | src/components/RevisNetwork/util.ts:56-64 | A node is hit exactly when the pointer is strictly inside the square of side bSize centred on the node. |
| HitTest.NodeAtPosition | src/components/RevisNetwork/util.ts:67-75 | The answer is the first node in map order that the pointer hits. It is none exactly when no live node is hit. |
| HitTest.EdgeAtPositionAsWritten | src/components/RevisNetwork/util.ts:79-87 | The scan as written returns the first edge whose distance compares below 10, counting a null distance as below 10. |
| HitTest.EdgeAtPosition | src/components/RevisNetwork/util.ts:79-87 | The corrected scan returns the first edge that has a distance and whose distance is below 10. |
| Interaction.NodeAt | src/components/RevisNetwork/RevisNetwork.tsx:259 | A node is found exactly when some live node is under the pointer, and the one found is in the heap and under the pointer. |
| Interaction.EdgeAt | src/components/RevisNetwork/RevisNetwork.tsx:260-264 | An edge is found exactly when some live edge is hit by the corrected test, and the one found is live and hit. |
| Interaction.EdgeAtAgreesWhenConnected | src/components/RevisNetwork/RevisNetwork.tsx:260-264 | When every live edge has both endpoints, EdgeAt picks the same edge as the scan as written, and finds none exactly when it finds none. |
| HitTest.DanglingEdgeHitEverywhere | src/components/RevisNetwork/components/RevisEdge.ts:55-58 | An edge with a missing endpoint, listed first, is returned by the scan as written at every position, and never by the corrected scan. |
| HitTest.EdgeScansAgreeWhenConnected | src/components/RevisNetwork/util.ts:79-87 | When every edge has both endpoints, the two scans agree. |
| Shapes.CheckShapeClick | src/components/RevisNetwork/util.ts:254-280 | A shape is hit exactly when it is clickable and the pointer is strictly inside its box of `width \|\| size` by `height \|\| size`. A shape with a missing or NaN value is never hit. |
| Shapes.ShapeAtPos | src/components/RevisNetwork/util.ts:282-293 | The answer is the last shape hit, the one drawn on top, and none when no shape is hit. |
| Shapes.HandleSquares | src/components/RevisNetwork/util.ts:308-331 | The eight handle squares of a selected shape, one per handle in the source's order. Shapes.HandlesOutsideShape states that at positive zoom none of them meets the shape's interior. |
| Shapes.HandleAtPos | src/components/RevisNetwork/util.ts:308-334 | The answer is the handle whose square is the last one hit, and none when the pointer is on no handle square. |
| Shapes.HandlesOutsideShape | src/components/RevisNetwork/util.ts:308-331 | At a positive zoom every handle square lies outside the shape's box, so a pointer strictly inside the shape selects no handle. |
| Shapes.HandleSides | src/components/RevisNetwork/util.ts:339-376 | Every handle moves at least one side, and no handle moves two opposite sides. |
| Shapes.ClampAndSquare | src/components/RevisNetwork/util.ts:378-384 | Each extent becomes the larger of itself and 10, and a NaN or missing extent stays NaN. With ctrl, both extents become the smaller of the two. Every other field is kept. |
| Shapes.SetShapeByHandleDragAsWritten | src/components/RevisNetwork/util.ts:336-386 | The resize as written keeps every field other than position and size. Right, bottom and unknown handles never move the origin. With ctrl the extents are equal, and a numeric extent is at least 10. The extent a middle handle does not move may be missing, so these bounds are stated only for numeric extents; Shapes.HandleMovesSidesAsWritten states each side's value. |
| Shapes.SizeOnlyShapeLosesWidth | src/components/RevisNetwork/util.ts:367-379 | A shape sized only by `size` and dragged by its bottom-centre handle gets a NaN width. With ctrl held, both sides become NaN. |
| Shapes.SetShapeByHandleDrag | src/components/RevisNetwork/util.ts:336-386 | The corrected resize: when the shape has both extents, the result has both, each at least 10, and they are equal with ctrl. Right, bottom and unknown handles never move the origin. |
| Shapes.HandleMovesSides | src/components/RevisNetwork/util.ts:336-380 | Without ctrl, in the corrected resize: a right or bottom handle makes that extent `Math.max((width \|\| size) + dx, 10)` (or the same with height and dy). A left or top handle adds the drag to x (or y) and makes the extent `Math.max((width \|\| size) - dx, 10)`. A top- or bottom-centre handle keeps x and makes the width `Math.max(width \|\| size, 10)`. A middle-left or middle-right handle keeps y and does the same for the height. |
| Shapes.HandleMovesSidesAsWritten | src/components/RevisNetwork/util.ts:336-380 | The same per-handle values for the resize as written, except on the axis a middle handle does not move. There the extent is `Math.max(width, 10)` or `Math.max(height, 10)` of the shape's own side, which is NaN when that side is missing. |
| Shapes.CtrlTakesSmallerSide | src/components/RevisNetwork/util.ts:378-384 | With ctrl, both extents become `Math.min` of the two clamped extents that the same drag gives without ctrl. Every other field is the same. This holds for the corrected resize and for the resize as written. |
| Shapes.LeftHandleKeepsRightEdge | src/components/RevisNetwork/util.ts:340-354 | Dragging a left handle keeps the right edge where it was, as long as the minimum size does not bind. |
| Shapes.TopHandleKeepsBottomEdge | src/components/RevisNetwork/util.ts:340-373 | Dragging a top handle keeps the bottom edge where it was, as long as the minimum size does not bind. |
| Shapes.DragAgreesWithExplicitSides | src/components/RevisNetwork/util.ts:336-386 | For a shape with its own width and height, the corrected resize equals the resize as written. |
| Interaction.HandleDragAgreesWithExplicitSides | src/components/RevisNetwork/RevisNetwork.tsx:209-229 | For a shape with its own non-zero width and height, the handle drag in the handler resizes it exactly as setShapeByHandleDrag as written does. |
| Shapes.Combined | src/components/RevisNetwork/util.ts:90-94 | The items bounded are every node, in order, followed by the items of the shapes whose boundsIgnore is undefined (Shapes.Kept), in their order. An ignored shape contributes no item, and every item after the nodes comes from a kept shape. |
| Shapes.Accumulate | src/components/RevisNetwork/util.ts:100-115 | The box contains the first item's position and every item's span [x-30, x+width] by [y-30, y+height]. Each x side is the first item's x or some item's span end. The box is NaN exactly on the axes where the first item has no numeric coordinate. |
| Shapes.GetBounds | src/components/RevisNetwork/util.ts:89-117 | With nothing to bound the box is the default 0..100 box. Otherwise it is accumulated from the first item. |
| Shapes.BoundsOfNodes | src/components/RevisNetwork/util.ts:89-117 | With at least one node the bounds are numbers with min at most max. Width and height are the differences, and every node's span is inside. |
| Shapes.IgnoredShapeDoesNotMatter | src/components/RevisNetwork/util.ts:93 | Adding a shape whose boundsIgnore is set does not change the bounds. |
| Shapes.MemoBoundsAsWritten | src/components/RevisNetwork/RevisNetwork.tsx:100-104 | The component's bounds over its live node map: with no node they are the bounds of the shapes alone. With any node every side, the width and the height are NaN, because the first item is a `[key, node]` entry without coordinates. |
| GraphStore.UpdateNode | src/components/RevisNetwork/RevisNetwork.tsx:684-685 | The node object under the definition's id is updated in place. The same object stays under every id, and no other node object changes. |
| GraphStore.CreateNode | src/components/RevisNetwork/RevisNetwork.tsx:686-688 | A node constructed from the definition is added under the id, with an identity not used before. No existing node object changes. |
| GraphStore.NodeStep | src/components/RevisNetwork/RevisNetwork.tsx:653-691 | One node iteration keeps the store valid and the edges untouched. The live ids gain the listed id, and the step is dirty exactly when that id was new. GraphStore.NodeStepEffect states what the id then holds. |
| GraphStore.NodeStepEffect | src/components/RevisNetwork/RevisNetwork.tsx:653-691 | One node iteration leaves its id holding the definition, as a freshly constructed node when the id was new. No other id changes, and no existing node changes except in its definition and `fixed` flag. |
| GraphStore.NodePassKeys | src/components/RevisNetwork/RevisNetwork.tsx:653-691 | After the node loop the live ids are the old ids plus the listed ids. The loop is dirty exactly when some listed id was new. |
| GraphStore.NodePassFrame | src/components/RevisNetwork/RevisNetwork.tsx:653-691 | The node loop keeps the identity under every live id and leaves unlisted ids untouched. |
| GraphStore.NodePassLastDefinition | src/components/RevisNetwork/RevisNetwork.tsx:653-691 | After the node loop each listed id holds the last definition listed under it. |
| GraphStore.StaleNodesAreUnlisted | src/components/RevisNetwork/RevisNetwork.tsx:694-699 | The sweep removes exactly the previously live ids that are not listed. |
| GraphStore.SetNodes | src/components/RevisNetwork/RevisNetwork.tsx:650-701 | After setGraphType for nodes the live ids are exactly the listed ids. The result is dirty exactly when the set of live ids changed. |
| GraphStore.SetNodesKeeps | src/components/RevisNetwork/RevisNetwork.tsx:650-701 | A node whose id stays listed keeps its object identity. No node changes except in its definition and `fixed` flag. |
| GraphStore.LexLessTotal | src/components/RevisNetwork/RevisNetwork.tsx:662 | The string order used by `sort` is total on distinct strings and asymmetric. |
| GraphStore.SortPair | src/components/RevisNetwork/RevisNetwork.tsx:662 | The answer is the two ids, with the smaller first. |
| GraphStore.PairKeyAsWritten | src/components/RevisNetwork/RevisNetwork.tsx:660-662 | The key as written is the smaller id, a dash, then the larger id. |
| GraphStore.PairKeyAsWrittenCollides | src/components/RevisNetwork/RevisNetwork.tsx:660-662 | The pairs ("c", "a-b") and ("b-c", "a") share the key "a-b-c". |
| GraphStore.KeyOf | src/components/RevisNetwork/RevisNetwork.tsx:660-662 | The corrected key is the pair of ids with the smaller first. |
| GraphStore.KeyOfIdentifiesPair | src/components/RevisNetwork/RevisNetwork.tsx:660-662 | Two corrected keys are equal exactly when the two edges join the same unordered pair of ids. |
| GraphStore.DashJoinInjective | src/components/RevisNetwork/RevisNetwork.tsx:660-662 | Joining two ids with a dash is injective while the left ids contain no dash. |
| GraphStore.PairKeyAsWrittenAgreesWithoutDash | src/components/RevisNetwork/RevisNetwork.tsx:660-662 | While no id contains a dash, two edges share the key as written exactly when they share the corrected key. |
| GraphStore.DupCountsSnoc | src/components/RevisNetwork/RevisNetwork.tsx:663-673 | The duplicate counter stays one less than the number of rebuilt edges under each key. |
| GraphStore.EdgeStep | src/components/RevisNetwork/RevisNetwork.tsx:653-683 | One edge iteration keeps the loop state valid. The live ids gain the listed id, and the loop becomes dirty exactly when it was dirty or that id was new. GraphStore.EdgeStepEffect states the rebuilt edge and its duplicate number. |
| GraphStore.EdgeStepEffect | src/components/RevisNetwork/RevisNetwork.tsx:653-683 | A new or changed edge is replaced by a fresh edge, with its ends looked up by id and its duplicate number equal to the count of edges rebuilt earlier in the pass between the same ids. A current edge is left alone, and no other id changes. |
| GraphStore.EdgePassKeys | src/components/RevisNetwork/RevisNetwork.tsx:653-691 | After the edge loop the live ids are the old ids plus the listed ids. The loop is dirty when it was dirty before or some listed id was new. |
| GraphStore.EdgePassFrame | src/components/RevisNetwork/RevisNetwork.tsx:653-691 | The edge loop leaves the edges of unlisted ids as they were. |
| GraphStore.EdgePassLastDefinition | src/components/RevisNetwork/RevisNetwork.tsx:653-691 | After the edge loop each listed id holds the last definition listed under it. |
| GraphStore.EdgePassEnds | src/components/RevisNetwork/RevisNetwork.tsx:674-683 | Every edge the loop rebuilt has its ends looked up in the node map by its definition's ids. |
| GraphStore.SetEdges | src/components/RevisNetwork/RevisNetwork.tsx:650-701 | After setGraphType for edges the live ids are exactly the listed ids. The result is dirty exactly when the set of live ids changed. |
| GraphStore.SetEdgesContents | src/components/RevisNetwork/RevisNetwork.tsx:650-701 | Each listed id holds the last definition listed under it, and every replaced edge has its ends from the node map. |
| GraphStore.CheckGraph | src/components/RevisNetwork/RevisNetwork.tsx:645-731 | Afterwards the live node ids and edge ids are exactly the listed ids, and the shapes are the new shapes. The layouter runs exactly when the callback, evaluated on the old state, asked for it or the set of node ids or edge ids changed. |
| GraphStore.CheckGraphMakesCurrent | src/components/RevisNetwork/RevisNetwork.tsx:645-731 | For a graph with unique ids, afterwards every live node and edge holds the listed definition under its own id. |
| GraphStore.CheckGraphIdempotent | src/components/RevisNetwork/RevisNetwork.tsx:645-731 | Handing over the same graph again changes nothing. The layouter then runs only if the callback asks for it. |
| GraphStore.UpdateKeepsPosition | src/components/RevisNetwork/RevisNetwork.tsx:684-685 | A node whose id stays listed keeps its identity, position, mass, size and destination. |
| GraphStore.RebuiltEdgeEndsAreLive | src/components/RevisNetwork/RevisNetwork.tsx:674-683 | An edge rebuilt by checkGraph refers to the node objects that are live after the node pass, under the ids its definition names. |
| Interaction.Fire | src/components/RevisNetwork/RevisNetwork.tsx:267 | `om && om(...)`: the call happens exactly when a callback is installed. |
| Interaction.Phase | src/components/RevisNetwork/RevisNetwork.tsx:254 | The switch key is "dblclick" for a double click, and otherwise the event type without its first five characters. |
| Interaction.PhasesOfMouseEvents | src/components/RevisNetwork/RevisNetwork.tsx:254 | mousedown, mouseup, mousemove and mouseleave select down, up, move and leave. |
| Interaction.ShiftNodes | src/components/RevisNetwork/RevisNetwork.tsx:325-329 | The dragged node objects move by the delta, and the heap keeps its identities. Interaction.ShiftNodesEffect states the movement per object. |
| Interaction.ShiftNodesEffect | src/components/RevisNetwork/RevisNetwork.tsx:325-329 | A node object listed k times moves by k times the delta. It becomes fixed when it is listed and fixing is on. Nothing else changes. |
| Interaction.ShiftDistinct | src/components/RevisNetwork/RevisNetwork.tsx:325-329 | With no repeats, each listed node moves by exactly the delta and every other node stays as it was. |
| Interaction.DragSelection | src/components/RevisNetwork/RevisNetwork.tsx:258-271 | The new dragged list contains the node and has no repeats. CtrlClickSelection states its order. |
| Interaction.GraphDown | src/components/RevisNetwork/RevisNetwork.tsx:255-283 | Pressing changes no node and no shape, sends no pan event, clears the hover popup and dispatches exactly one interaction event. DownPrecedence states which event. |
| Interaction.DownPrecedence | src/components/RevisNetwork/RevisNetwork.tsx:255-283 | The event starts a drag exactly when a node is hit. It selects an edge exactly when no node but an edge is hit, and it starts panning exactly when nothing is hit. A callback fires exactly when one is installed and something was hit. |
| Interaction.CtrlClickSelection | src/components/RevisNetwork/RevisNetwork.tsx:258-271 | With ctrl, meta or shift the node is appended only when it is absent, so a listed node keeps its place. Otherwise the list is just the node. |
| Interaction.ReclickKeepsAnchor | src/components/RevisNetwork/RevisNetwork.tsx:258-271 | Ctrl-clicking a node that is selected but not last leaves another node last, and the drag anchors that node to the pointer. |
| Interaction.GraphUp | src/components/RevisNetwork/RevisNetwork.tsx:284-311 | On release the drag is released and autopan stops. No node, shape, highlight or popup changes. |
| Interaction.UpCallbacks | src/components/RevisNetwork/RevisNetwork.tsx:286-302 | The background click fires exactly when nothing was dragged, the pointer did not move and no edge was pressed. The drag report fires exactly when nodes were dragged and the pointer moved. Never both. |
| Interaction.GraphMove | src/components/RevisNetwork/RevisNetwork.tsx:312-380 | A move fires no callback, changes no shape and keeps the same node objects. DragMovesSelection and HoverSchedulesNewTargets state the drag and hover cases. |
| Interaction.DragMovesSelection | src/components/RevisNetwork/RevisNetwork.tsx:315-339 | Every dragged node is shifted by the same delta and fixed, the last-listed node lands exactly on the pointer, and no other node object changes. |
| Interaction.HoverSchedulesNewTargets | src/components/RevisNetwork/RevisNetwork.tsx:350-377 | A popup is scheduled only for a target other than the popup's item, and always for the target now highlighted. Over blank space the highlight is dropped and the pending popup cancelled. |
| Interaction.GraphLeave | src/components/RevisNetwork/RevisNetwork.tsx:381-391 | Leaving stops autopan and releases the drag. It fires nothing and changes no node or shape. |
| Interaction.GraphDblClick | src/components/RevisNetwork/RevisNetwork.tsx:392-431 | A double click changes no node, shape, interaction state, highlight or popup. DblClickZoomsAtPointer states the background case. |
| Interaction.DblClickZoomsAtPointer | src/components/RevisNetwork/RevisNetwork.tsx:411-428 | A background double click fires nothing and animates towards the scale plus 0.3, clamped into [RealMinZoom, 6]. The world point under the pointer stays where it is. |
| Interaction.BringToFront | src/components/RevisNetwork/RevisNetwork.tsx:159-161 | The list keeps its length and ends with the shape. |
| Interaction.BringToFrontPermutes | src/components/RevisNetwork/RevisNetwork.tsx:159-161 | Bringing a shape to the front permutes the list and keeps the other shapes in their order. |
| Interaction.Replace | src/components/RevisNetwork/RevisNetwork.tsx:203-229 | Every entry that is the edited shape object, by identity (`ref`), takes its new state. Entries of other objects are unchanged, and when the new state keeps the identity the list holds the same objects in the same order. |
| Interaction.ShapeEditDown | src/components/RevisNetwork/RevisNetwork.tsx:142-169 | Pressing on shapes changes no node, sends no pan event and dispatches exactly one interaction event. ShapeDownPrecedence states which event. |
| Interaction.ShapeDownPrecedence | src/components/RevisNetwork/RevisNetwork.tsx:142-169 | A handle beats a shape, which beats the background. The chosen shape is the topmost one hit and ends up last, and the list is otherwise only permuted. |
| Interaction.ShapeEditUp | src/components/RevisNetwork/RevisNetwork.tsx:170-184 | The whole shape list is reported exactly when a selected shape was moved. Then the edit ends and autopan stops. |
| Interaction.ShapeEditMove | src/components/RevisNetwork/RevisNetwork.tsx:185-233 | A move on shapes changes no node and no highlight or popup, and fires no callback. ShapeDragFollowsPointer and HandleDragResizes state the drag and resize cases. |
| Interaction.ShapeDragFollowsPointer | src/components/RevisNetwork/RevisNetwork.tsx:199-207 | A dragged shape moves on screen by exactly the pointer movement, and nothing else about it or any other shape changes. A noEdit shape does not move. |
| Interaction.HandleDragResizes | src/components/RevisNetwork/RevisNetwork.tsx:209-231 | The resize applies the corrected setShapeByHandleDrag to the movement in world units. The shape keeps its other fields, is at least 10 by 10 when the shape has both extents (`width \|\| size` and `height \|\| size`), and is square with ctrl. |
| Interaction.ProcessShapeEdit | src/components/RevisNetwork/RevisNetwork.tsx:134-242 | Shape editing changes no node. Any event other than down, up and move does nothing. |
| Interaction.ProcessMouseAction | src/components/RevisNetwork/RevisNetwork.tsx:248-444 | With graph interaction on, no shape changes. With it off, no node changes. With graph and shape interaction both off, nothing happens. |
| Interaction.HandleMouse | src/components/RevisNetwork/RevisNetwork.tsx:470-481 | Without a bounding rectangle nothing happens and the answer is false. Otherwise the pointer's world position and the ctrl/meta/shift flag go to processMouseAction, and the answer is true. |
| Interaction.HandleMouseUsesPointerWorld | src/components/RevisNetwork/RevisNetwork.tsx:477-479 | A pointer-down goes to the graph handler with the world point drawn under the pointer: that point maps back to the pointer's canvas position. |
| Interaction.GetKeyAction | src/components/RevisNetwork/util.ts:209-225 | A bound key gives its non-empty action, and any other key gives none. |
| Interaction.KeyBindings | src/components/RevisNetwork/util.ts:209-222 | Exactly twelve keys are bound: the four arrows, "[", "]", "pageup", "pagedown" and the digits 1, 2, 3 and 5. |
| Interaction.KeyActions | src/components/RevisNetwork/util.ts:209-222 | The bindings produce exactly ten actions: four moves, zoom in, zoom out and the four preset levels. |
| Interaction.ZoomKeys | src/components/RevisNetwork/util.ts:209-225 | "]" and "pageup" zoom in, "[" and "pagedown" zoom out, and an unbound key such as "Enter" gives nothing. |
| Interaction.HandleKey | src/components/RevisNetwork/RevisNetwork.tsx:490-496 | An event already handled is ignored and the answer is false. Otherwise a keydown holds its binding, any other key event holds nothing, and the answer is true. |
| Interaction.EdgePan | src/components/RevisNetwork/RevisNetwork.tsx:557-576 | Autopan keeps the same node objects. EdgePanKeepsDraggedOnScreen states how the pan and the dragged nodes move. |
| Interaction.EdgePanKeepsDraggedOnScreen | src/components/RevisNetwork/RevisNetwork.tsx:557-576 | Each dragged node keeps its screen position under the new pan and keeps its fixed flag. Nodes that are not dragged do not change. |
| Interaction.TickHandler | src/components/RevisNetwork/RevisNetwork.tsx:579-591 | A tick dispatches at most three events: the key action, the animation step and the autopan. It moves no node without an autopan vector, and keeps the same node objects. |
| Interaction.HeldKeyRepeats | src/components/RevisNetwork/RevisNetwork.tsx:490-502 | After a keydown of a bound key, the first event of every tick is that key's action. After a keyup, no tick dispatches a key action. |
| LayoutUtils.CompareByMassDescending | src/components/RevisNetwork/layout/utils.ts:9-13 | The comparator sorts by descending mass, with a missing mass counting as 0, and is antisymmetric. |
| LayoutUtils.ParentChildOrder | src/components/RevisNetwork/layout/utils.ts:3-7 | Pure parents come first. Ties are broken by descending mass when both masses are numbers. The comparator is antisymmetric. |
| LayoutUtils.OrderLexicographic | src/components/RevisNetwork/layout/utils.ts:15-19 | The order is ascending parent order, then descending width, then descending mass, and it is antisymmetric. |
| LayoutUtils.AssignEdgeParentChild | src/components/RevisNetwork/layout/utils.ts:21-24 | The edge's end becomes a child and its start a parent. |
| LayoutUtils.AssignEdgeParentChildEffect | src/components/RevisNetwork/layout/utils.ts:21-24 | Nothing else changes, the end is never again a pure parent, and marking twice is the same as marking once. |
| LayoutUtils.GetWidth | src/components/RevisNetwork/layout/utils.ts:27-37 | A missing node answers 1 and changes nothing. Otherwise the answer is at least 1 and is the width stored on the root. |
| LayoutUtils.AnnotateConsistent | src/components/RevisNetwork/layout/utils.ts:27-37 | After getWidth every stored width is at least 1 and is the larger of 1 and the sum of the children's stored widths. |
| LayoutUtils.WidthCountsLeaves | src/components/RevisNetwork/layout/utils.ts:27-37 | The width of a subtree is its number of leaves. |
| LayoutUtils.LayoutBounds | src/components/RevisNetwork/layout/utils.ts:164-176 | The box contains the origin, and its width and height are the differences of its sides. |
| LayoutUtils.LayoutBoundsContains | src/components/RevisNetwork/layout/utils.ts:164-176 | The box contains every point. |
| LayoutUtils.LayoutBoundsTight | src/components/RevisNetwork/layout/utils.ts:164-176 | Each side is the origin's coordinate or some point's coordinate, so the box is the least one containing the origin and the points. |
| LayoutUtils.NodeBounds | src/components/RevisNetwork/layout/utils.ts:178-190 | The node box is the layout box (LayoutBounds) over the nodes' positions. It therefore contains the origin and every node's position. |
| LayoutUtils.ScaleCoords | src/components/RevisNetwork/layout/utils.ts:158-162 | Every field other than the coordinates is kept. ScaledIsMapped states the coordinates. |
| LayoutUtils.ScaledIsMapped | src/components/RevisNetwork/layout/utils.ts:158-162 | The points of the scaled coordinates are the old points with x multiplied by the x spacing and y by the y spacing. |
| LayoutUtils.ScaleCoordsCompose | src/components/RevisNetwork/layout/utils.ts:158-162 | Scaling twice is scaling once by the products, and scaling by 1 changes nothing. |
| LayoutUtils.MappedBounds | src/components/RevisNetwork/layout/utils.ts:164-176 | A monotone map of each axis that fixes the origin carries the box of points to the box of the mapped points. |
| LayoutUtils.ScaledBounds | src/components/RevisNetwork/layout/utils.ts:158-176 | With non-negative spacings, the bounds of the scaled coordinates are the old sides times their axis's spacing. |
| LayoutUtils.YSpacing | src/components/RevisNetwork/layout/utils.ts:198-211 | The y spacing is the one that gives the layout the screen's aspect ratio at x spacing 100. Above 500 it is clamped to 500 and below 100 to 100, so it is always within [100, 500]. |
| LayoutUtils.ScreenSpacing | src/components/RevisNetwork/layout/utils.ts:193-214 | The x spacing is 100. The y spacing is YSpacing over the layout box's width and height, with a zero extent counting as 1, and lies in [100, 500]. |
| LayoutUtils.YSpacingKeepsAspect | src/components/RevisNetwork/layout/utils.ts:202-211 | When the clamp does not bind, the scaled layout has the screen's aspect ratio. |
| LayoutUtils.ShouldAssignCoords | src/components/RevisNetwork/layout/utils.ts:218-220 | The answer is false exactly when x, y and fixed are each a number or a boolean and none is false. An undefined, null or false value makes it true. |
| LayoutUtils.ShouldAssignCoordsCases | src/components/RevisNetwork/layout/utils.ts:219-220 | Zero coordinates count as present, and a node that is not fixed always gets coordinates. |
| LayoutUtils.AssignCoords | src/components/RevisNetwork/layout/utils.ts:222-230 | A node with either coordinate keeps its position and gets the computed point as its destination. Otherwise it is placed at the point. |
| LayoutUtils.AssignCoordsReaches | src/components/RevisNetwork/layout/utils.ts:222-230 | Afterwards the node is at the computed point or heading to it, and a node that was placed never jumps. Assigning the same point again only sets it as the destination. |
| LayoutUtils.ConstructedNodesEase | src/components/RevisNetwork/layout/utils.ts:222-230 | A node built by the node constructor always has both coordinates, so assignCoords only ever eases it. |
| Renderer.NeedsRedraw | src/components/RevisNetwork/Renderer.tsx:143 | A frame is drawn when dirty, during an interaction, or while a pan or a non-zero scale destination is set. Renderer.LoopFrameThrottles states that a processed frame draws exactly then. |
| Renderer.LoopFrame | src/components/RevisNetwork/Renderer.tsx:120-147 | A frame that draws has ticked and clears dirty. A skipped frame changes nothing. A processed frame records its time, and one that does not draw keeps dirty. |
| Renderer.LoopFrameThrottles | src/components/RevisNetwork/Renderer.tsx:131-146 | A frame is processed exactly when it is the first or comes at least 30 ms after the last processed one. A processed frame draws exactly when NeedsRedraw holds. |
| Renderer.BeforeFrame | src/components/RevisNetwork/Renderer.tsx:101-103 | A props change sets dirty, and otherwise nothing changes. |
| Renderer.RunFrames | src/components/RevisNetwork/Renderer.tsx:120-147 | Over a run of frames, no more frames are processed than arrive, and no more are drawn than are processed. |
| Renderer.ThrottleSpacing | src/components/RevisNetwork/Renderer.tsx:120-147 | Over any run, consecutive processed frames are at least 30 ms apart unless the earlier one was at time 0, and the state remembers the last processed frame. |
| Renderer.StaticViewDrawsAtMostOnce | src/components/RevisNetwork/Renderer.tsx:101-147 | A view where nothing changes is drawn at most once, and only if it started dirty. |
| Camera.InViewPort | src/components/RevisNetwork/util.ts:294-302 | The strict box test. Renderer.ViewPortIsPaddedScreen states that, at positive scale, it holds exactly when the node is on the screen grown by 10 pixels. |
| Renderer.ViewPortIsPaddedScreen | src/components/RevisNetwork/Renderer.tsx:251-256 | At a positive scale, a world point is in the viewport exactly when its screen position is strictly inside the screen grown by 10 pixels. |
| Renderer.ShouldRender | src/components/RevisNetwork/Renderer.tsx:272-277 | An item is drawn when it has a render function and, on the node canvas only, is moving or inside the viewport. Renderer.OnlyNodesAreCulled states the cases. |
| Renderer.OnlyNodesAreCulled | src/components/RevisNetwork/Renderer.tsx:272-280 | Only the node canvas culls, and it never culls a node that is moving. |
| Renderer.DrawShapes | src/components/RevisNetwork/Renderer.tsx:184-194 | A shape is drawn exactly when it is listed and its `visible` is not false. |
| Renderer.DrawShapesConcat | src/components/RevisNetwork/Renderer.tsx:193-194 | Drawing keeps the list order: the shapes drawn from a concatenation are those of each part, in turn. |
| Renderer.AllVisibleShapesDrawn | src/components/RevisNetwork/Renderer.tsx:193-194 | When no shape is hidden, every shape is drawn, in order. |
| Renderer.DrawNodes | src/components/RevisNetwork/Renderer.tsx:272-280 | A node is drawn exactly when it is listed and is moving or inside the viewport. |
| Renderer.Draw | src/components/RevisNetwork/Renderer.tsx:106-118 | The calls go bottom to top: visible shapes, then every live edge, then the nodes that survive culling. Each kind is drawn exactly when its condition holds. |
| Renderer.NodeDrawnIffOnScreen | src/components/RevisNetwork/Renderer.tsx:244-280 | A live node is drawn exactly when it is moving or its screen position is inside the screen grown by 10 pixels. |

## Left out

- Division by zero: JavaScript answers Infinity or NaN, while the model requires a non-zero divisor. This covers a camera scale of 0 (Camera, Interaction, Renderer), a zero screen width or layout extent in scaleCoordsByScreenSize, and a degenerate padded bounds in the wheel zoom.
- Camera.FitToScreen: the scale is not rounded to 4 decimals (`toFixed(4)`) and the pan is not rounded to 2 decimals (`toFixed(2)`), because decimal string rounding has no exact counterpart on reals. The contract states the unrounded target.
- getHoverPos (util.ts:39-53), the hover timer and the popup position are left out, because they are DOM timing and layout. Scheduling a popup is an effect in the model.
- getNodePositions, addGraphEvents and removeGraphEvents (util.ts:199-252) are left out, because they only copy data or register DOM listeners.
- Canvas drawing is left out: colours, gradients, images, fonts, `save`/`restore`, and the arrowhead angle (`Math.atan2`). A render is the data it computes and the items it hands on.
- Edges.AdjustedTBounds: `Math.sqrt` is a parameter with the properties of a square root, because Dafny has no real square root.
- Curves.FitText: counts Dafny characters, which are code points, while `length` and `substring` count UTF-16 code units. A label with characters above U+FFFF is therefore cut at a different place than the source cuts it, which may be inside a surrogate pair.
- GraphStore.SortPair: orders ids by code point, while JavaScript's default `sort` compares UTF-16 code units. The two orders differ only for ids that mix characters above U+FFFF with characters in U+E000 to U+FFFF.
- Curves.DistanceToBezierEdge: the segment distance is a parameter, because the source calls a `getDistanceToLine` that it neither defines nor imports from a file with such a function.
- The reducers behind `usePanScale` and `useInteraction` are not part of this model, because they are outside the core. Handlers return the events they dispatch, and the tick handler's `zoomPanimate` and key actions are events.
- resize, zoomHandler, zoomToFit, runLayout and handleMouseWheel are not modelled as handlers, because they only call modelled functions and dispatch to the reducers. The wheel and fit computations themselves are modelled.
- HandleKey: the `event.keyCode` fallback for a missing `key` is not modelled, and neither are keys that name `Object.prototype` members (for example "constructor"), which `keyMap[key]` would return.
- ShapeActionHasShape: the shape handlers require that a shape action comes with its shape, because the source would throw on `iSt.shape.noEdit` otherwise.
- Shapes.GetBounds: only node and shape fields that are numbers or missing are modelled. A `null` coordinate is not.
- LayoutUtils.LayoutBounds: coordinates are numbers. The source's `Math.min(0, undefined)` would make the box NaN.
- crawl and orderNodes (layout/utils.ts:40-154) are left out, because they are tree traversals driven by callbacks, used only by the layouts.
- LayoutUtils.ScaledBounds: the sides are stated as the axis maps `ScaleBy(k)` applied to the old sides rather than as products, which is equivalent.
- The `|| 10` fallback padding in zoomToFit is not modelled: FitToScreen takes the padding it is given.
- Renderer: `dirty` is React state read through a closure and `lastFrameTime` is a local variable of the component body, so in the source both can be reset when the component re-renders. The model treats both as persistent loop state, which is what the code is evidently written for.
- Renderer.Draw: the test `item.render !== undefined` is always true for node and edge objects, so it is a parameter of ShouldRender and true in Draw. The `!items \|\| !ref.current` checks on the canvases are not modelled.
- Nodes.RenderNode: the cover-opacity pass and the node drawing function are left out, because they are canvas drawing only.
- Interaction.EdgeAt: uses the corrected edge test, so a live edge with a missing endpoint is never picked. The handler's scan as written (RevisNetwork.tsx:260-264, 360-364, 401-405) picks the first such edge at every position (the first finding). The two agree when every live edge has both endpoints (Interaction.EdgeAtAgreesWhenConnected).
- Interaction.GraphDown: the edge it selects comes from Interaction.EdgeAt, so with a dangling live edge it follows the corrected test, not the source's.
- Interaction.DownPrecedence: "an edge is hit" means hit by the corrected test; with a dangling live edge the source would select that edge instead of starting a pan.
- Interaction.GraphMove: the hover target comes from Interaction.EdgeAt, so with a dangling live edge it follows the corrected test.
- Interaction.HoverSchedulesNewTargets: the edge hover target is the corrected one; with a dangling live edge the source would hover that edge everywhere.
- Interaction.GraphDblClick: the edge double click uses the corrected test, and the background zoom reads View.bounds, which the model takes as numbers (see Interaction.View).
- Interaction.DblClickZoomsAtPointer: states the zoom over numeric bounds. With the source's bounds, which are NaN once a node exists, the destination scale and pan are NaN (Camera.WheelScaleJs, the fourth finding).
- Interaction.View: `bounds` is a parameter, taken as numbers, as the corrected getBounds over the node objects (Shapes.BoundsOfNodes) gives. The source's memo (RevisNetwork.tsx:100-104) runs over the node map's `[key, node]` entries, so it is NaN once any node exists (Shapes.MemoBoundsAsWritten). Its dependencies are refs and the shapes, so it is recomputed only when the shapes change. Neither the NaN nor the staleness is modelled.
- Camera.BoundsScale: takes real bounds. The NaN that getBoundsScale passes on from NaN bounds is not modelled as a function of its own. Camera.WheelScaleJs covers the step from a NaN bound scale to a NaN zoom.
- Interaction.ShapeEditMove: resizes with the corrected setShapeByHandleDrag, so a shape sized only by `size` keeps numeric sides. The handler as written (RevisNetwork.tsx:209-229) gives it a NaN width (the third finding). The two agree for shapes with their own width and height (Interaction.HandleDragAgreesWithExplicitSides).
- Interaction.HandleDragResizes: states the corrected resize; see Interaction.ShapeEditMove.
- GraphStore.EdgeStep: counts parallel edges per pair of ids (GraphStore.KeyOf), not per dash-joined string, so ids containing a dash do not collide (the second finding). The two keys agree while no id contains a dash (GraphStore.PairKeyAsWrittenAgreesWithoutDash).
- GraphStore.EdgeStepEffect: the duplicate number it states is counted per corrected key; see GraphStore.EdgeStep.
- GraphStore.DupCountsSnoc: the counter is kept per corrected key; see GraphStore.EdgeStep.
- GraphStore.CheckGraph: rebuilt edges get duplicate numbers per corrected key; see GraphStore.EdgeStep.

## Findings

| source | as written | input that shows it | evidently intended | confidence | as-written member | corrected member |
|---|---|---|---|---|---|---|
| src/components/RevisNetwork/util.ts:82 with src/components/RevisNetwork/components/RevisEdge.ts:56-58 | `edge.getDistanceFrom(pos, opts) < 10`, where an edge with a missing endpoint answers `null` and `null < 10` is true | an edge whose `to` names an id with no node, listed first: it is returned for every pointer position, so every click and hover picks it | an edge without a distance is never hit | high (not executed) | HitTest.EdgeAtPositionAsWritten, HitTest.DanglingEdgeHitEverywhere | HitTest.EdgeAtPosition, HitTest.EdgeScansAgreeWhenConnected |
| src/components/RevisNetwork/RevisNetwork.tsx:660-662 | duplicate key `[to, from].sort().join("-")` | edges ("c", "a-b") and ("b-c", "a") both get key "a-b-c", so the second is drawn as a parallel of the first | parallel edges counted per unordered pair of ids | high (not executed) | GraphStore.PairKeyAsWritten, GraphStore.PairKeyAsWrittenCollides | GraphStore.KeyOf, GraphStore.KeyOfIdentifiesPair |
| src/components/RevisNetwork/util.ts:367-379 | an axis the handle does not move keeps `si.width`/`si.height`, then `Math.max(ret.width, 10)` | a shape `{x: 0, y: 0, size: 20}` dragged by handle "bc": `Math.max(undefined, 10)` makes the width NaN, and the shape is no longer drawn or hit | the unmoved side keeps `width \|\| size` | high (not executed) | Shapes.SetShapeByHandleDragAsWritten, Shapes.SizeOnlyShapeLosesWidth | Shapes.SetShapeByHandleDrag, Shapes.DragAgreesWithExplicitSides |
| src/components/RevisNetwork/RevisNetwork.tsx:100-104 | `getBounds(Array.from(nodes.current) \|\| [], shapes)`, where `nodes.current` is a Map, so the items are `[key, node]` pairs | any graph with at least one node: the first item has no `x`, so every side of the bounds is NaN, and a double click on the background dispatches a NaN destination scale and pan | getBounds over the node objects, as the renderer is given at RevisNetwork.tsx:800 | high (not executed) | Shapes.MemoBoundsAsWritten, Camera.WheelScaleJs | Shapes.BoundsOfNodes |

## Where the model departs from the code

The operations of the model use the corrected definition in each of the four findings:

- Edge hit-testing in every handler goes through Interaction.EdgeAt, which uses HitTest.EdgeAtPosition. The source uses the scan as written.
- The handle drag in Interaction.ShapeEditMove uses Shapes.SetShapeByHandleDrag. The source uses the resize as written.
- Duplicate detection in GraphStore.EdgeStep keys by GraphStore.KeyOf. The source keys by the dash-joined string.
- The bounds in Interaction.View are numbers, as Shapes.BoundsOfNodes gives. The source's memo gives NaN.

Each is also listed under "Left out". For the first three, that line names the lemma that says where the two versions agree.

Removing a node leaves edges that are not rebuilt holding their reference to the removed node object (RevisNetwork.tsx:651-697: an edge is rebuilt only when its definition changed). Such an edge is still drawn at that node's last position. GraphStore keeps node objects in a heap for this reason.

=== FILE: camera.dfy ===
/**
 * The camera of the graph viewer: the world-to-screen affine map
 * (scale uniformly, then translate by pan), the pointer-to-world map, the
 * anchor-preserving wheel zoom, the fit-to-bounds target and the edge
 * auto-pan vector used while dragging near the border of the canvas.
 */
module Camera {
  import opened JsValues

  datatype Point = Point(x: real, y: real)

  /** The canvas' client rectangle (`getBoundingClientRect()`). */
  datatype Rect = Rect(left: real, top: real, width: real, height: real)

  datatype Screen = Screen(width: real, height: real, boundingRect: Option<Rect>)

  /**
   * The pan/scale state. The reducer that owns it is not part of this
   * model; the fields that the model reads are kept.
   */
  datatype PanScaleState = PanScaleState(
    pan: Point,
    scale: real,
    destinationPan: Option<Point>,
    destinationScale: Option<real>,
    panPerFrame: Option<Point>)

  datatype Bounds = Bounds(minX: real, minY: real, maxX: real, maxY: real, width: real, height: real)

  datatype Padding = Padding(horizontal: real, vertical: real)

  /** A pointer event as far as the camera needs it. */
  datatype PointerEvent = PointerEvent(clientX: real, clientY: real, deltaY: real)

  const ScreenPanMargin: real := 35.0
  const ZoomFactor: real := 0.002
  const MinZoom: real := 0.6
  const MaxZoom: real := 6.0

  /** getNodeScreenPos: world position to canvas position. */
  function NodeScreenPos(n: Point, ps: PanScaleState): Point {
    Point(n.x * ps.scale + ps.pan.x, n.y * ps.scale + ps.pan.y)
  }

  /**
   * getMousePos: client position to world position. Without a bounding
   * rectangle the source answers the far-away point (-1000, -1000);
   * otherwise the answer is the world point that NodeScreenPos maps to the
   * pointer's canvas-relative position.
   */
  function MousePos(e: PointerEvent, screen: Screen, ps: PanScaleState): (r: Point)
    requires ps.scale != 0.0
    ensures screen.boundingRect.None? ==> r == Point(-1000.0, -1000.0)
    ensures screen.boundingRect.Some? ==>
      NodeScreenPos(r, ps) == Point(e.clientX - screen.boundingRect.value.left,
                                    e.clientY - screen.boundingRect.value.top)
  {
    match screen.boundingRect
    case None => Point(-1000.0, -1000.0)
    case Some(br) =>
      var r := Point((e.clientX - br.left - ps.pan.x) / ps.scale,
                     (e.clientY - br.top - ps.pan.y) / ps.scale);
      assert r.x * ps.scale == e.clientX - br.left - ps.pan.x;
      assert r.y * ps.scale == e.clientY - br.top - ps.pan.y;
      r
  }

  /** The other direction: the pointer over a node's screen position reads back that node's position. */
  lemma MousePosOfNodeScreenPos(n: Point, br: Rect, ps: PanScaleState, deltaY: real)
    requires ps.scale != 0.0
    ensures
      var s := NodeScreenPos(n, ps);
      MousePos(PointerEvent(s.x + br.left, s.y + br.top, deltaY), Screen(0.0, 0.0, Some(br)), ps) == n
  {
    var s := NodeScreenPos(n, ps);
    var r := MousePos(PointerEvent(s.x + br.left, s.y + br.top, deltaY), Screen(0.0, 0.0, Some(br)), ps);
    assert r.x * ps.scale == n.x * ps.scale;
    assert r.y * ps.scale == n.y * ps.scale;
  }

  /**
   * getScreenEdgePan: the per-frame pan while dragging near the border.
   * x is positive left of the margin and negative right of it, its
   * magnitude the distance past the margin (the left test wins when both
   * hold); y likewise. No vector at all when the pointer is not closer than
   * the margin to any border.
   */
  function ScreenEdgePan(br: Rect, e: PointerEvent): (r: Option<Point>)
    ensures r.None? <==>
      (br.left + ScreenPanMargin <= e.clientX <= br.left + br.width - ScreenPanMargin &&
       br.top + ScreenPanMargin <= e.clientY <= br.top + br.height - ScreenPanMargin)
    ensures r.Some? ==>
      (r.value.x > 0.0 <==> e.clientX < br.left + ScreenPanMargin) &&
      (r.value.x > 0.0 ==> r.value.x == br.left + ScreenPanMargin - e.clientX) &&
      (r.value.x < 0.0 <==> br.left + ScreenPanMargin <= e.clientX && e.clientX > br.left + br.width - ScreenPanMargin) &&
      (r.value.x < 0.0 ==> -r.value.x == e.clientX - (br.left + br.width - ScreenPanMargin))
    ensures r.Some? ==>
      (r.value.y > 0.0 <==> e.clientY < br.top + ScreenPanMargin) &&
      (r.value.y > 0.0 ==> r.value.y == br.top + ScreenPanMargin - e.clientY) &&
      (r.value.y < 0.0 <==> br.top + ScreenPanMargin <= e.clientY && e.clientY > br.top + br.height - ScreenPanMargin) &&
      (r.value.y < 0.0 ==> -r.value.y == e.clientY - (br.top + br.height - ScreenPanMargin))
  {
    var d := ScreenPanMargin;
    var x :=
      if e.clientX < d + br.left then d + br.left - e.clientX
      else if e.clientX > br.width + br.left - d then -(d - (br.width + br.left - e.clientX))
      else 0.0;
    var y :=
      if e.clientY < d + br.top then d + br.top - e.clientY
      else if e.clientY > br.height + br.top - d then -(d - (br.height + br.top - e.clientY))
      else 0.0;
    if x != 0.0 || y != 0.0 then Some(Point(x, y)) else None
  }

  /**
   * getBoundsScale: the largest scale at which the bounds, padded by one
   * node size on every side, fit the screen on both axes.
   */
  function BoundsScale(height: real, width: real, b: Bounds, nodeSize: real): (r: real)
    requires b.height + nodeSize * 2.0 > 0.0 && b.width + nodeSize * 2.0 > 0.0
    ensures r * (b.height + nodeSize * 2.0) <= height
    ensures r * (b.width + nodeSize * 2.0) <= width
    ensures r * (b.height + nodeSize * 2.0) == height || r * (b.width + nodeSize * 2.0) == width
  {
    var hf := height / (b.height + nodeSize * 2.0);
    var wf := width / (b.width + nodeSize * 2.0);
    assert hf * (b.height + nodeSize * 2.0) == height;
    assert wf * (b.width + nodeSize * 2.0) == width;
    Min(hf, wf)
  }

  /** The lower zoom limit: the configured minimum or the fit scale, less a 5% margin. */
  function RealMinZoom(boundScale: real): (r: real)
    ensures r <= MinZoom * 0.95 && r <= boundScale * 0.95
    ensures r == MinZoom * 0.95 || r == boundScale * 0.95
  {
    Min(MinZoom, boundScale) * 0.95
  }

  /** The wheel step clamped into [RealMinZoom, MaxZoom]. */
  function WheelScale(scale: real, deltaY: real, boundScale: real): (r: real)
    ensures RealMinZoom(boundScale) <= r <= MaxZoom
    ensures RealMinZoom(boundScale) <= scale - ZoomFactor * deltaY <= MaxZoom ==>
      r == scale - ZoomFactor * deltaY
    ensures scale - ZoomFactor * deltaY < RealMinZoom(boundScale) ==> r == RealMinZoom(boundScale)
    ensures scale - ZoomFactor * deltaY > MaxZoom ==> r == MaxZoom
  {
    Min(Max(RealMinZoom(boundScale), scale - ZoomFactor * deltaY), MaxZoom)
  }
  /**
   * The same step over a bound scale that may not be a number:
   * `Math.min` and `Math.max` pass NaN through, so a NaN bound scale gives
   * a NaN zoom, and a numeric one gives the clamped step.
   */
  function WheelScaleJs(scale: real, deltaY: real, boundScale: JsNum): (r: JsNum)
    ensures r.Num? <==> boundScale.Num?
    ensures boundScale.Num? ==> r == Num(WheelScale(scale, deltaY, boundScale.v))
  {
    var realMin := if boundScale.Num? then Num(RealMinZoom(boundScale.v)) else NaN;
    JsMin(JsMax(realMin, Num(scale - ZoomFactor * deltaY)), Num(MaxZoom))
  }


  /** The pan that keeps `mouse` over the same world point when the scale changes. */
  function AnchoredPan(mouse: Point, pan: Point, scale: real, newScale: real): Point
    requires scale != 0.0
  {
    Point(AnchoredPanAxis(mouse.x, pan.x, scale, newScale), AnchoredPanAxis(mouse.y, pan.y, scale, newScale))
  }

  /** One axis of the re-anchored pan: `pan - (pm * newScale - pm * scale) / scale` with `pm = mouse - pan`. */
  function AnchoredPanAxis(mouse: real, pan: real, scale: real, newScale: real): real
    requires scale != 0.0
  {
    var pm := mouse - pan;
    pan - (pm * newScale - pm * scale) / scale
  }

  /**
   * getPanScaleFromMouseWheel: new scale clamped as WheelScale says, pan
   * re-anchored at the pointer, every other field of the state kept.
   */
  function PanScaleFromMouseWheel(e: PointerEvent, ps: PanScaleState, screen: Screen,
                                  bounds: Bounds, nodeSize: real): (r: PanScaleState)
    requires ps.scale != 0.0
    requires screen.boundingRect.Some?
    requires bounds.height + nodeSize * 2.0 > 0.0 && bounds.width + nodeSize * 2.0 > 0.0
    ensures RealMinZoom(BoundsScale(screen.height, screen.width, bounds, nodeSize)) <= r.scale <= MaxZoom
    ensures r.scale == WheelScale(ps.scale, e.deltaY, BoundsScale(screen.height, screen.width, bounds, nodeSize))
    ensures r.pan == AnchoredPan(Point(e.clientX - screen.boundingRect.value.left, e.clientY - screen.boundingRect.value.top),
                                 ps.pan, ps.scale, r.scale)
    ensures r.destinationPan == ps.destinationPan && r.destinationScale == ps.destinationScale
    ensures r.panPerFrame == ps.panPerFrame
  {
    var boundScale := BoundsScale(screen.height, screen.width, bounds, nodeSize);
    var newScale := WheelScale(ps.scale, e.deltaY, boundScale);
    var br := screen.boundingRect.value;
    var mouse := Point(e.clientX - br.left, e.clientY - br.top);
    ps.(scale := newScale, pan := AnchoredPan(mouse, ps.pan, ps.scale, newScale))
  }

  /** The world point under canvas position `mouse`. */
  function WorldAt(mouse: Point, pan: Point, scale: real): Point
    requires scale != 0.0
  {
    Point(WorldAxis(mouse.x, pan.x, scale), WorldAxis(mouse.y, pan.y, scale))
  }

  function WorldAxis(mouse: real, pan: real, scale: real): real
    requires scale != 0.0
  {
    (mouse - pan) / scale
  }

  lemma DivMul(a: real, b: real)
    requires b != 0.0
    ensures (a / b) * b == a
  {
  }

  /** Cross-multiplication for real quotients. */
  lemma CrossDiv(a: real, b: real, c: real, d: real)
    requires b != 0.0 && d != 0.0 && a * d == c * b
    ensures a / b == c / d
  {
    var x := a / b;
    var y := c / d;
    DivMul(a, b);
    DivMul(c, d);
    assert x * b * d == a * d;
    assert y * d * b == c * b;
    assert (x - y) * (b * d) == 0.0;
    assert b * d != 0.0;
  }

  lemma AnchorAxis(m: real, p: real, s: real, ns: real)
    requires s != 0.0 && ns != 0.0
    ensures WorldAxis(m, AnchoredPanAxis(m, p, s, ns), ns) == WorldAxis(m, p, s)
  {
    var pm := m - p;
    var diff := (pm * ns - pm * s) / s;
    DivMul(pm * ns - pm * s, s);
    var lhs := m - (p - diff);
    assert lhs * s == pm * s + diff * s;
    assert lhs * s == pm * ns;
    CrossDiv(lhs, ns, pm, s);
    assert AnchoredPanAxis(m, p, s, ns) == p - diff;
    assert WorldAxis(m, p - diff, ns) == lhs / ns;
    assert WorldAxis(m, p, s) == pm / s;
  }

  /** The re-anchored pan keeps the world point under `mouse`. */
  lemma AnchoredPanKeepsWorld(mouse: Point, pan: Point, s: real, ns: real)
    requires s != 0.0 && ns != 0.0
    ensures WorldAt(mouse, AnchoredPan(mouse, pan, s, ns), ns) == WorldAt(mouse, pan, s)
  {
    AnchorAxis(mouse.x, pan.x, s, ns);
    AnchorAxis(mouse.y, pan.y, s, ns);
  }

  /**
   * Anchor preservation: the world point under the pointer before the
   * wheel zoom is the world point under it afterwards.
   */
  lemma WheelZoomKeepsAnchor(e: PointerEvent, ps: PanScaleState, screen: Screen,
                             bounds: Bounds, nodeSize: real)
    requires ps.scale != 0.0
    requires screen.boundingRect.Some?
    requires bounds.height + nodeSize * 2.0 > 0.0 && bounds.width + nodeSize * 2.0 > 0.0
    ensures
      var r := PanScaleFromMouseWheel(e, ps, screen, bounds, nodeSize);
      var br := screen.boundingRect.value;
      var mouse := Point(e.clientX - br.left, e.clientY - br.top);
      r.scale != 0.0 ==> WorldAt(mouse, r.pan, r.scale) == WorldAt(mouse, ps.pan, ps.scale)
  {
    var r := PanScaleFromMouseWheel(e, ps, screen, bounds, nodeSize);
    var br := screen.boundingRect.value;
    var mouse := Point(e.clientX - br.left, e.clientY - br.top);
    if r.scale != 0.0 {
      assert r.pan == AnchoredPan(mouse, ps.pan, ps.scale, r.scale);
      AnchoredPanKeepsWorld(mouse, ps.pan, ps.scale, r.scale);
    }
  }

  /**
   * getFitToScreen before its decimal rounding: no target without bounds;
   * otherwise the scale that fits the padded bounds into the screen less
   * the padding, and a pan that puts the centre of the bounds at the centre
   * of the screen.
   */
  function FitToScreen(bounds: Option<Bounds>, screen: Screen, padding: Padding, nodeSize: real)
    : (r: Option<(real, Point)>)
    requires bounds.Some? ==> bounds.value.height + nodeSize * 2.0 > 0.0 && bounds.value.width + nodeSize * 2.0 > 0.0
    ensures r.None? <==> bounds.None?
    ensures r.Some? ==>
      var b := bounds.value;
      var (scale, pan) := r.value;
      && scale * (b.height + nodeSize * 2.0) <= screen.height - padding.vertical
      && scale * (b.width + nodeSize * 2.0) <= screen.width - padding.horizontal
      && (scale * (b.height + nodeSize * 2.0) == screen.height - padding.vertical ||
          scale * (b.width + nodeSize * 2.0) == screen.width - padding.horizontal)
      && NodeScreenPos(Point(b.minX + b.width / 2.0, b.minY + b.height / 2.0),
                       PanScaleState(pan, scale, None, None, None))
         == Point(screen.width / 2.0, screen.height / 2.0)
  {
    match bounds
    case None => None
    case Some(b) =>
      var scale := BoundsScale(screen.height - padding.vertical, screen.width - padding.horizontal, b, nodeSize);
      var x := screen.width / 2.0 - (b.width / 2.0 + b.minX) * scale;
      var y := screen.height / 2.0 - (b.height / 2.0 + b.minY) * scale;
      CentreAxis(b.minX, b.width, scale, screen.width);
      CentreAxis(b.minY, b.height, scale, screen.height);
      Some((scale, Point(x, y)))
  }

  lemma CentreAxis(min: real, extent: real, scale: real, size: real)
    ensures (min + extent / 2.0) * scale + (size / 2.0 - (extent / 2.0 + min) * scale) == size / 2.0
  {
  }

  /** A fit example: a 100x100 box on a 500x500 screen without padding. */
  lemma FitExample(m: real)
    requires m >= 0.0
    ensures
      var r := FitToScreen(Some(Bounds(0.0, 0.0, 100.0, 100.0, 100.0, 100.0)),
                           Screen(500.0, 500.0, None), Padding(0.0, 0.0), m);
      r.Some? && r.value.0 == 500.0 / (100.0 + 2.0 * m) &&
      NodeScreenPos(Point(50.0, 50.0), PanScaleState(r.value.1, r.value.0, None, None, None)) == Point(250.0, 250.0)
  {
  }

  /** inViewPort: a strict box test. */
  datatype ViewPort = ViewPort(left: real, top: real, right: real, bottom: real)

  predicate InViewPort(item: Point, vp: ViewPort) {
    item.x < vp.right && item.x > vp.left && item.y > vp.top && item.y < vp.bottom
  }
}

=== FILE: curves.dfy ===
/**
 * Drawing helpers shared by nodes and edges: label truncation and the
 * quadratic-curve geometry used to draw curved edges and to measure how
 * far the pointer is from one.
 */
module Curves {
  import opened Camera

  /**
   * The suffix appended to a truncated label. The source file holds the
   * three characters U+00E2 U+20AC U+00A6 (a UTF-8 ellipsis read back as
   * Windows-1252), and that is what is drawn.
   */
  const TruncationSuffix: string := "\U{00E2}\U{20AC}\U{00A6}"

  /**
   * drawText's `fitText`: a label within the allowance is drawn whole;
   * a longer one is cut to its first `allowed` characters and suffixed.
   */
  function FitText(txt: string, allowed: nat): (r: string)
    ensures |txt| <= allowed ==> r == txt
    ensures |txt| > allowed ==>
      |r| == allowed + |TruncationSuffix| && r[..allowed] == txt[..allowed] && r[allowed..] == TruncationSuffix
    ensures |r| <= allowed + |TruncationSuffix|
  {
    var cut := if |txt| <= allowed then txt else txt[..allowed];
    cut + (if |txt| > allowed then TruncationSuffix else "")
  }

  /** Truncating an already truncated label changes nothing. */
  lemma FitTextIdempotent(txt: string, allowed: nat)
    ensures FitText(FitText(txt, allowed), allowed) == FitText(txt, allowed)
  {
    var r := FitText(txt, allowed);
    if |txt| > allowed {
      assert r[..allowed] + TruncationSuffix == r;
    }
  }

  /** The quadratic Bezier point at parameter `t` (getQuadraticXY and the sampler share it). */
  function BezierPoint(t: real, s: Point, via: Point, e: Point): Point {
    Point((1.0 - t) * (1.0 - t) * s.x + 2.0 * t * (1.0 - t) * via.x + t * t * e.x,
          (1.0 - t) * (1.0 - t) * s.y + 2.0 * t * (1.0 - t) * via.y + t * t * e.y)
  }

  /** The curve starts at its start point, ends at its end point, and is straight when the control point is the midpoint. */
  lemma BezierEnds(s: Point, via: Point, e: Point, t: real)
    ensures BezierPoint(0.0, s, via, e) == s
    ensures BezierPoint(1.0, s, via, e) == e
    ensures via == Point((s.x + e.x) / 2.0, (s.y + e.y) / 2.0) ==>
      BezierPoint(t, s, via, e) == Point(s.x + (e.x - s.x) * t, s.y + (e.y - s.y) * t)
  {
    if via == Point((s.x + e.x) / 2.0, (s.y + e.y) / 2.0) {
      var b := BezierPoint(t, s, via, e);
      assert 2.0 * t * (1.0 - t) * via.x == t * (1.0 - t) * (s.x + e.x);
      assert 2.0 * t * (1.0 - t) * via.y == t * (1.0 - t) * (s.y + e.y);
      assert b.x == s.x + (e.x - s.x) * t;
      assert b.y == s.y + (e.y - s.y) * t;
    }
  }

  /**
   * The distance from a point to a segment. The source calls a
   * `getDistanceToLine` that it does not define, so it is a parameter here:
   * `dist(a, b, p)` is the distance from `p` to segment `a`-`b`.
   */
  type SegmentDistance = (Point, Point, Point) -> real

  const NoDistance: real := 1000000000.0

  /** The i-th sample of the curve: the start point, then t = 0.1, 0.2, ..., 0.9. */
  function Sample(i: nat, s: Point, via: Point, e: Point): Point {
    if i == 0 then s else BezierPoint(0.1 * i as real, s, via, e)
  }

  /** The j-th measured segment, for 1 <= j <= 9. */
  function Segment(j: nat, s: Point, via: Point, e: Point): (Point, Point)
    requires j >= 1
  {
    (Sample(j - 1, s, via, e), Sample(j, s, via, e))
  }

  /** The smallest distance over segments 1..i, starting from 1e9. */
  function MinSegmentDistance(i: nat, s: Point, via: Point, e: Point, p: Point, dist: SegmentDistance): (r: real)
    ensures r <= NoDistance
    ensures forall j :: 1 <= j <= i ==> r <= dist(Segment(j, s, via, e).0, Segment(j, s, via, e).1, p)
    ensures r == NoDistance || exists j :: 1 <= j <= i && r == dist(Segment(j, s, via, e).0, Segment(j, s, via, e).1, p)
  {
    if i == 0 then NoDistance
    else
      var m := MinSegmentDistance(i - 1, s, via, e, p, dist);
      var seg := Segment(i, s, via, e);
      var d := dist(seg.0, seg.1, p);
      if d < m then d else m
  }

  /**
   * getDistanceToBezierEdge: nine segments are measured, from the start
   * point through the samples at t = 0.1 .. 0.9; the last stretch from
   * t = 0.9 to the end point is never measured. The answer is the least of
   * the nine distances, capped at 1e9.
   */
  function DistanceToBezierEdge(s: Point, e: Point, p: Point, via: Point, dist: SegmentDistance): (r: real)
    ensures r <= NoDistance
    ensures forall j :: 1 <= j <= 9 ==> r <= dist(Segment(j, s, via, e).0, Segment(j, s, via, e).1, p)
    ensures r == NoDistance || exists j :: 1 <= j <= 9 && r == dist(Segment(j, s, via, e).0, Segment(j, s, via, e).1, p)
  {
    MinSegmentDistance(9, s, via, e, p, dist)
  }

  /** The measured polyline starts at the start point and stops at t = 0.9. */
  lemma MeasuredPolyline(s: Point, via: Point, e: Point)
    ensures Segment(1, s, via, e).0 == s
    ensures Segment(9, s, via, e).1 == BezierPoint(0.9, s, via, e)
    ensures forall j :: 1 <= j < 9 ==> Segment(j, s, via, e).1 == Segment(j + 1, s, via, e).0
  {
  }
}

=== FILE: edge.dfy ===
/**
 * The edge entity: construction, the control point that fans out parallel
 * edges, the pointer distance used for hovering and clicking, and what one
 * render call computes (label placement, line width, arrowhead position).
 */
module Edges {
  import opened JsValues
  import opened Camera
  import Curves
  import opened Nodes

  /** An edge definition as supplied from outside; `ref` is its object identity. */
  datatype EdgeDef = EdgeDef(
    ref: nat,
    id: string,
    to: string,
    from: string,
    size: Option<real>,
    lineWidth: Option<real>,  // the style's `lineWidth`
    edgeLabel: string)        // the definition's `label`

  /**
   * An edge instance. `start` is the from-node and `end` the to-node, by
   * identity; either may be missing when the definition names an unknown id.
   * The source also keeps `oldPoints`, a cache key that is initialised to
   * nulls and never written, so it is not a field here: the cache test
   * always fails and a curved edge recomputes its label points every frame.
   */
  datatype Edge = Edge(
    id: string,
    definition: EdgeDef,
    start: Option<Oid>,
    end: Option<Oid>,
    size: Option<real>,
    dupNumber: nat,
    cp: Option<Point>,
    labelXY: Point,
    deleted: bool)

  datatype EdgeOptions = EdgeOptions(
    lineStyle: string,
    arrowPlacementRatio: Option<real>,
    arrowheads: bool,
    showLabels: bool)

  const ParallelSpacing: real := 20.0
  const DefaultLineWidth: real := 2.0
  const HoverLineWidth: real := 4.0

  /**
   * The constructor: start is the from-node, end the to-node, size only when
   * the definition's is present and non-zero, duplicate number 0 unless given;
   * no control point yet, label at the origin, not deleted.
   */
  function NewEdge(id: string, def: EdgeDef, toNode: Option<Oid>, fromNode: Option<Oid>, dupNumber: nat): (e: Edge)
    ensures e.start == fromNode && e.end == toNode
    ensures e.id == id && e.definition == def && e.dupNumber == dupNumber
    ensures e.size.Some? <==> def.size.Some? && def.size.value != 0.0
    ensures e.size.Some? ==> e.size == def.size
    ensures e.cp.None? && e.labelXY == Point(0.0, 0.0) && !e.deleted
  {
    Edge(id, def, fromNode, toNode, if def.size.Some? && def.size.value != 0.0 then def.size else None,
         dupNumber, None, Point(0.0, 0.0), false)
  }

  /** update: only the definition is replaced. */
  function Update(e: Edge, def: EdgeDef): (r: Edge)
    ensures r.definition == def && r.(definition := e.definition) == e
  {
    e.(definition := def)
  }

  /** destroy: only the deletion flag is set. */
  function Destroy(e: Edge): (r: Edge)
    ensures r.deleted && r.(deleted := e.deleted) == e
  {
    e.(deleted := true)
  }

  /** The positions of both endpoints, or None when either node is missing. */
  function Ends(e: Edge, heap: Heap): (r: Option<(Point, Point)>)
    ensures r.Some? <==> e.start.Some? && e.end.Some? && e.start.value in heap && e.end.value in heap
    ensures r.Some? ==> r.value.0 == Point(heap[e.start.value].x, heap[e.start.value].y)
    ensures r.Some? ==> r.value.1 == Point(heap[e.end.value].x, heap[e.end.value].y)
  {
    if e.start.Some? && e.end.Some? && e.start.value in heap && e.end.value in heap then
      Some((Point(heap[e.start.value].x, heap[e.start.value].y), Point(heap[e.end.value].x, heap[e.end.value].y)))
    else None
  }

  /** Whether the edge is drawn as a curve: any line style but straight, or any duplicate. */
  predicate Curved(e: Edge, opts: EdgeOptions) {
    opts.lineStyle != "straight" || e.dupNumber != 0
  }

  function Sign(b: bool): real {
    if b then 1.0 else -1.0
  }

  /**
   * The control point between start `s` and end `t` for duplicate number
   * `dn`: it sits at the corner (t.x, s.y), pushed 20 units per duplicate
   * away from the start along x and towards it along y.
   */
  function ControlPointBetween(s: Point, t: Point, dn: nat): (cp: Point)
    ensures Abs(cp.x - t.x) == ParallelSpacing * dn as real
    ensures Abs(cp.y - s.y) == ParallelSpacing * dn as real
    ensures dn == 0 ==> cp == Point(t.x, s.y)
    ensures dn > 0 ==> (cp.x > t.x <==> t.x > s.x)
    ensures dn > 0 ==> (cp.y < s.y <==> t.y > s.y)
  {
    Point(t.x + Sign(t.x > s.x) * dn as real * ParallelSpacing,
          s.y - Sign(t.y > s.y) * dn as real * ParallelSpacing)
  }

  /** getControlPoint: the origin when an endpoint is missing. */
  function ControlPoint(e: Edge, heap: Heap): (cp: Point)
    ensures Ends(e, heap).None? ==> cp == Point(0.0, 0.0)
    ensures Ends(e, heap).Some? ==> cp == ControlPointBetween(Ends(e, heap).value.0, Ends(e, heap).value.1, e.dupNumber)
  {
    match Ends(e, heap)
    case None => Point(0.0, 0.0)
    case Some((s, t)) => ControlPointBetween(s, t, e.dupNumber)
  }

  /** Edges between the same two points with different duplicate numbers get different control points. */
  lemma ParallelEdgesFanOut(s: Point, t: Point, dn1: nat, dn2: nat)
    requires dn1 != dn2
    ensures ControlPointBetween(s, t, dn1) != ControlPointBetween(s, t, dn2)
  {
    var c1 := ControlPointBetween(s, t, dn1);
    var c2 := ControlPointBetween(s, t, dn2);
    assert Abs(c1.x - t.x) != Abs(c2.x - t.x);
  }

  /**
   * getDistanceFrom: null (None) when an endpoint is missing; the segment
   * distance for a straight, non-duplicate edge; otherwise the sampled
   * distance to the curve through the control point.
   */
  function DistanceFrom(e: Edge, heap: Heap, p: Point, opts: EdgeOptions, dist: Curves.SegmentDistance): (r: Option<real>)
    ensures r.None? <==> Ends(e, heap).None?
    ensures r.Some? && !Curved(e, opts) ==> r.value == dist(Ends(e, heap).value.0, Ends(e, heap).value.1, p)
    ensures r.Some? && Curved(e, opts) ==>
      r.value == Curves.DistanceToBezierEdge(Ends(e, heap).value.0, Ends(e, heap).value.1, p, ControlPoint(e, heap), dist)
    ensures r.Some? && Curved(e, opts) ==> r.value <= Curves.NoDistance
  {
    match Ends(e, heap)
    case None => None
    case Some((s, t)) =>
      if Curved(e, opts) then Some(Curves.DistanceToBezierEdge(s, t, p, ControlPoint(e, heap), dist))
      else Some(dist(s, t, p))
  }

  /** A square-root function: the source's `Math.sqrt`, given as a parameter. */
  type Sqrt = real -> real

  ghost predicate IsSqrt(sqrt: Sqrt) {
    && sqrt(0.0) == 0.0
    && forall r: real :: r >= 0.0 ==> sqrt(r) >= 0.0 && sqrt(r) * sqrt(r) == r
  }

  /**
   * The curve parameter getQuadraticXY actually uses: `coef || 0.5`, moved
   * towards the start when the edge is wider than tall and towards the end
   * when it is taller than wide. A horizontal edge divides by zero, giving
   * an infinite ratio and the full shift of 0.15; a zero-length edge gives
   * NaN, which matches neither branch.
   */
  function AdjustedT(coef: real, s: Point, t: Point, sqrt: Sqrt): real {
    var t0 := if coef != 0.0 then coef else 0.5;
    var xd := Abs(s.x - t.x);
    var yd := Abs(s.y - t.y);
    if yd == 0.0 then
      if xd > 0.0 then t0 - 0.15 else t0
    else
      var ratio := xd / yd;
      if ratio > 1.0 then t0 - 0.15 * Min(5.0, sqrt(ratio)) / 5.0
      else if ratio < 1.0 then t0 + 0.25 * (1.0 - sqrt(ratio))
      else t0
  }

  lemma SqrtBelowOne(sqrt: Sqrt, r: real)
    requires IsSqrt(sqrt) && 0.0 <= r < 1.0
    ensures 0.0 <= sqrt(r) <= 1.0
  {
    var q := sqrt(r);
    if q > 1.0 {
      assert q * q > 1.0 * q;
    }
  }

  /**
   * The drift never moves the parameter more than 0.15 towards the start or
   * 0.25 towards the end; a diagonal edge is not moved, a horizontal one is
   * moved the full 0.15 and a vertical one the full 0.25.
   */
  lemma AdjustedTBounds(coef: real, s: Point, t: Point, sqrt: Sqrt)
    requires IsSqrt(sqrt)
    ensures var t0 := if coef != 0.0 then coef else 0.5;
      var r := AdjustedT(coef, s, t, sqrt);
      && t0 - 0.15 <= r <= t0 + 0.25
      && (Abs(s.x - t.x) == Abs(s.y - t.y) ==> r == t0)
      && (s.y == t.y && s.x != t.x ==> r == t0 - 0.15)
      && (s.x == t.x && s.y != t.y ==> r == t0 + 0.25)
  {
    var xd := Abs(s.x - t.x);
    var yd := Abs(s.y - t.y);
    if yd != 0.0 {
      var ratio := xd / yd;
      assert ratio >= 0.0;
      if ratio < 1.0 {
        SqrtBelowOne(sqrt, ratio);
      }
      if xd == 0.0 {
        assert ratio == 0.0;
        assert sqrt(ratio) == 0.0;
        assert AdjustedT(coef, s, t, sqrt) == (if coef != 0.0 then coef else 0.5) + 0.25;
      }
      if xd == yd {
        assert ratio * yd == yd;
        assert (ratio - 1.0) * yd == 0.0;
        assert ratio == 1.0;
      }
    }
  }

  /** The label anchor of a curved edge: the adjusted midpoint of its curve. */
  function CurveLabelPoint(s: Point, t: Point, cp: Point, sqrt: Sqrt): Point {
    Curves.BezierPoint(AdjustedT(0.5, s, t, sqrt), s, cp, t)
  }

  /** The straight arrowhead point: `ratio` of the way back from the end towards the start. */
  function StraightArrowPoint(s: Point, t: Point, ratio: real): (r: Point)
    ensures r == Point(s.x + (t.x - s.x) * (1.0 - ratio), s.y + (t.y - s.y) * (1.0 - ratio))
  {
    Point(t.x - (t.x - s.x) * ratio, t.y - (t.y - s.y) * ratio)
  }

  /** With the default ratio the arrowhead sits at the midpoint; ratio 0 is replaced by the default. */
  lemma DefaultArrowAtMidpoint(s: Point, t: Point, ratio: Option<real>)
    requires ratio.None? || ratio == Some(0.0)
    ensures StraightArrowPoint(s, t, OrDefault(ratio, 0.5)) == Point((s.x + t.x) / 2.0, (s.y + t.y) / 2.0)
  {
  }

  /** The line width in world units: 4 screen pixels while hovered, else the style's width (default 2). */
  function LineWidth(e: Edge, scale: real, hovering: bool): (w: real)
    requires scale != 0.0
    ensures w * scale == if hovering then HoverLineWidth else e.definition.lineWidth.GetOr(DefaultLineWidth)
  {
    (if hovering then HoverLineWidth else e.definition.lineWidth.GetOr(DefaultLineWidth)) / scale
  }

  /**
   * The label font size in world units. The coefficient is 0.5 beyond zoom
   * 1.5, 1.2 below 0.75 and 1 otherwise, and the font is 7 or 11 divided by
   * zoom times coefficient; above zoom 0.75, where labels are drawn, this is
   * 14 screen pixels beyond zoom 1.5 and 11 otherwise.
   */
  function LabelFontSize(scale: real): (fs: real)
    requires scale > 0.75
    ensures fs * scale == if scale > 1.5 then 14.0 else 11.0
  {
    var coefficient := if scale > 1.5 then 0.5 else if scale < 0.75 then 1.2 else 1.0;
    var sf := scale * coefficient;
    if coefficient < 1.0 then 7.0 / sf else 11.0 / sf
  }

  datatype EdgeLabel = EdgeLabel(text: string, at: Point, fontSize: real)

  /** What one render call produces besides drawing. */
  datatype EdgeFrame = EdgeFrame(
    result: bool,          // render's return value
    drawn: bool,           // whether anything is stroked
    edge: Edge,            // the edge afterwards
    lineWidth: real,
    caption: Option<EdgeLabel>,
    arrow: Option<Point>)

  /** The label's position before rotation: above the midpoint of a straight edge, beside the curve's label point otherwise. */
  function LabelAnchor(e: Edge, opts: EdgeOptions, s: Point, t: Point, pxy: Point): Point {
    if !Curved(e, opts) then
      Point(t.x - (t.x - s.x) / 2.0, t.y - 10.0 - (t.y - s.y) / 2.0)
    else
      Point(pxy.x + (if pxy.x > s.x then 5.0 else -5.0), pxy.y + (if pxy.y < s.y then 5.0 else -5.0))
  }

  /**
   * render, without the canvas calls. Nothing is drawn and `false` returned
   * when an endpoint is missing; nothing is drawn and `true` returned when
   * the endpoints coincide. A curved edge recomputes its control point and
   * label point on every frame. The line is 4 screen pixels while hovered,
   * else the style's width; the label is drawn above zoom 0.75 at 14 screen
   * pixels beyond zoom 1.5 and 11 otherwise; the arrowhead sits at the
   * placement ratio (`|| 0.5`) along the edge.
   */
  function RenderEdge(e: Edge, heap: Heap, opts: EdgeOptions, scale: real, hovering: bool, sqrt: Sqrt): (f: EdgeFrame)
    requires scale != 0.0
    ensures f.result <==> Ends(e, heap).Some?
    ensures f.drawn <==> Ends(e, heap).Some? && Ends(e, heap).value.0 != Ends(e, heap).value.1
    ensures !f.drawn ==> f.edge == e && f.caption.None? && f.arrow.None?
    ensures f.drawn && !Curved(e, opts) ==> f.edge == e
    ensures f.drawn && Curved(e, opts) ==>
      var (s, t) := Ends(e, heap).value;
      f.edge == e.(cp := Some(ControlPoint(e, heap)), labelXY := CurveLabelPoint(s, t, ControlPoint(e, heap), sqrt))
    ensures f.drawn ==> f.lineWidth == LineWidth(e, scale, hovering)
    ensures f.caption.Some? <==> f.drawn && e.definition.edgeLabel != "" && opts.showLabels && scale > 0.75
    ensures f.caption.Some? ==> f.caption.value.text == e.definition.edgeLabel
    ensures f.caption.Some? ==> f.caption.value.fontSize == LabelFontSize(scale)
    ensures f.caption.Some? && !Curved(e, opts) ==>
      var (s, t) := Ends(e, heap).value;
      f.caption.value.at == Point((s.x + t.x) / 2.0, (s.y + t.y) / 2.0 - 10.0)
    ensures f.arrow.Some? <==> f.drawn && opts.arrowheads
    ensures f.arrow.Some? && !Curved(e, opts) ==>
      var (s, t) := Ends(e, heap).value;
      f.arrow.value == StraightArrowPoint(s, t, OrDefault(opts.arrowPlacementRatio, 0.5))
    ensures f.arrow.Some? && Curved(e, opts) ==>
      var (s, t) := Ends(e, heap).value;
      f.arrow.value == Curves.BezierPoint(AdjustedT(OrDefault(opts.arrowPlacementRatio, 0.5), s, t, sqrt), s, ControlPoint(e, heap), t)
  {
    match Ends(e, heap)
    case None => EdgeFrame(false, false, e, 0.0, None, None)
    case Some((s, t)) =>
      if s.x == t.x && s.y == t.y then EdgeFrame(true, false, e, 0.0, None, None)
      else
        var e1 := if Curved(e, opts) then
          var cp := ControlPoint(e, heap);
          e.(cp := Some(cp), labelXY := CurveLabelPoint(s, t, cp, sqrt))
        else e;
        var ratio := OrDefault(opts.arrowPlacementRatio, 0.5);
        var caption := if e.definition.edgeLabel != "" && opts.showLabels && scale > 0.75 then
          Some(EdgeLabel(e.definition.edgeLabel, LabelAnchor(e, opts, s, t, e1.labelXY), LabelFontSize(scale)))
        else None;
        var arrow := if opts.arrowheads then
          if Curved(e, opts) then Some(Curves.BezierPoint(AdjustedT(ratio, s, t, sqrt), s, e1.cp.value, t))
          else Some(StraightArrowPoint(s, t, ratio))
        else None;
        EdgeFrame(true, true, e1, LineWidth(e, scale, hovering), caption, arrow)
  }

  /** Rendering is stable: a second frame with the same positions leaves the edge as the first left it. */
  lemma RenderStable(e: Edge, heap: Heap, opts: EdgeOptions, scale: real, hovering: bool, sqrt: Sqrt)
    requires scale != 0.0
    ensures var e1 := RenderEdge(e, heap, opts, scale, hovering, sqrt).edge;
      RenderEdge(e1, heap, opts, scale, hovering, sqrt).edge == e1
  {
  }
}

=== FILE: graph_store.dfy ===
/**
 * Reconciliation of the live node and edge maps with a new graph
 * (checkGraph and its inner setGraphType): definitions whose id is new are
 * instantiated, definitions whose id is known but whose object differs
 * replace the old one (nodes in place, edges by a fresh instance), and
 * instances whose definition is no longer in the graph are dropped.
 *
 * Definitions are compared by identity in the source; here a definition is
 * an immutable record carrying its identity `ref`, so record equality
 * stands for `===` and `includes`.
 */
module GraphStore {
  import opened JsValues
  import opened OrderedMaps
  import opened Seqs
  import N = Nodes
  import E = Edges
  import Shapes

  /** The live maps: node instances by id (referring into the heap) and edge instances by id. */
  datatype Store = Store(heap: N.Heap, nodes: OMap<N.Oid>, edges: OMap<E.Edge>, next: N.Oid)

  /**
   * Every live node is in the heap and is keyed by its own id and its
   * definition's id; every live edge likewise; fresh identities start at `next`.
   */
  ghost predicate Valid(st: Store) {
    && OrderedMaps.Valid(st.nodes)
    && (forall k :: k in st.nodes.m ==>
          st.nodes.m[k] in st.heap && st.heap[st.nodes.m[k]].id == k && st.heap[st.nodes.m[k]].definition.id == k)
    && (forall o :: o in st.heap ==> o < st.next)
    && EdgesKeyed(st.edges)
  }

  /** The ids a list of node definitions names. */
  function NodeIds(defs: seq<N.NodeDef>): (r: set<string>)
    ensures forall i :: 0 <= i < |defs| ==> defs[i].id in r
    decreases |defs|
  {
    if defs == [] then {} else NodeIds(defs[..|defs| - 1]) + {defs[|defs| - 1].id}
  }

  /** The ids a list of edge definitions names. */
  function EdgeIds(defs: seq<E.EdgeDef>): (r: set<string>)
    ensures forall i :: 0 <= i < |defs| ==> defs[i].id in r
    decreases |defs|
  {
    if defs == [] then {} else EdgeIds(defs[..|defs| - 1]) + {defs[|defs| - 1].id}
  }

  lemma {:induction false} NodeIdsListed(defs: seq<N.NodeDef>, k: string)
    requires k in NodeIds(defs)
    ensures exists i :: 0 <= i < |defs| && defs[i].id == k
    decreases |defs|
  {
    if k != defs[|defs| - 1].id {
      NodeIdsListed(defs[..|defs| - 1], k);
      var i :| 0 <= i < |defs| - 1 && defs[..|defs| - 1][i].id == k;
      assert defs[i].id == k;
    }
  }

  lemma {:induction false} EdgeIdsListed(defs: seq<E.EdgeDef>, k: string)
    requires k in EdgeIds(defs)
    ensures exists i :: 0 <= i < |defs| && defs[i].id == k
    decreases |defs|
  {
    if k != defs[|defs| - 1].id {
      EdgeIdsListed(defs[..|defs| - 1], k);
      var i :| 0 <= i < |defs| - 1 && defs[..|defs| - 1][i].id == k;
      assert defs[i].id == k;
    }
  }

  /** What the list without its last element holds, the list holds. */
  lemma InPrefix<T>(s: seq<T>, x: T)
    requires s != [] && x in s[..|s| - 1]
    ensures x in s
  {
    var i :| 0 <= i < |s| - 1 && s[..|s| - 1][i] == x;
    assert s[i] == x;
  }

  lemma UnionAssoc(a: set<string>, b: set<string>, c: set<string>)
    ensures a + b + c == a + (b + c)
  {
  }

  /** `nodes.current.get(id)`. */
  function Lookup(nodes: OMap<N.Oid>, id: string): (r: Option<N.Oid>)
    ensures r.Some? <==> id in nodes.m
    ensures r.Some? ==> r.value == nodes.m[id]
  {
    if id in nodes.m then Some(nodes.m[id]) else None
  }

  /** Only the definition and the `fixed` flag of a node may differ (what `update` may touch). */
  predicate SameBody(a: N.Node, b: N.Node) {
    b.(definition := a.definition, fixed := a.fixed) == a
  }

  // ---------------------------------------------------------------------
  // Nodes
  // ---------------------------------------------------------------------

  /** `update(def)` on the live node under `def.id`. */
  function UpdateNode(st: Store, def: N.NodeDef): (r: Store)
    requires Valid(st) && def.id in st.nodes.m
    ensures Valid(r) && r.nodes == st.nodes && r.edges == st.edges
    ensures r.heap[r.nodes.m[def.id]].definition == def
    ensures forall k :: k in st.nodes.m && k != def.id ==> r.heap[r.nodes.m[k]] == st.heap[st.nodes.m[k]]
    ensures forall o :: o in st.heap ==> o in r.heap && SameBody(st.heap[o], r.heap[o])
  {
    var o := st.nodes.m[def.id];
    var r := st.(heap := st.heap[o := N.Update(st.heap[o], def)]);
    assert forall k :: k in st.nodes.m && k != def.id ==> st.nodes.m[k] != o by {
      forall k | k in st.nodes.m && k != def.id
        ensures st.nodes.m[k] != o
      {
        assert st.heap[st.nodes.m[k]].id == k;
      }
    }
    r
  }

  /** `mType.set(def.id, new RevisNode(...))` for an unknown id, under a fresh identity. */
  function CreateNode(st: Store, def: N.NodeDef, defaultSize: Option<real>): (r: Store)
    requires Valid(st) && def.id !in st.nodes.m
    ensures Valid(r) && r.edges == st.edges
    ensures def.id in r.nodes.m && r.nodes.m == st.nodes.m[def.id := r.nodes.m[def.id]]
    ensures r.nodes.m[def.id] !in st.heap && r.heap[r.nodes.m[def.id]] == N.NewNode(def.id, def, defaultSize)
    ensures forall o :: o in st.heap ==> o in r.heap && r.heap[o] == st.heap[o]
  {
    var o := st.next;
    st.(heap := st.heap[o := N.NewNode(def.id, def, defaultSize)],
        nodes := Set(st.nodes, def.id, o),
        next := st.next + 1)
  }

  /**
   * One iteration of the node loop: an unknown id gets a new node under a
   * fresh identity, appended to the map; a known id whose definition object
   * differs is updated in place; otherwise nothing happens. The flag says
   * whether the id was new.
   */
  function NodeStep(st: Store, def: N.NodeDef, defaultSize: Option<real>): (r: (Store, bool))
    requires Valid(st)
    ensures Valid(r.0) && r.0.edges == st.edges
    ensures r.0.nodes.m.Keys == st.nodes.m.Keys + {def.id}
    ensures r.1 <==> def.id !in st.nodes.m
  {
    if def.id in st.nodes.m then
      if st.heap[st.nodes.m[def.id]].definition != def then (UpdateNode(st, def), false)
      else (st, false)
    else
      (CreateNode(st, def, defaultSize), true)
  }

  /**
   * What one iteration does to the node it names and to the others: the
   * named id ends up holding the definition, a new one as a freshly
   * constructed node; no other id changes its node; no existing node
   * changes except in its definition and `fixed` flag.
   */
  lemma NodeStepEffect(st: Store, def: N.NodeDef, defaultSize: Option<real>)
    requires Valid(st)
    ensures var r := NodeStep(st, def, defaultSize).0;
      && r.heap[r.nodes.m[def.id]].definition == def
      && (forall k :: k in st.nodes.m ==> r.nodes.m[k] == st.nodes.m[k])
      && (forall k :: k in st.nodes.m && k != def.id ==> r.heap[r.nodes.m[k]] == st.heap[st.nodes.m[k]])
      && (forall o :: o in st.heap ==> o in r.heap && SameBody(st.heap[o], r.heap[o]))
      && (def.id !in st.nodes.m ==> r.heap[r.nodes.m[def.id]] == N.NewNode(def.id, def, defaultSize))
      && (def.id in st.nodes.m && st.heap[st.nodes.m[def.id]].definition == def ==> r == st)
  {
  }

  /** One iteration leaves the named id holding the definition. */
  lemma NodeStepNamed(st: Store, def: N.NodeDef, defaultSize: Option<real>)
    requires Valid(st)
    ensures var r := NodeStep(st, def, defaultSize).0;
      def.id in r.nodes.m && r.heap[r.nodes.m[def.id]].definition == def
  {
    NodeStepEffect(st, def, defaultSize);
  }

  /** One iteration leaves the node under any other live id as it was. */
  lemma NodeStepKeeps(st: Store, def: N.NodeDef, defaultSize: Option<real>, k: string)
    requires Valid(st) && k in st.nodes.m && k != def.id
    ensures var r := NodeStep(st, def, defaultSize).0;
      k in r.nodes.m && r.heap[r.nodes.m[k]] == st.heap[st.nodes.m[k]]
  {
    NodeStepEffect(st, def, defaultSize);
  }

  /** One iteration keeps every live identity and changes no node beyond its definition and `fixed` flag. */
  lemma NodeStepFrame(st: Store, def: N.NodeDef, defaultSize: Option<real>)
    requires Valid(st)
    ensures var r := NodeStep(st, def, defaultSize).0;
      && (forall k :: k in st.nodes.m ==> k in r.nodes.m && r.nodes.m[k] == st.nodes.m[k])
      && (forall o :: o in st.heap ==> o in r.heap && SameBody(st.heap[o], r.heap[o]))
  {
    NodeStepEffect(st, def, defaultSize);
  }

  /** The node loop over the whole list, in order. */
  function NodePass(st: Store, defs: seq<N.NodeDef>, defaultSize: Option<real>): (r: (Store, bool))
    requires Valid(st)
    ensures Valid(r.0) && r.0.edges == st.edges
    decreases |defs|
  {
    if defs == [] then (st, false)
    else
      var p := NodePass(st, defs[..|defs| - 1], defaultSize);
      var q := NodeStep(p.0, defs[|defs| - 1], defaultSize);
      (q.0, p.1 || q.1)
  }

  /**
   * After the node loop the live ids are the old ones plus the listed ones,
   * and the flag says whether some listed id was new.
   */
  lemma {:induction false} NodePassKeys(st: Store, defs: seq<N.NodeDef>, defaultSize: Option<real>)
    requires Valid(st)
    ensures NodePass(st, defs, defaultSize).0.nodes.m.Keys == st.nodes.m.Keys + NodeIds(defs)
    ensures NodePass(st, defs, defaultSize).1 <==> !(NodeIds(defs) <= st.nodes.m.Keys)
    decreases |defs|
  {
    if defs != [] {
      var init := defs[..|defs| - 1];
      var last := defs[|defs| - 1];
      NodePassKeys(st, init, defaultSize);
      var p := NodePass(st, init, defaultSize);
      var q := NodeStep(p.0, last, defaultSize);
      assert NodePass(st, defs, defaultSize) == (q.0, p.1 || q.1);
      assert NodeIds(defs) == NodeIds(init) + {last.id};
      assert q.0.nodes.m.Keys == st.nodes.m.Keys + NodeIds(init) + {last.id};
      UnionAssoc(st.nodes.m.Keys, NodeIds(init), {last.id});
      if last.id !in st.nodes.m && last.id in NodeIds(init) {
        assert !(NodeIds(init) <= st.nodes.m.Keys);
      }
    } else {
      assert NodePass(st, defs, defaultSize) == (st, false);
      assert NodeIds(defs) == {};
    }
  }

  /**
   * The node loop never changes the identity under a live id, leaves the
   * nodes of unlisted ids as they were, and changes no node except in its
   * definition and `fixed` flag.
   */
  lemma {:induction false} NodePassFrame(st: Store, defs: seq<N.NodeDef>, defaultSize: Option<real>)
    requires Valid(st)
    ensures var r := NodePass(st, defs, defaultSize).0;
      && (forall k :: k in st.nodes.m ==> k in r.nodes.m && r.nodes.m[k] == st.nodes.m[k])
      && (forall k :: k in st.nodes.m && k !in NodeIds(defs) ==> r.heap[r.nodes.m[k]] == st.heap[st.nodes.m[k]])
      && (forall o :: o in st.heap ==> o in r.heap && SameBody(st.heap[o], r.heap[o]))
    decreases |defs|
  {
    if defs != [] {
      var init := defs[..|defs| - 1];
      var last := defs[|defs| - 1];
      var p := NodePass(st, init, defaultSize).0;
      var r := NodePass(st, defs, defaultSize).0;
      assert r == NodeStep(p, last, defaultSize).0;
      assert NodeIds(defs) == NodeIds(init) + {last.id};
      NodePassFrame(st, init, defaultSize);
      NodeStepFrame(p, last, defaultSize);
      forall k | k in st.nodes.m && k !in NodeIds(defs)
        ensures r.heap[r.nodes.m[k]] == st.heap[st.nodes.m[k]]
      {
        NodeStepKeeps(p, last, defaultSize, k);
      }
    }
  }

  /** After the node loop every listed id is live and holds a listed definition. */
  lemma {:induction false} NodePassListed(st: Store, defs: seq<N.NodeDef>, defaultSize: Option<real>)
    requires Valid(st)
    ensures var r := NodePass(st, defs, defaultSize).0;
      forall k :: k in NodeIds(defs) ==> k in r.nodes.m && r.heap[r.nodes.m[k]].definition in defs
    decreases |defs|
  {
    if defs != [] {
      var init := defs[..|defs| - 1];
      var last := defs[|defs| - 1];
      var p := NodePass(st, init, defaultSize).0;
      var r := NodePass(st, defs, defaultSize).0;
      assert r == NodeStep(p, last, defaultSize).0;
      assert NodeIds(defs) == NodeIds(init) + {last.id};
      NodePassListed(st, init, defaultSize);
      forall k | k in NodeIds(defs)
        ensures k in r.nodes.m && r.heap[r.nodes.m[k]].definition in defs
      {
        if k == last.id {
          NodeStepNamed(p, last, defaultSize);
        } else {
          NodeStepKeeps(p, last, defaultSize, k);
          InPrefix(defs, p.heap[p.nodes.m[k]].definition);
        }
      }
    }
  }

  /** After the node loop each listed id holds the last definition listed under it. */
  lemma {:induction false} NodePassLastDefinition(st: Store, defs: seq<N.NodeDef>, defaultSize: Option<real>, i: nat)
    requires Valid(st) && i < |defs|
    requires forall j :: i < j < |defs| ==> defs[j].id != defs[i].id
    ensures var r := NodePass(st, defs, defaultSize).0;
      defs[i].id in r.nodes.m && r.heap[r.nodes.m[defs[i].id]].definition == defs[i]
    decreases |defs|
  {
    var init := defs[..|defs| - 1];
    var last := defs[|defs| - 1];
    var p := NodePass(st, init, defaultSize).0;
    assert NodePass(st, defs, defaultSize).0 == NodeStep(p, last, defaultSize).0;
    if i == |defs| - 1 {
      NodeStepNamed(p, last, defaultSize);
    } else {
      assert init[i] == defs[i];
      assert forall j :: i < j < |init| ==> init[j].id != init[i].id by {
        forall j | i < j < |init|
          ensures init[j].id != init[i].id
        {
          assert init[j] == defs[j];
        }
      }
      NodePassLastDefinition(st, init, defaultSize, i);
      NodeStepKeeps(p, last, defaultSize, defs[i].id);
    }
  }

  /** The instances whose definition object is no longer listed. */
  function StaleNodes(st: Store, defs: seq<N.NodeDef>): set<string>
    requires Valid(st)
  {
    set k | k in st.nodes.m && st.heap[st.nodes.m[k]].definition !in defs
  }

  /** After the loop, the stale instances are exactly the previously live ids that are not listed. */
  lemma StaleNodesAreUnlisted(st: Store, p: Store, defs: seq<N.NodeDef>)
    requires Valid(st) && Valid(p)
    requires p.nodes.m.Keys == st.nodes.m.Keys + NodeIds(defs)
    requires forall k :: k in NodeIds(defs) ==> p.heap[p.nodes.m[k]].definition in defs
    requires forall k :: k in st.nodes.m && k !in NodeIds(defs) ==> p.heap[p.nodes.m[k]] == st.heap[st.nodes.m[k]]
    ensures StaleNodes(p, defs) == st.nodes.m.Keys - NodeIds(defs)
  {
    forall k | k in st.nodes.m && k !in NodeIds(defs)
      ensures k in StaleNodes(p, defs)
    {
      assert p.heap[p.nodes.m[k]].definition.id == k;
    }
  }

  /** Adding ids or removing ids happened exactly when the key set changed. */
  lemma DirtyIffChanged(before: set<string>, ids: set<string>)
    ensures (!(ids <= before) || before - ids != {}) <==> before != ids
  {
    if ids <= before && before - ids == {} {
      forall k | k in before
        ensures k in ids
      {
        assert k !in before - ids;
      }
    }
  }

  /**
   * setGraphType for nodes: the loop, then the sweep of instances whose
   * definition is gone. The live ids become exactly the listed ids, and the
   * result is dirty exactly when the set of live ids changed.
   */
  function SetNodes(st: Store, defs: seq<N.NodeDef>, defaultSize: Option<real>): (r: (Store, bool))
    requires Valid(st)
    ensures Valid(r.0) && r.0.edges == st.edges
    ensures r.0.nodes.m.Keys == NodeIds(defs)
    ensures r.1 <==> st.nodes.m.Keys != NodeIds(defs)
  {
    var p := NodePass(st, defs, defaultSize);
    NodePassKeys(st, defs, defaultSize);
    NodePassFrame(st, defs, defaultSize);
    NodePassListed(st, defs, defaultSize);
    var stale := StaleNodes(p.0, defs);
    StaleNodesAreUnlisted(st, p.0, defs);
    DirtyIffChanged(st.nodes.m.Keys, NodeIds(defs));
    var swept := p.0.(nodes := DeleteAll(p.0.nodes, stale));
    (swept, p.1 || stale != {})
  }

  /**
   * A node whose id stays listed keeps its identity; no node changes except
   * in its definition and `fixed` flag; each listed id holds the last
   * definition listed under it.
   */
  lemma SetNodesKeeps(st: Store, defs: seq<N.NodeDef>, defaultSize: Option<real>)
    requires Valid(st)
    ensures var r := SetNodes(st, defs, defaultSize).0;
      && (forall k :: k in st.nodes.m && k in NodeIds(defs) ==> r.nodes.m[k] == st.nodes.m[k])
      && (forall o :: o in st.heap ==> o in r.heap && SameBody(st.heap[o], r.heap[o]))
      && (forall i :: 0 <= i < |defs| && (forall j :: i < j < |defs| ==> defs[j].id != defs[i].id) ==>
            r.heap[r.nodes.m[defs[i].id]].definition == defs[i])
  {
    NodePassFrame(st, defs, defaultSize);
    forall i | 0 <= i < |defs| && (forall j :: i < j < |defs| ==> defs[j].id != defs[i].id)
      ensures var r := SetNodes(st, defs, defaultSize).0;
        r.heap[r.nodes.m[defs[i].id]].definition == defs[i]
    {
      NodePassLastDefinition(st, defs, defaultSize, i);
    }
  }

  // ---------------------------------------------------------------------
  // Edges
  // ---------------------------------------------------------------------

  /**
   * A lexicographic order on strings by code point, which agrees with
   * JavaScript's default `sort` on strings without characters above U+FFFF.
   */
  predicate LexLess(a: string, b: string)
    decreases |a|
  {
    if a == [] then b != []
    else if b == [] then false
    else if a[0] != b[0] then a[0] < b[0]
    else LexLess(a[1..], b[1..])
  }

  lemma {:induction false} LexLessTotal(a: string, b: string)
    ensures a != b ==> LexLess(a, b) || LexLess(b, a)
    ensures !(LexLess(a, b) && LexLess(b, a))
    decreases |a|
  {
    if a != [] && b != [] && a[0] == b[0] {
      LexLessTotal(a[1..], b[1..]);
      if a != b {
        assert a == [a[0]] + a[1..] && b == [b[0]] + b[1..];
      }
    }
  }

  /** `[to, from].sort()`: the two ids, smaller first. */
  function SortPair(to: string, from: string): (r: (string, string))
    ensures (r == (to, from) || r == (from, to)) && !LexLess(r.1, r.0)
  {
    LexLessTotal(to, from);
    if LexLess(from, to) then (from, to) else (to, from)
  }

  /** The duplicate-detection key as written: the sorted ids joined with a dash. */
  function PairKeyAsWritten(to: string, from: string): (r: string)
    ensures r == SortPair(to, from).0 + "-" + SortPair(to, from).1
  {
    LexLessTotal(to, from);
    var p := SortPair(to, from);
    p.0 + "-" + p.1
  }

  /**
   * Two edges between different pairs of nodes share a key when an id
   * contains a dash, so the second is counted as a parallel edge.
   */
  lemma PairKeyAsWrittenCollides()
    ensures PairKeyAsWritten("c", "a-b") == PairKeyAsWritten("b-c", "a")
    ensures {"c", "a-b"} != {"b-c", "a"}
  {
    assert LexLess("a-b", "c");
    assert LexLess("a", "b-c");
    assert "a-b" + "-" + "c" == "a" + "-" + "b-c";
    assert "c" !in {"b-c", "a"};
  }

  /** The corrected key: the sorted pair itself, not a joined string. */
  datatype PairKey = PairKey(lo: string, hi: string)

  function KeyOf(to: string, from: string): (k: PairKey)
    ensures !LexLess(k.hi, k.lo)
  {
    var p := SortPair(to, from);
    PairKey(p.0, p.1)
  }

  /** The corrected key identifies the unordered pair of ids exactly. */
  lemma {:induction false} KeyOfIdentifiesPair(a: string, b: string, c: string, d: string)
    ensures KeyOf(a, b) == KeyOf(c, d) <==> (a == c && b == d) || (a == d && b == c)
  {
    LexLessTotal(a, b);
    LexLessTotal(c, d);
    LexLessTotal(a, c);
    LexLessTotal(a, d);
    LexLessTotal(b, c);
    LexLessTotal(b, d);
  }

  /** Joining with a dash is injective while the left parts contain no dash. */
  lemma DashJoinInjective(x: string, y: string, u: string, w: string)
    requires '-' !in x && '-' !in u
    requires x + "-" + y == u + "-" + w
    ensures x == u && y == w
  {
    var s := x + "-" + y;
    assert s[|x|] == '-' && s[|u|] == '-';
    assert |x| == |u|;
    assert x == s[..|x|] == u;
    assert y == s[|x| + 1..] == w;
  }

  /**
   * While no id contains a dash, the key as written and the corrected key
   * tell the same pairs apart: two edges share one exactly when they share
   * the other.
   */
  lemma PairKeyAsWrittenAgreesWithoutDash(a: string, b: string, c: string, d: string)
    requires '-' !in a && '-' !in b && '-' !in c && '-' !in d
    ensures PairKeyAsWritten(a, b) == PairKeyAsWritten(c, d) <==> KeyOf(a, b) == KeyOf(c, d)
  {
    var p, q := SortPair(a, b), SortPair(c, d);
    if PairKeyAsWritten(a, b) == PairKeyAsWritten(c, d) {
      DashJoinInjective(p.0, p.1, q.0, q.1);
    }
  }

  /** The duplicate counter agrees with the log of keys rebuilt so far: one less than the count. */
  ghost predicate DupCounts(dup: map<PairKey, nat>, log: seq<PairKey>) {
    forall k :: (k in dup ==> dup[k] + 1 == Occurrences(log, k)) && (k !in dup ==> Occurrences(log, k) == 0)
  }

  /** Recording one more rebuilt edge under `key` keeps the counter in step with the log. */
  lemma DupCountsSnoc(dup: map<PairKey, nat>, log: seq<PairKey>, key: PairKey)
    requires DupCounts(dup, log)
    ensures DupCounts(dup[key := if key in dup then dup[key] + 1 else 0], log + [key])
  {
    var log' := log + [key];
    assert log'[..|log'| - 1] == log;
  }

  /** State of the edge loop: the edge map, the duplicate counter, the keys rebuilt so far, the dirty flag. */
  datatype EdgeLoop = EdgeLoop(edges: OMap<E.Edge>, dup: map<PairKey, nat>, log: seq<PairKey>, dirty: bool)

  ghost predicate EdgesKeyed(edges: OMap<E.Edge>) {
    && OrderedMaps.Valid(edges)
    && (forall k :: k in edges.m ==> edges.m[k].id == k && edges.m[k].definition.id == k)
  }

  ghost predicate LoopValid(s: EdgeLoop) {
    EdgesKeyed(s.edges) && DupCounts(s.dup, s.log)
  }

  /** Storing an edge under its own id keeps the edge map keyed by id. */
  lemma SetKeepsKeyed(edges: OMap<E.Edge>, e: E.Edge)
    requires EdgesKeyed(edges) && e.definition.id == e.id
    ensures EdgesKeyed(Set(edges, e.id, e))
    ensures Set(edges, e.id, e).m.Keys == edges.m.Keys + {e.id}
  {
  }

  /**
   * One iteration of the edge loop: an edge whose id is new, or whose
   * definition object differs, is replaced by a fresh instance whose ends
   * are looked up in the node map and whose duplicate number comes from the
   * counter under its pair key.
   */
  function EdgeStep(s: EdgeLoop, nodes: OMap<N.Oid>, def: E.EdgeDef): (r: EdgeLoop)
    requires LoopValid(s)
    ensures LoopValid(r)
    ensures r.edges.m.Keys == s.edges.m.Keys + {def.id}
    ensures r.dirty <==> s.dirty || def.id !in s.edges.m
  {
    var has := def.id in s.edges.m;
    if has && s.edges.m[def.id].definition == def then s
    else
      var key := KeyOf(def.to, def.from);
      var dn := if key in s.dup then s.dup[key] + 1 else 0;
      var e := E.NewEdge(def.id, def, Lookup(nodes, def.to), Lookup(nodes, def.from), dn);
      DupCountsSnoc(s.dup, s.log, key);
      SetKeepsKeyed(s.edges, e);
      EdgeLoop(Set(s.edges, def.id, e), s.dup[key := dn], s.log + [key], s.dirty || !has)
  }

  /**
   * What one iteration does: the named id ends up holding the definition;
   * no other id changes; a current edge is left alone; a rebuilt edge is a
   * new instance with its ends from the node map and, as duplicate number,
   * the count of edges rebuilt earlier in this pass between the same two ids.
   */
  lemma EdgeStepEffect(s: EdgeLoop, nodes: OMap<N.Oid>, def: E.EdgeDef)
    requires LoopValid(s)
    ensures var r := EdgeStep(s, nodes, def);
      && r.edges.m[def.id].definition == def
      && (forall k :: k in s.edges.m && k != def.id ==> r.edges.m[k] == s.edges.m[k])
      && (def.id in s.edges.m && s.edges.m[def.id].definition == def ==> r == s)
      && (def.id !in s.edges.m || s.edges.m[def.id].definition != def ==>
            && r.log == s.log + [KeyOf(def.to, def.from)]
            && r.edges.m[def.id] == E.NewEdge(def.id, def, Lookup(nodes, def.to), Lookup(nodes, def.from),
                                              Occurrences(s.log, KeyOf(def.to, def.from))))
  {
  }

  /** The edge loop over the whole list, in order. */
  function EdgePass(s: EdgeLoop, nodes: OMap<N.Oid>, defs: seq<E.EdgeDef>): (r: EdgeLoop)
    requires LoopValid(s)
    ensures LoopValid(r)
    decreases |defs|
  {
    if defs == [] then s
    else EdgeStep(EdgePass(s, nodes, defs[..|defs| - 1]), nodes, defs[|defs| - 1])
  }

  /**
   * After the edge loop the live ids are the old ones plus the listed ones,
   * and the loop is dirty when it was, or when some listed id was new.
   */
  lemma {:induction false} EdgePassKeys(s: EdgeLoop, nodes: OMap<N.Oid>, defs: seq<E.EdgeDef>)
    requires LoopValid(s)
    ensures EdgePass(s, nodes, defs).edges.m.Keys == s.edges.m.Keys + EdgeIds(defs)
    ensures EdgePass(s, nodes, defs).dirty <==> s.dirty || !(EdgeIds(defs) <= s.edges.m.Keys)
    decreases |defs|
  {
    if defs != [] {
      var init := defs[..|defs| - 1];
      var last := defs[|defs| - 1];
      EdgePassKeys(s, nodes, init);
      var p := EdgePass(s, nodes, init);
      assert EdgeIds(defs) == EdgeIds(init) + {last.id};
      UnionAssoc(s.edges.m.Keys, EdgeIds(init), {last.id});
      if last.id !in s.edges.m && last.id in EdgeIds(init) {
        assert !(EdgeIds(init) <= s.edges.m.Keys);
      }
    } else {
      assert EdgeIds(defs) == {};
    }
  }

  /** The edge loop leaves the edges of unlisted ids as they were. */
  lemma {:induction false} EdgePassFrame(s: EdgeLoop, nodes: OMap<N.Oid>, defs: seq<E.EdgeDef>)
    requires LoopValid(s)
    ensures var r := EdgePass(s, nodes, defs);
      forall k :: k in s.edges.m && k !in EdgeIds(defs) ==> k in r.edges.m && r.edges.m[k] == s.edges.m[k]
    decreases |defs|
  {
    if defs != [] {
      var init := defs[..|defs| - 1];
      var last := defs[|defs| - 1];
      var p := EdgePass(s, nodes, init);
      var r := EdgePass(s, nodes, defs);
      assert r == EdgeStep(p, nodes, last);
      assert EdgeIds(defs) == EdgeIds(init) + {last.id};
      EdgePassFrame(s, nodes, init);
      forall k | k in s.edges.m && k !in EdgeIds(defs)
        ensures k in r.edges.m && r.edges.m[k] == s.edges.m[k]
      {
        EdgeStepKeeps(p, nodes, last, k);
      }
    }
  }

  /** One iteration leaves the named id holding the definition. */
  lemma EdgeStepNamed(s: EdgeLoop, nodes: OMap<N.Oid>, def: E.EdgeDef)
    requires LoopValid(s)
    ensures var r := EdgeStep(s, nodes, def);
      def.id in r.edges.m && r.edges.m[def.id].definition == def
  {
    EdgeStepEffect(s, nodes, def);
  }

  /** One iteration leaves the edge under any other live id as it was. */
  lemma EdgeStepKeeps(s: EdgeLoop, nodes: OMap<N.Oid>, def: E.EdgeDef, k: string)
    requires LoopValid(s) && k in s.edges.m && k != def.id
    ensures var r := EdgeStep(s, nodes, def);
      k in r.edges.m && r.edges.m[k] == s.edges.m[k]
  {
    EdgeStepEffect(s, nodes, def);
  }

  /** After the edge loop every listed id holds a listed definition. */
  lemma {:induction false} EdgePassListed(s: EdgeLoop, nodes: OMap<N.Oid>, defs: seq<E.EdgeDef>)
    requires LoopValid(s)
    ensures var r := EdgePass(s, nodes, defs);
      forall k :: k in EdgeIds(defs) ==> k in r.edges.m && r.edges.m[k].definition in defs
    decreases |defs|
  {
    if defs != [] {
      var init := defs[..|defs| - 1];
      var last := defs[|defs| - 1];
      var p := EdgePass(s, nodes, init);
      var r := EdgePass(s, nodes, defs);
      assert r == EdgeStep(p, nodes, last);
      assert EdgeIds(defs) == EdgeIds(init) + {last.id};
      EdgePassListed(s, nodes, init);
      forall k | k in EdgeIds(defs)
        ensures k in r.edges.m && r.edges.m[k].definition in defs
      {
        if k == last.id {
          EdgeStepNamed(p, nodes, last);
        } else {
          EdgeStepKeeps(p, nodes, last, k);
          InPrefix(defs, p.edges.m[k].definition);
        }
      }
    }
  }

  /** After the edge loop each listed id holds the last definition listed under it. */
  lemma {:induction false} EdgePassLastDefinition(s: EdgeLoop, nodes: OMap<N.Oid>, defs: seq<E.EdgeDef>, i: nat)
    requires LoopValid(s) && i < |defs|
    requires forall j :: i < j < |defs| ==> defs[j].id != defs[i].id
    ensures var r := EdgePass(s, nodes, defs);
      defs[i].id in r.edges.m && r.edges.m[defs[i].id].definition == defs[i]
    decreases |defs|
  {
    var init := defs[..|defs| - 1];
    var last := defs[|defs| - 1];
    var p := EdgePass(s, nodes, init);
    assert EdgePass(s, nodes, defs) == EdgeStep(p, nodes, last);
    if i == |defs| - 1 {
      EdgeStepNamed(p, nodes, last);
    } else {
      assert init[i] == defs[i];
      assert forall j :: i < j < |init| ==> init[j].id != init[i].id by {
        forall j | i < j < |init|
          ensures init[j].id != init[i].id
        {
          assert init[j] == defs[j];
        }
      }
      EdgePassLastDefinition(s, nodes, init, i);
      EdgeStepKeeps(p, nodes, last, defs[i].id);
    }
  }

  /** Every edge the loop replaced has its ends looked up in the node map by its definition's ids. */
  lemma {:induction false} EdgePassEnds(s: EdgeLoop, nodes: OMap<N.Oid>, defs: seq<E.EdgeDef>)
    requires LoopValid(s)
    ensures var r := EdgePass(s, nodes, defs);
      forall k :: k in r.edges.m && (k !in s.edges.m || r.edges.m[k] != s.edges.m[k]) ==>
        && r.edges.m[k].start == Lookup(nodes, r.edges.m[k].definition.from)
        && r.edges.m[k].end == Lookup(nodes, r.edges.m[k].definition.to)
    decreases |defs|
  {
    if defs != [] {
      var init := defs[..|defs| - 1];
      EdgePassEnds(s, nodes, init);
      EdgePassKeys(s, nodes, init);
      EdgeStepEffect(EdgePass(s, nodes, init), nodes, defs[|defs| - 1]);
    }
  }

  /** The edges whose definition object is no longer listed. */
  function StaleEdges(edges: OMap<E.Edge>, defs: seq<E.EdgeDef>): set<string> {
    set k | k in edges.m && edges.m[k].definition !in defs
  }

  /**
   * setGraphType for edges, with a fresh duplicate counter: the loop, then
   * the sweep. The live ids become exactly the listed ids, and the result
   * is dirty exactly when the set of live ids changed.
   */
  function SetEdges(edges: OMap<E.Edge>, nodes: OMap<N.Oid>, defs: seq<E.EdgeDef>): (r: (OMap<E.Edge>, bool))
    requires EdgesKeyed(edges)
    ensures EdgesKeyed(r.0)
    ensures r.0.m.Keys == EdgeIds(defs)
    ensures r.1 <==> edges.m.Keys != EdgeIds(defs)
  {
    var s := EdgeLoop(edges, map[], [], false);
    var p := EdgePass(s, nodes, defs);
    EdgePassKeys(s, nodes, defs);
    EdgePassFrame(s, nodes, defs);
    EdgePassListed(s, nodes, defs);
    var stale := StaleEdges(p.edges, defs);
    assert stale == edges.m.Keys - EdgeIds(defs) by {
      forall k | k in edges.m && k !in EdgeIds(defs)
        ensures k in stale
      {
        assert p.edges.m[k].definition.id == k;
      }
    }
    DirtyIffChanged(edges.m.Keys, EdgeIds(defs));
    (DeleteAll(p.edges, stale), p.dirty || stale != {})
  }

  /**
   * Each listed id holds the last definition listed under it, and every
   * edge that is not the one held before has its ends looked up in the
   * node map by its definition's ids.
   */
  lemma SetEdgesContents(edges: OMap<E.Edge>, nodes: OMap<N.Oid>, defs: seq<E.EdgeDef>)
    requires EdgesKeyed(edges)
    ensures var r := SetEdges(edges, nodes, defs).0;
      && (forall i :: 0 <= i < |defs| && (forall j :: i < j < |defs| ==> defs[j].id != defs[i].id) ==>
            r.m[defs[i].id].definition == defs[i])
      && (forall k :: k in r.m && (k !in edges.m || r.m[k] != edges.m[k]) ==>
            && r.m[k].start == Lookup(nodes, r.m[k].definition.from)
            && r.m[k].end == Lookup(nodes, r.m[k].definition.to))
  {
    var s := EdgeLoop(edges, map[], [], false);
    EdgePassEnds(s, nodes, defs);
    forall i | 0 <= i < |defs| && (forall j :: i < j < |defs| ==> defs[j].id != defs[i].id)
      ensures SetEdges(edges, nodes, defs).0.m[defs[i].id].definition == defs[i]
    {
      EdgePassLastDefinition(s, nodes, defs, i);
    }
  }

  // ---------------------------------------------------------------------
  // checkGraph
  // ---------------------------------------------------------------------

  datatype Graph = Graph(nodes: seq<N.NodeDef>, edges: seq<E.EdgeDef>)

  /** The outcome of checkGraph: the new maps, the shapes now held, and whether the layouter is run. */
  datatype CheckResult = CheckResult(store: Store, shapes: Option<seq<Shapes.Shape>>, runLayout: bool)

  /**
   * checkGraph: nodes first, then edges against the reconciled node map;
   * the shapes are replaced; the layouter runs when either map was dirty or
   * the `shouldRunLayouter` callback (evaluated on the state before the
   * update, and false when absent) asked for it.
   */
  function CheckGraph(st: Store, g: Graph, shapes: Option<seq<Shapes.Shape>>, defaultSize: Option<real>,
                      shouldRun: bool): (r: CheckResult)
    requires Valid(st)
    ensures Valid(r.store)
    ensures r.store.nodes.m.Keys == NodeIds(g.nodes) && r.store.edges.m.Keys == EdgeIds(g.edges)
    ensures r.runLayout <==>
      shouldRun || st.nodes.m.Keys != NodeIds(g.nodes) || st.edges.m.Keys != EdgeIds(g.edges)
    ensures r.shapes == shapes
  {
    var n := SetNodes(st, g.nodes, defaultSize);
    var e := SetEdges(n.0.edges, n.0.nodes, g.edges);
    CheckResult(n.0.(edges := e.0), shapes, n.1 || e.1 || shouldRun)
  }

  /** Ids listed at most once. */
  predicate UniqueIds(g: Graph) {
    && (forall i, j :: 0 <= i < j < |g.nodes| ==> g.nodes[i].id != g.nodes[j].id)
    && (forall i, j :: 0 <= i < j < |g.edges| ==> g.edges[i].id != g.edges[j].id)
  }

  /**
   * Every live node and edge holds a listed definition under its own id:
   * the state a graph with unique ids leaves behind.
   */
  ghost predicate Current(st: Store, g: Graph) {
    && Valid(st)
    && st.nodes.m.Keys == NodeIds(g.nodes) && st.edges.m.Keys == EdgeIds(g.edges)
    && (forall i :: 0 <= i < |g.nodes| ==> st.heap[st.nodes.m[g.nodes[i].id]].definition == g.nodes[i])
    && (forall i :: 0 <= i < |g.edges| ==> st.edges.m[g.edges[i].id].definition == g.edges[i])
  }

  lemma CheckGraphMakesCurrent(st: Store, g: Graph, shapes: Option<seq<Shapes.Shape>>, defaultSize: Option<real>,
                               shouldRun: bool)
    requires Valid(st) && UniqueIds(g)
    ensures Current(CheckGraph(st, g, shapes, defaultSize, shouldRun).store, g)
  {
    var n := SetNodes(st, g.nodes, defaultSize).0;
    NodesCurrent(st, g.nodes, defaultSize);
    EdgesCurrent(n.edges, n.nodes, g.edges);
  }

  /** With unique ids, the node sweep leaves every listed id holding its definition. */
  lemma NodesCurrent(st: Store, defs: seq<N.NodeDef>, defaultSize: Option<real>)
    requires Valid(st)
    requires forall i, j :: 0 <= i < j < |defs| ==> defs[i].id != defs[j].id
    ensures var r := SetNodes(st, defs, defaultSize).0;
      forall i :: 0 <= i < |defs| ==> r.heap[r.nodes.m[defs[i].id]].definition == defs[i]
  {
    SetNodesKeeps(st, defs, defaultSize);
  }

  /** With unique ids, the edge sweep leaves every listed id holding its definition. */
  lemma EdgesCurrent(edges: OMap<E.Edge>, nodes: OMap<N.Oid>, defs: seq<E.EdgeDef>)
    requires EdgesKeyed(edges)
    requires forall i, j :: 0 <= i < j < |defs| ==> defs[i].id != defs[j].id
    ensures var r := SetEdges(edges, nodes, defs).0;
      forall i :: 0 <= i < |defs| ==> r.m[defs[i].id].definition == defs[i]
  {
    SetEdgesContents(edges, nodes, defs);
  }

  /** The node loop changes nothing when every listed node is already current. */
  lemma {:induction false} NodePassOnCurrent(st: Store, defs: seq<N.NodeDef>, defaultSize: Option<real>)
    requires Valid(st)
    requires forall d :: d in defs ==> d.id in st.nodes.m && st.heap[st.nodes.m[d.id]].definition == d
    ensures NodePass(st, defs, defaultSize) == (st, false)
    decreases |defs|
  {
    if defs != [] {
      NodePassOnCurrent(st, defs[..|defs| - 1], defaultSize);
    }
  }

  /** The edge loop changes nothing when every listed edge is already current. */
  lemma {:induction false} EdgePassOnCurrent(s: EdgeLoop, nodes: OMap<N.Oid>, defs: seq<E.EdgeDef>)
    requires LoopValid(s)
    requires forall d :: d in defs ==> d.id in s.edges.m && s.edges.m[d.id].definition == d
    ensures EdgePass(s, nodes, defs) == s
    decreases |defs|
  {
    if defs != [] {
      EdgePassOnCurrent(s, nodes, defs[..|defs| - 1]);
    }
  }

  /**
   * Handing the same graph over again changes nothing, and the layouter
   * then runs only if the callback asks for it.
   */
  lemma CheckGraphIdempotent(st: Store, g: Graph, shapes: Option<seq<Shapes.Shape>>, defaultSize: Option<real>,
                             shouldRun: bool)
    requires Current(st, g)
    ensures CheckGraph(st, g, shapes, defaultSize, shouldRun).store == st
    ensures CheckGraph(st, g, shapes, defaultSize, shouldRun).runLayout == shouldRun
  {
    SetNodesOnCurrent(st, g.nodes, defaultSize);
    SetEdgesOnCurrent(st.edges, st.nodes, g.edges);
  }

  /** The node sweep changes nothing when the live nodes are exactly the listed, current ones. */
  lemma SetNodesOnCurrent(st: Store, defs: seq<N.NodeDef>, defaultSize: Option<real>)
    requires Valid(st) && st.nodes.m.Keys == NodeIds(defs)
    requires forall i :: 0 <= i < |defs| ==> st.heap[st.nodes.m[defs[i].id]].definition == defs[i]
    ensures SetNodes(st, defs, defaultSize) == (st, false)
  {
    forall d | d in defs
      ensures d.id in st.nodes.m && st.heap[st.nodes.m[d.id]].definition == d
    {
      var i :| 0 <= i < |defs| && defs[i] == d;
    }
    NodePassOnCurrent(st, defs, defaultSize);
    forall k | k in st.nodes.m
      ensures st.heap[st.nodes.m[k]].definition in defs
    {
      NodeIdsListed(defs, k);
    }
    assert StaleNodes(st, defs) == {};
    DeleteNothing(st.nodes);
  }

  /** The edge sweep changes nothing when the live edges are exactly the listed, current ones. */
  lemma SetEdgesOnCurrent(edges: OMap<E.Edge>, nodes: OMap<N.Oid>, defs: seq<E.EdgeDef>)
    requires EdgesKeyed(edges) && edges.m.Keys == EdgeIds(defs)
    requires forall i :: 0 <= i < |defs| ==> edges.m[defs[i].id].definition == defs[i]
    ensures SetEdges(edges, nodes, defs) == (edges, false)
  {
    forall d | d in defs
      ensures d.id in edges.m && edges.m[d.id].definition == d
    {
      var i :| 0 <= i < |defs| && defs[i] == d;
    }
    var loop := EdgeLoop(edges, map[], [], false);
    EdgePassOnCurrent(loop, nodes, defs);
    forall k | k in edges.m
      ensures edges.m[k].definition in defs
    {
      EdgeIdsListed(defs, k);
    }
    assert StaleEdges(edges, defs) == {};
    DeleteNothing(edges);
  }

  /**
   * A node whose id stays listed keeps its identity, position, mass, size
   * and destination: only its definition and `fixed` flag can change.
   */
  lemma UpdateKeepsPosition(st: Store, g: Graph, shapes: Option<seq<Shapes.Shape>>, defaultSize: Option<real>,
                            shouldRun: bool, k: string)
    requires Valid(st) && k in st.nodes.m && k in NodeIds(g.nodes)
    ensures
      var r := CheckGraph(st, g, shapes, defaultSize, shouldRun).store;
      var before := st.heap[st.nodes.m[k]];
      && r.nodes.m[k] == st.nodes.m[k]
      && r.heap[r.nodes.m[k]].x == before.x && r.heap[r.nodes.m[k]].y == before.y
      && r.heap[r.nodes.m[k]].mass == before.mass && r.heap[r.nodes.m[k]].size == before.size
      && r.heap[r.nodes.m[k]].destination == before.destination
  {
    SetNodesKeeps(st, g.nodes, defaultSize);
  }

  /**
   * An edge rebuilt by checkGraph refers to the node instances that are
   * live after the node pass, by the ids its definition names.
   */
  lemma RebuiltEdgeEndsAreLive(st: Store, g: Graph, shapes: Option<seq<Shapes.Shape>>, defaultSize: Option<real>,
                               shouldRun: bool, k: string)
    requires Valid(st)
    requires
      var r := CheckGraph(st, g, shapes, defaultSize, shouldRun).store;
      k in r.edges.m && (k !in st.edges.m || r.edges.m[k] != st.edges.m[k])
    ensures
      var r := CheckGraph(st, g, shapes, defaultSize, shouldRun).store;
      var e := r.edges.m[k];
      && (e.start.Some? <==> e.definition.from in r.nodes.m)
      && (e.end.Some? <==> e.definition.to in r.nodes.m)
      && (e.start.Some? ==> e.start.value == r.nodes.m[e.definition.from])
      && (e.end.Some? ==> e.end.value == r.nodes.m[e.definition.to])
  {
    var n := SetNodes(st, g.nodes, defaultSize).0;
    SetEdgesContents(n.edges, n.nodes, g.edges);
  }
}

=== FILE: hit_test.dfy ===
/**
 * Pointer hit-testing of nodes and edges: nodes are open squares around
 * their centre, edges are hit within 10 units, and in both cases the first
 * entity in the map's iteration order wins.
 */
module HitTest {
  import opened JsValues
  import opened Camera
  import opened Nodes
  import opened Edges
  import Curves

  /** The index of the first element satisfying `hit`, if any. */
  function FirstIndex<T>(s: seq<T>, hit: T -> bool): (r: Option<nat>)
    ensures r.None? <==> forall i :: 0 <= i < |s| ==> !hit(s[i])
    ensures r.Some? ==> r.value < |s| && hit(s[r.value])
    ensures r.Some? ==> forall j :: 0 <= j < r.value ==> !hit(s[j])
  {
    if s == [] then None
    else if hit(s[0]) then Some(0)
    else
      match FirstIndex(s[1..], hit)
      case None => None
      case Some(i) => Some(i + 1)
  }

  /** The index of the last element satisfying `hit`, if any (a scan from the end). */
  function LastIndex<T>(s: seq<T>, hit: T -> bool): (r: Option<nat>)
    ensures r.None? <==> forall i :: 0 <= i < |s| ==> !hit(s[i])
    ensures r.Some? ==> r.value < |s| && hit(s[r.value])
    ensures r.Some? ==> forall j :: r.value < j < |s| ==> !hit(s[j])
  {
    if s == [] then None
    else if hit(s[|s| - 1]) then Some(|s| - 1)
    else LastIndex(s[..|s| - 1], hit)
  }

  /** checkNodeAtPosition: the open square of side bSize centred on the node. */
  function CheckNodeAtPosition(n: Node, p: Point): (hit: bool)
    ensures hit <==> Abs(p.x - n.x) < n.bSize / 2.0 && Abs(p.y - n.y) < n.bSize / 2.0
  {
    var offset := n.bSize / 2.0;
    p.x > n.x - offset && p.x < n.x + offset && p.y > n.y - offset && p.y < n.y + offset
  }

  /**
   * getNodeAtPosition over the node map's values in iteration order
   * (`order`, resolved through the heap): the first node hit.
   */
  function NodeAtPosition(order: seq<Oid>, heap: Heap, p: Point): (r: Option<Oid>)
    requires forall i :: 0 <= i < |order| ==> order[i] in heap
    ensures r.None? <==> forall i :: 0 <= i < |order| ==> !CheckNodeAtPosition(heap[order[i]], p)
    ensures r.Some? ==> exists i :: (0 <= i < |order| && order[i] == r.value
      && CheckNodeAtPosition(heap[order[i]], p)
      && forall j :: 0 <= j < i ==> !CheckNodeAtPosition(heap[order[j]], p))
  {
    var hit := (o: Oid) => o in heap && CheckNodeAtPosition(heap[o], p);
    match FirstIndex(order, hit)
    case None => None
    case Some(i) => Some(order[i])
  }

  /** The hit radius for edges. */
  const EdgeHitDistance: real := 10.0

  /**
   * The edge test as the source writes it: `getDistanceFrom(pos) < 10`,
   * where a missing endpoint gives `null` and `null < 10` is true.
   */
  predicate EdgeHitAsWritten(e: Edge, heap: Heap, p: Point, opts: EdgeOptions, dist: Curves.SegmentDistance) {
    var d := DistanceFrom(e, heap, p, opts, dist);
    d.None? || d.value < EdgeHitDistance
  }

  /** The edge test as intended: an edge without a distance is never hit. */
  predicate EdgeHit(e: Edge, heap: Heap, p: Point, opts: EdgeOptions, dist: Curves.SegmentDistance) {
    var d := DistanceFrom(e, heap, p, opts, dist);
    d.Some? && d.value < EdgeHitDistance
  }

  /** getEdgeAtPosition as written: the index of the first edge passing EdgeHitAsWritten. */
  function EdgeAtPositionAsWritten(edges: seq<Edge>, heap: Heap, p: Point, opts: EdgeOptions, dist: Curves.SegmentDistance)
    : (r: Option<nat>)
    ensures r.Some? ==> r.value < |edges| && EdgeHitAsWritten(edges[r.value], heap, p, opts, dist)
    ensures r.Some? ==> forall j :: 0 <= j < r.value ==> !EdgeHitAsWritten(edges[j], heap, p, opts, dist)
    ensures r.None? <==> forall i :: 0 <= i < |edges| ==> !EdgeHitAsWritten(edges[i], heap, p, opts, dist)
  {
    FirstIndex(edges, (e: Edge) => EdgeHitAsWritten(e, heap, p, opts, dist))
  }

  /**
   * getEdgeAtPosition, corrected: the index of the first edge whose
   * distance exists and is below 10.
   */
  function EdgeAtPosition(edges: seq<Edge>, heap: Heap, p: Point, opts: EdgeOptions, dist: Curves.SegmentDistance)
    : (r: Option<nat>)
    ensures r.Some? ==> r.value < |edges| && Ends(edges[r.value], heap).Some?
    ensures r.Some? ==> DistanceFrom(edges[r.value], heap, p, opts, dist).value < EdgeHitDistance
    ensures r.Some? ==> forall j :: 0 <= j < r.value ==> !EdgeHit(edges[j], heap, p, opts, dist)
    ensures r.None? <==> forall i :: 0 <= i < |edges| ==> !EdgeHit(edges[i], heap, p, opts, dist)
  {
    FirstIndex(edges, (e: Edge) => EdgeHit(e, heap, p, opts, dist))
  }

  /**
   * The discrepancy: an edge whose endpoint is missing, listed first, is
   * returned by the as-written scan at every position, and never by the
   * corrected one.
   */
  lemma DanglingEdgeHitEverywhere(e: Edge, rest: seq<Edge>, heap: Heap, p: Point, opts: EdgeOptions, dist: Curves.SegmentDistance)
    requires e.end.None?
    ensures EdgeAtPositionAsWritten([e] + rest, heap, p, opts, dist) == Some(0)
    ensures EdgeAtPosition([e] + rest, heap, p, opts, dist) != Some(0)
  {
    assert ([e] + rest)[0] == e;
  }

  /** Both scans agree whenever every edge has both endpoints. */
  lemma {:induction false} EdgeScansAgreeWhenConnected(edges: seq<Edge>, heap: Heap, p: Point, opts: EdgeOptions, dist: Curves.SegmentDistance)
    requires forall i :: 0 <= i < |edges| ==> Ends(edges[i], heap).Some?
    ensures EdgeAtPositionAsWritten(edges, heap, p, opts, dist) == EdgeAtPosition(edges, heap, p, opts, dist)
  {
    assert forall i :: 0 <= i < |edges| ==>
      (EdgeHitAsWritten(edges[i], heap, p, opts, dist) <==> EdgeHit(edges[i], heap, p, opts, dist));
  }
}

=== FILE: interaction.dfy ===
/**
 * The pointer, keyboard and per-frame handlers of the network component
 * (processMouseAction, processShapeEdit, handleMouse, handleKey, edgePan and
 * tickHandler) as pure transitions.
 *
 * The two reducers that own the interaction state and the pan/scale state
 * are not part of this model: what a handler dispatches to them is returned
 * as a list of events, in order, as are the `onMouse` callbacks it fires.
 * What a handler mutates directly (node objects, the shapes array) comes
 * back as the new heap and the new shape list; the hover popup and the
 * rollover highlight come back as effects.
 */
module Interaction {
  import opened JsValues
  import opened Seqs
  import opened Camera
  import N = Nodes
  import E = Edges
  import Curves
  import HitTest
  import opened Shapes
  import GS = GraphStore
  import OrderedMaps

  /** A DOM mouse event, as far as the handlers read it. */
  datatype MouseEvent = MouseEvent(
    kind: string,
    clientX: real,
    clientY: real,
    movementX: real,
    movementY: real,
    ctrlKey: bool,
    metaKey: bool,
    shiftKey: bool)

  function Pointer(e: MouseEvent, deltaY: real): PointerEvent {
    PointerEvent(e.clientX, e.clientY, deltaY)
  }

  /**
   * The interaction reducer's `action`: Idle is no action (after a
   * release), Drag is "drag", Panning is "pan", EdgeSelected is "edgeDown",
   * ShapeDrag is "shapeDrag" and HandleDrag is "handleDrag".
   */
  datatype Action = Idle | Drag | Panning | EdgeSelected | ShapeDrag | HandleDrag

  /** The interaction reducer's state, as far as the handlers read it. */
  datatype InteractionState = InteractionState(
    action: Action,
    draggedNodes: seq<N.Oid>,
    mouseMoved: bool,
    shape: Option<Shape>,
    shapeHandle: Option<Handle>)

  /** What a hover popup or rollover highlight is about. */
  datatype HoverItem = NodeItem(node: N.Oid) | EdgeItem(edge: E.Edge)

  /** The options the handlers consult; `onMouse` says whether a callback is installed. */
  datatype Options = Options(
    allowGraphInteraction: bool,
    allowShapeInteraction: bool,
    onMouse: bool,
    edges: E.EdgeOptions,
    nodeSize: real,
    dist: Curves.SegmentDistance)

  /**
   * Everything a handler reads: the live graph, the shapes array, the
   * camera, the screen, the interaction state, the item of the hover popup
   * and the memoised bounds of the graph.
   */
  datatype View = View(
    store: GS.Store,
    shapes: seq<Shape>,
    ps: PanScaleState,
    screen: Screen,
    ist: InteractionState,
    hoverItem: Option<HoverItem>,
    bounds: Bounds,
    opts: Options)

  /** An `onMouse` call. */
  datatype Callback =
    | NodeClick(node: N.Oid)
    | EdgeClick(edge: E.Edge)
    | BackgroundClick
    | NodesDragged(nodes: seq<N.Oid>)
    | NodeDblClick(node: N.Oid)
    | EdgeDblClick(edge: E.Edge)
    | ShapeClick(shape: Shape)
    | ShapeUpdate(shapes: seq<Shape>)

  /** A dispatch to the interaction reducer. */
  datatype InteractionEvent =
    | AddToDrag(nodes: seq<N.Oid>)
    | EdgeDown
    | StartPan
    | ReleaseDrag
    | MouseMoved
    | ShapeDown(shape: Shape)
    | HandleDown(handle: Handle)
    | ShapeUp
    | ShapeMoved(shape: Shape)
    | HandleMoved(shape: Shape)

  /** A dispatch to the pan/scale reducer. */
  datatype PanScaleEvent =
    | FramePan(perFrame: Option<Point>)
    | SetPan(pan: Point)
    | SetDestination(pan: Point, scale: real)
    | KeyAction(name: string)
    | ZoomPanimate

  /** The rollover highlight: left alone, or set (possibly to nothing). */
  datatype Rollover = RolloverKept | RolloverSet(item: Option<HoverItem>)

  /**
   * The hover popup: left alone; cleared (pending timer cancelled and the
   * shown item dropped); a popup scheduled after the delay, replacing any
   * pending one; or only the pending timer cancelled.
   */
  datatype Hover = HoverKept | HoverCleared | HoverScheduled(item: HoverItem, anchor: Point) | HoverCancelled

  datatype Outcome = Outcome(
    callbacks: seq<Callback>,
    interaction: seq<InteractionEvent>,
    panScale: seq<PanScaleEvent>,
    heap: N.Heap,
    shapes: seq<Shape>,
    rollover: Rollover,
    hover: Hover)

  /** The zoom step a double click on the background stands for. */
  const DblClickDeltaY: real := -150.0

  /** A handler that does nothing. */
  function Quiet(v: View): (o: Outcome)
    ensures o.callbacks == [] && o.interaction == [] && o.panScale == []
    ensures o.heap == v.store.heap && o.shapes == v.shapes
    ensures o.rollover == RolloverKept && o.hover == HoverKept
  {
    Outcome([], [], [], v.store.heap, v.shapes, RolloverKept, HoverKept)
  }

  /** `om && om(...)`: the call, when a callback is installed. */
  function Fire(v: View, c: Callback): (r: seq<Callback>)
    ensures r == [] || r == [c]
    ensures c in r <==> v.opts.onMouse
  {
    if v.opts.onMouse then [c] else []
  }

  /**
   * What the handlers may assume: a well-formed live graph, a camera
   * with a non-zero scale, and dragged nodes that are node objects.
   */
  ghost predicate ViewValid(v: View) {
    && GS.Valid(v.store)
    && v.ps.scale != 0.0
    && (forall i :: 0 <= i < |v.ist.draggedNodes| ==> v.ist.draggedNodes[i] in v.store.heap)
  }

  /** The padded bounds the wheel zoom divides by are non-degenerate. */
  predicate BoundsPadded(v: View) {
    v.bounds.height + v.opts.nodeSize * 2.0 > 0.0 && v.bounds.width + v.opts.nodeSize * 2.0 > 0.0
  }

  /** The shape actions always come with the shape being edited. */
  predicate ShapeActionHasShape(ist: InteractionState) {
    ist.action in {ShapeDrag, HandleDrag} ==> ist.shape.Some?
  }

  /**
   * The switch key of both processors: "dblclick" for a double click,
   * otherwise the event type without its five-letter "mouse" prefix
   * (`substr(5)`, empty for a shorter type).
   */
  function Phase(kind: string): (p: string)
    ensures kind == "dblclick" ==> p == "dblclick"
    ensures kind != "dblclick" && |kind| >= 5 ==> kind == kind[..5] + p
    ensures kind != "dblclick" && |kind| < 5 ==> p == ""
  {
    if kind == "dblclick" then "dblclick" else if |kind| >= 5 then kind[5..] else ""
  }

  lemma PhasesOfMouseEvents()
    ensures Phase("mousedown") == "down" && Phase("mouseup") == "up"
    ensures Phase("mousemove") == "move" && Phase("mouseleave") == "leave"
    ensures Phase("dblclick") == "dblclick" && Phase("wheel") == ""
  {
    assert "mousedown"[5..] == "down";
    assert "mouseup"[5..] == "up";
    assert "mousemove"[5..] == "move";
    assert "mouseleave"[5..] == "leave";
    assert "wheel"[5..] == "";
  }

  /** The live node objects in the map's iteration order. */
  function LiveNodes(st: GS.Store): (r: seq<N.Oid>)
    requires GS.Valid(st)
    ensures forall i :: 0 <= i < |r| ==> r[i] in st.heap
  {
    var r := OrderedMaps.Values(st.nodes);
    assert forall i :: 0 <= i < |r| ==> st.nodes.keys[i] in st.nodes.m;
    r
  }

  /** The live edges in the map's iteration order. */
  function LiveEdges(st: GS.Store): (r: seq<E.Edge>)
    requires GS.Valid(st)
    ensures |r| == |st.edges.keys|
    ensures forall i :: 0 <= i < |r| ==> r[i] == st.edges.m[st.edges.keys[i]]
  {
    OrderedMaps.Values(st.edges)
  }

  /** Some live node is under the pointer. */
  ghost predicate NodeHit(v: View, pos: Point)
    requires GS.Valid(v.store)
  {
    var order := LiveNodes(v.store);
    exists i :: 0 <= i < |order| && HitTest.CheckNodeAtPosition(v.store.heap[order[i]], pos)
  }

  /** Some live edge is within reach of the pointer. */
  ghost predicate EdgeHit(v: View, pos: Point)
    requires GS.Valid(v.store)
  {
    var edges := LiveEdges(v.store);
    exists i :: 0 <= i < |edges| && HitTest.EdgeHit(edges[i], v.store.heap, pos, v.opts.edges, v.opts.dist)
  }

  /** getNodeAtPosition over the live nodes. */
  function NodeAt(v: View, pos: Point): (r: Option<N.Oid>)
    requires GS.Valid(v.store)
    ensures r.Some? <==> NodeHit(v, pos)
    ensures r.Some? ==> r.value in v.store.heap && HitTest.CheckNodeAtPosition(v.store.heap[r.value], pos)
  {
    HitTest.NodeAtPosition(LiveNodes(v.store), v.store.heap, pos)
  }

  /** getEdgeAtPosition over the live edges. */
  function EdgeAt(v: View, pos: Point): (r: Option<E.Edge>)
    requires GS.Valid(v.store)
    ensures r.Some? <==> EdgeHit(v, pos)
    ensures r.Some? ==> r.value in LiveEdges(v.store) && HitTest.EdgeHit(r.value, v.store.heap, pos, v.opts.edges, v.opts.dist)
  {
    var edges := LiveEdges(v.store);
    match HitTest.EdgeAtPosition(edges, v.store.heap, pos, v.opts.edges, v.opts.dist)
    case None => None
    case Some(i) => Some(edges[i])
  }

  /**
   * Where every live edge has both endpoints, `EdgeAt` picks the same edge as
   * the scan as the source writes it; the two differ only on dangling edges.
   */
  lemma EdgeAtAgreesWhenConnected(v: View, pos: Point)
    requires GS.Valid(v.store)
    requires forall e :: e in LiveEdges(v.store) ==> E.Ends(e, v.store.heap).Some?
    ensures var edges := LiveEdges(v.store);
      match HitTest.EdgeAtPositionAsWritten(edges, v.store.heap, pos, v.opts.edges, v.opts.dist)
      case None => EdgeAt(v, pos).None?
      case Some(i) => i < |edges| && EdgeAt(v, pos) == Some(edges[i])
  {
    var edges := LiveEdges(v.store);
    assert forall i :: 0 <= i < |edges| ==> E.Ends(edges[i], v.store.heap).Some?;
    HitTest.EdgeScansAgreeWhenConnected(edges, v.store.heap, pos, v.opts.edges, v.opts.dist);
  }

  // ---------------------------------------------------------------------
  // Node objects moved by dragging and by autopan
  // ---------------------------------------------------------------------

  /**
   * `dragged.forEach(n => { n.x += d.x; n.y += d.y; ... })`: every listed
   * node object moves by `d`, once per time it is listed, and, when `fix`,
   * is marked fixed.
   */
  function ShiftNodes(heap: N.Heap, dragged: seq<N.Oid>, d: Point, fix: bool): (r: N.Heap)
    requires forall i :: 0 <= i < |dragged| ==> dragged[i] in heap
    ensures r.Keys == heap.Keys
    decreases |dragged|
  {
    if dragged == [] then heap
    else
      var h := ShiftNodes(heap, dragged[..|dragged| - 1], d, fix);
      var o := dragged[|dragged| - 1];
      h[o := h[o].(x := h[o].x + d.x, y := h[o].y + d.y, fixed := fix || h[o].fixed)]
  }

  /** `k * a` as `k` additions of `a`. */
  function Times(k: nat, a: real): (r: real)
    ensures k == 0 ==> r == 0.0
    ensures k == 1 ==> r == a
    ensures a >= 0.0 ==> r >= 0.0
  {
    if k == 0 then 0.0 else Times(k - 1, a) + a
  }

  /**
   * The shift in closed form: a node object listed k times moves by k
   * times `d` and, when listed and `fix`, becomes fixed; nothing else about
   * it changes.
   */
  lemma ShiftNodesEffect(heap: N.Heap, dragged: seq<N.Oid>, d: Point, fix: bool, o: N.Oid)
    requires forall i :: 0 <= i < |dragged| ==> dragged[i] in heap
    requires o in heap
    ensures var r := ShiftNodes(heap, dragged, d, fix)[o]; var k := Occurrences(dragged, o);
      && r.x == heap[o].x + Times(k, d.x)
      && r.y == heap[o].y + Times(k, d.y)
      && r.fixed == (heap[o].fixed || (fix && k > 0))
      && r.(x := heap[o].x, y := heap[o].y, fixed := heap[o].fixed) == heap[o]
  {
    ShiftNodesMoves(heap, dragged, d, fix, o);
    ShiftNodesFrame(heap, dragged, d, fix, o);
  }

  /** The moving part of the shift: k listings move a node by k times `d`. */
  lemma {:induction false} ShiftNodesMoves(heap: N.Heap, dragged: seq<N.Oid>, d: Point, fix: bool, o: N.Oid)
    requires forall i :: 0 <= i < |dragged| ==> dragged[i] in heap
    requires o in heap
    ensures var r := ShiftNodes(heap, dragged, d, fix)[o]; var k := Occurrences(dragged, o);
      && r.x == heap[o].x + Times(k, d.x)
      && r.y == heap[o].y + Times(k, d.y)
      && r.fixed == (heap[o].fixed || (fix && k > 0))
    decreases |dragged|
  {
    if dragged != [] {
      var init := dragged[..|dragged| - 1];
      var last := dragged[|dragged| - 1];
      assert forall i :: 0 <= i < |init| ==> init[i] == dragged[i];
      ShiftNodesMoves(heap, init, d, fix, o);
      var h := ShiftNodes(heap, init, d, fix);
      var k := Occurrences(init, o);
      var r := ShiftNodes(heap, dragged, d, fix);
      assert r == h[last := h[last].(x := h[last].x + d.x, y := h[last].y + d.y, fixed := fix || h[last].fixed)];
      if o == last {
        assert Occurrences(dragged, o) == k + 1;
        assert r[o].x == h[o].x + d.x && r[o].y == h[o].y + d.y && r[o].fixed == (fix || h[o].fixed);
      } else {
        assert Occurrences(dragged, o) == k;
        assert r[o] == h[o];
      }
    }
  }

  /** The shift changes nothing about a node but its position and `fixed` flag. */
  lemma {:induction false} ShiftNodesFrame(heap: N.Heap, dragged: seq<N.Oid>, d: Point, fix: bool, o: N.Oid)
    requires forall i :: 0 <= i < |dragged| ==> dragged[i] in heap
    requires o in heap
    ensures var r := ShiftNodes(heap, dragged, d, fix)[o];
      r.(x := heap[o].x, y := heap[o].y, fixed := heap[o].fixed) == heap[o]
    decreases |dragged|
  {
    if dragged != [] {
      var init := dragged[..|dragged| - 1];
      assert forall i :: 0 <= i < |init| ==> init[i] == dragged[i];
      ShiftNodesFrame(heap, init, d, fix, o);
    }
  }

  /** With no repeats, each listed node moves by exactly `d`, and every other node stays as it was. */
  lemma ShiftDistinct(heap: N.Heap, dragged: seq<N.Oid>, d: Point, fix: bool, o: N.Oid)
    requires forall i :: 0 <= i < |dragged| ==> dragged[i] in heap
    requires Distinct(dragged) && o in heap
    ensures o in dragged ==>
      ShiftNodes(heap, dragged, d, fix)[o] == heap[o].(x := heap[o].x + d.x, y := heap[o].y + d.y, fixed := heap[o].fixed || fix)
    ensures o !in dragged ==> ShiftNodes(heap, dragged, d, fix)[o] == heap[o]
  {
    ShiftNodesEffect(heap, dragged, d, fix, o);
    if o in dragged {
      DistinctOccursOnce(dragged, o);
    }
  }

  // ---------------------------------------------------------------------
  // processMouseAction, graph interaction
  // ---------------------------------------------------------------------

  /**
   * The dragged list after pressing on node `n`: the insertion-ordered set
   * of the previous list (only with ctrl, meta or shift) with `n` added.
   */
  function DragSelection(ist: InteractionState, ctrlClick: bool, n: N.Oid): (r: seq<N.Oid>)
    ensures Distinct(r) && n in r
  {
    SetAdd(Dedupe(if ctrlClick then ist.draggedNodes else []), n)
  }

  /** Pointer-down: a node hit selects it for dragging, else an edge hit selects the edge, else panning starts. */
  function GraphDown(v: View, pos: Point, ctrlClick: bool): (o: Outcome)
    requires GS.Valid(v.store)
    ensures o.heap == v.store.heap && o.shapes == v.shapes && o.panScale == []
    ensures o.rollover == RolloverKept && o.hover == HoverCleared
    ensures |o.interaction| == 1
  {
    var q := Quiet(v).(hover := HoverCleared);
    match NodeAt(v, pos)
    case Some(n) =>
      q.(callbacks := Fire(v, NodeClick(n)), interaction := [AddToDrag(DragSelection(v.ist, ctrlClick, n))])
    case None =>
      match EdgeAt(v, pos)
      case Some(ed) => q.(callbacks := Fire(v, EdgeClick(ed)), interaction := [EdgeDown])
      case None => q.(interaction := [StartPan])
  }

  /** Pointer-down precedence: node over edge over pan, each in if-and-only-if form. */
  lemma DownPrecedence(v: View, pos: Point, ctrlClick: bool)
    requires GS.Valid(v.store)
    ensures var o := GraphDown(v, pos, ctrlClick);
      && (o.interaction[0].AddToDrag? <==> NodeHit(v, pos))
      && (o.interaction[0] == EdgeDown <==> !NodeHit(v, pos) && EdgeHit(v, pos))
      && (o.interaction[0] == StartPan <==> !NodeHit(v, pos) && !EdgeHit(v, pos))
    ensures var o := GraphDown(v, pos, ctrlClick);
      && (o.interaction[0].AddToDrag? ==> o.interaction[0].nodes[|o.interaction[0].nodes| - 1] == NodeAt(v, pos).value || ctrlClick)
      && (o.callbacks != [] <==> v.opts.onMouse && (NodeHit(v, pos) || EdgeHit(v, pos)))
  {
    var o := GraphDown(v, pos, ctrlClick);
    if NodeHit(v, pos) {
      var n := NodeAt(v, pos).value;
      if !ctrlClick {
        assert Dedupe<N.Oid>([]) == [];
        assert DragSelection(v.ist, ctrlClick, n) == [n];
      }
    }
  }

  /**
   * Ctrl-click set semantics: with ctrl, meta or shift the new dragged list
   * is the old one with the node appended when absent (Set order, so a
   * node already listed keeps its place); otherwise it is just the node.
   */
  lemma CtrlClickSelection(ist: InteractionState, ctrlClick: bool, n: N.Oid)
    requires Distinct(ist.draggedNodes)
    ensures var r := DragSelection(ist, ctrlClick, n);
      && (!ctrlClick ==> r == [n])
      && (ctrlClick && n in ist.draggedNodes ==> r == ist.draggedNodes)
      && (ctrlClick && n !in ist.draggedNodes ==> r == ist.draggedNodes + [n])
  {
    assert Dedupe<N.Oid>([]) == [];
    if ctrlClick {
      DedupeDistinct(ist.draggedNodes);
    }
  }

  /**
   * A consequence of Set order: ctrl-clicking a node that is already
   * selected, but not last, leaves another node last, and the drag anchors
   * that other node to the pointer.
   */
  lemma ReclickKeepsAnchor(ist: InteractionState, n: N.Oid)
    requires Distinct(ist.draggedNodes) && |ist.draggedNodes| >= 2 && n == ist.draggedNodes[0]
    ensures var r := DragSelection(ist, true, n);
      r[|r| - 1] == ist.draggedNodes[|ist.draggedNodes| - 1] != n
  {
    CtrlClickSelection(ist, true, n);
    assert At(ist.draggedNodes, 0) != At(ist.draggedNodes, |ist.draggedNodes| - 1);
  }

  /** Pointer-up: the click and drag callbacks, then drag released and autopan stopped. */
  function GraphUp(v: View): (o: Outcome)
    ensures o.interaction == [ReleaseDrag] && o.panScale == [FramePan(None)]
    ensures o.heap == v.store.heap && o.shapes == v.shapes
    ensures o.rollover == RolloverKept && o.hover == HoverKept
  {
    var ist := v.ist;
    var background :=
      if |ist.draggedNodes| == 0 && !ist.mouseMoved && ist.action != EdgeSelected then Fire(v, BackgroundClick) else [];
    var dragged :=
      if |ist.draggedNodes| > 0 && ist.mouseMoved && v.opts.onMouse then Fire(v, NodesDragged(ist.draggedNodes)) else [];
    Quiet(v).(callbacks := background + dragged, interaction := [ReleaseDrag], panScale := [FramePan(None)])
  }

  /**
   * Which callbacks fire on pointer-up: the background click exactly when
   * nothing was dragged, the pointer did not move and no edge was
   * selected; the drag report exactly when nodes were dragged and the
   * pointer moved; never both.
   */
  lemma UpCallbacks(v: View)
    ensures var o := GraphUp(v); var ist := v.ist;
      && (BackgroundClick in o.callbacks <==>
            v.opts.onMouse && |ist.draggedNodes| == 0 && !ist.mouseMoved && ist.action != EdgeSelected)
      && (NodesDragged(ist.draggedNodes) in o.callbacks <==>
            v.opts.onMouse && |ist.draggedNodes| > 0 && ist.mouseMoved)
      && |o.callbacks| <= 1
  {
  }

  /**
   * Pointer-move: dragging shifts the dragged nodes so that the last one
   * lands on the pointer and starts autopan near the border; panning moves
   * the pan by the pointer movement; otherwise the node, else the edge,
   * under the pointer is highlighted and its popup scheduled unless it is
   * already the popup's item.
   */
  function GraphMove(v: View, pos: Point, e: MouseEvent): (o: Outcome)
    requires ViewValid(v) && v.screen.boundingRect.Some?
    ensures o.shapes == v.shapes && o.callbacks == []
    ensures o.heap.Keys == v.store.heap.Keys
  {
    var ist := v.ist;
    var heap := v.store.heap;
    if ist.action == Drag && |ist.draggedNodes| > 0 then
      var last := heap[ist.draggedNodes[|ist.draggedNodes| - 1]];
      var delta := Point(pos.x - last.x, pos.y - last.y);
      var sp := ScreenEdgePan(v.screen.boundingRect.value, Pointer(e, 0.0));
      Quiet(v).(heap := ShiftNodes(heap, ist.draggedNodes, delta, true),
                interaction := [MouseMoved], panScale := [FramePan(sp)])
    else if ist.action == Panning then
      Quiet(v).(panScale := [SetPan(Point(v.ps.pan.x + e.movementX, v.ps.pan.y + e.movementY))])
    else
      match NodeAt(v, pos)
      case Some(hn) =>
        var item := NodeItem(hn);
        var show := if Some(item) != v.hoverItem
          then HoverScheduled(item, NodeScreenPos(Point(heap[hn].x, heap[hn].y), v.ps)) else HoverKept;
        Quiet(v).(rollover := RolloverSet(Some(item)), hover := show)
      case None =>
        match EdgeAt(v, pos)
        case Some(he) =>
          var item := EdgeItem(he);
          var show := if Some(item) != v.hoverItem then HoverScheduled(item, Point(e.clientX, e.clientY)) else HoverKept;
          Quiet(v).(rollover := RolloverSet(Some(item)), hover := show)
        case None => Quiet(v).(rollover := RolloverSet(None), hover := HoverCancelled)
  }

  /**
   * Drag move: every dragged node is shifted by the same delta and fixed,
   * the last-listed node ends exactly at the pointer's world position, and
   * no other node object changes.
   */
  lemma DragMovesSelection(v: View, pos: Point, e: MouseEvent)
    requires ViewValid(v) && v.screen.boundingRect.Some?
    requires v.ist.action == Drag && |v.ist.draggedNodes| > 0 && Distinct(v.ist.draggedNodes)
    ensures var o := GraphMove(v, pos, e);
      var dragged := v.ist.draggedNodes;
      var heap := v.store.heap;
      var last := dragged[|dragged| - 1];
      && o.heap[last].x == pos.x && o.heap[last].y == pos.y
      && (forall n :: n in dragged ==>
            o.heap[n] == heap[n].(x := heap[n].x + (pos.x - heap[last].x),
                                  y := heap[n].y + (pos.y - heap[last].y), fixed := true))
      && (forall n :: n in heap && n !in dragged ==> o.heap[n] == heap[n])
      && o.interaction == [MouseMoved]
  {
    var dragged := v.ist.draggedNodes;
    var heap := v.store.heap;
    var last := dragged[|dragged| - 1];
    var delta := Point(pos.x - heap[last].x, pos.y - heap[last].y);
    var shifted := ShiftNodes(heap, dragged, delta, true);
    assert GraphMove(v, pos, e).heap == shifted;
    assert GraphMove(v, pos, e).interaction == [MouseMoved];
    forall n | n in heap
      ensures n in dragged ==>
        shifted[n] == heap[n].(x := heap[n].x + delta.x, y := heap[n].y + delta.y, fixed := true)
      ensures n !in dragged ==> shifted[n] == heap[n]
    {
      ShiftDistinct(heap, dragged, delta, true, n);
    }
    assert last in dragged;
  }

  /**
   * Hover debounce: a popup is scheduled only for a target other than the
   * popup's current item, and it is always the target now highlighted;
   * with nothing under the pointer the highlight is dropped and the
   * pending popup cancelled.
   */
  lemma HoverSchedulesNewTargets(v: View, pos: Point, e: MouseEvent)
    requires ViewValid(v) && v.screen.boundingRect.Some?
    requires !(v.ist.action == Drag && |v.ist.draggedNodes| > 0) && v.ist.action != Panning
    ensures var o := GraphMove(v, pos, e);
      && o.rollover.RolloverSet?
      && (o.hover.HoverScheduled? ==> o.rollover.item == Some(o.hover.item) && Some(o.hover.item) != v.hoverItem)
      && (o.hover == HoverKept ==> o.rollover.item == v.hoverItem)
      && (o.rollover.item.None? <==> !NodeHit(v, pos) && !EdgeHit(v, pos))
      && (o.rollover.item.None? <==> o.hover == HoverCancelled)
      && (NodeHit(v, pos) ==> o.rollover.item.value.NodeItem?)
      && o.heap == v.store.heap && o.panScale == [] && o.interaction == []
  {
  }

  /** Pointer-leave: autopan stopped and drag released. */
  function GraphLeave(v: View): (o: Outcome)
    ensures o.panScale == [FramePan(None)] && o.interaction == [ReleaseDrag]
    ensures o.callbacks == [] && o.heap == v.store.heap && o.shapes == v.shapes
  {
    Quiet(v).(panScale := [FramePan(None)], interaction := [ReleaseDrag])
  }

  /**
   * Double click: report the node, else the edge, under the pointer;
   * on the background, animate towards the wheel zoom of one 150-unit step
   * in, anchored at the pointer.
   */
  function GraphDblClick(v: View, pos: Point, e: MouseEvent): (o: Outcome)
    requires ViewValid(v) && v.screen.boundingRect.Some? && BoundsPadded(v)
    ensures o.heap == v.store.heap && o.shapes == v.shapes && o.interaction == []
    ensures o.rollover == RolloverKept && o.hover == HoverKept
  {
    match NodeAt(v, pos)
    case Some(n) => Quiet(v).(callbacks := Fire(v, NodeDblClick(n)))
    case None =>
      match EdgeAt(v, pos)
      case Some(ed) => Quiet(v).(callbacks := Fire(v, EdgeDblClick(ed)))
      case None =>
        var ps := PanScaleFromMouseWheel(Pointer(e, DblClickDeltaY), v.ps, v.screen, v.bounds, v.opts.nodeSize);
        Quiet(v).(panScale := [SetDestination(ps.pan, ps.scale)])
  }

  /**
   * A double click on the background zooms in by 0.3 within the clamp and
   * keeps the world point under the pointer where it is.
   */
  lemma DblClickZoomsAtPointer(v: View, pos: Point, e: MouseEvent)
    requires ViewValid(v) && v.screen.boundingRect.Some? && BoundsPadded(v)
    requires !NodeHit(v, pos) && !EdgeHit(v, pos)
    ensures var o := GraphDblClick(v, pos, e);
      var br := v.screen.boundingRect.value;
      var mouse := Point(e.clientX - br.left, e.clientY - br.top);
      var boundScale := BoundsScale(v.screen.height, v.screen.width, v.bounds, v.opts.nodeSize);
      && o.callbacks == [] && |o.panScale| == 1 && o.panScale[0].SetDestination?
      && o.panScale[0].scale == Min(Max(RealMinZoom(boundScale), v.ps.scale + 0.3), MaxZoom)
      && (o.panScale[0].scale != 0.0 ==>
            WorldAt(mouse, o.panScale[0].pan, o.panScale[0].scale) == WorldAt(mouse, v.ps.pan, v.ps.scale))
  {
    WheelZoomKeepsAnchor(Pointer(e, DblClickDeltaY), v.ps, v.screen, v.bounds, v.opts.nodeSize);
  }

  // ---------------------------------------------------------------------
  // processShapeEdit
  // ---------------------------------------------------------------------

  /**
   * `shapes.splice(shapes.indexOf(s), 1); shapes.push(s)`: the first
   * occurrence of `s` is taken out and appended.
   */
  function BringToFront(shapes: seq<Shape>, s: Shape): (r: seq<Shape>)
    requires s in shapes
    ensures |r| == |shapes| && r[|r| - 1] == s
  {
    var i := HitTest.FirstIndex(shapes, (t: Shape) => t == s).value;
    shapes[..i] + shapes[i + 1..] + [s]
  }

  /** Bringing a shape to the front permutes the list and keeps the others in their order. */
  lemma BringToFrontPermutes(shapes: seq<Shape>, s: Shape)
    requires s in shapes
    ensures var r := BringToFront(shapes, s);
      && multiset(r) == multiset(shapes)
      && exists i :: 0 <= i < |shapes| && shapes[i] == s && r[..|r| - 1] == shapes[..i] + shapes[i + 1..]
  {
    var i := HitTest.FirstIndex(shapes, (t: Shape) => t == s).value;
    assert shapes == shapes[..i] + [shapes[i]] + shapes[i + 1..];
    var r := BringToFront(shapes, s);
    assert r[..|r| - 1] == shapes[..i] + shapes[i + 1..];
  }

  /**
   * Every entry that is the edited shape object (the same `ref`, as the
   * source mutates that object in place) takes its new state; entries of
   * other objects are untouched, and when the new state keeps the identity
   * the list still holds the same objects in the same order.
   */
  function Replace(shapes: seq<Shape>, before: Shape, after: Shape): (r: seq<Shape>)
    ensures |r| == |shapes|
    ensures forall i :: 0 <= i < |r| && shapes[i].ref != before.ref ==> r[i] == shapes[i]
    ensures forall i :: 0 <= i < |r| && shapes[i].ref == before.ref ==> r[i] == after
    ensures after.ref == before.ref ==> forall i :: 0 <= i < |r| ==> r[i].ref == shapes[i].ref
  {
    seq(|shapes|, i requires 0 <= i < |shapes| => if shapes[i].ref == before.ref then after else shapes[i])
  }

  /**
   * Pointer-down on shapes: a handle of the selected shape starts a resize;
   * otherwise the topmost shape hit is reported, brought to the front and
   * selected; otherwise the background is reported and panning starts.
   */
  function ShapeEditDown(v: View, pos: Point): (o: Outcome)
    requires v.ps.scale != 0.0
    ensures o.heap == v.store.heap && o.panScale == [] && |o.interaction| == 1
    ensures o.rollover == RolloverKept && o.hover == HoverKept
  {
    var handle := if v.ist.shape.Some? then HandleAtPos(v.ist.shape.value, pos, v.ps.scale) else None;
    if handle.Some? then Quiet(v).(interaction := [HandleDown(handle.value)])
    else
      match ShapeAtPos(v.shapes, pos)
      case Some(i) =>
        var s := v.shapes[i];
        Quiet(v).(callbacks := Fire(v, ShapeClick(s)), shapes := BringToFront(v.shapes, s), interaction := [ShapeDown(s)])
      case None => Quiet(v).(callbacks := Fire(v, BackgroundClick), interaction := [StartPan])
  }

  /**
   * Shape pointer-down precedence: a handle of the selected shape beats a
   * shape, which beats the background; the shape chosen is the topmost
   * one hit and ends up last in the list, which is otherwise permuted only.
   */
  lemma ShapeDownPrecedence(v: View, pos: Point)
    requires v.ps.scale != 0.0
    ensures var o := ShapeEditDown(v, pos);
      var onHandle := v.ist.shape.Some? && HandleAtPos(v.ist.shape.value, pos, v.ps.scale).Some?;
      var onShape := exists i :: 0 <= i < |v.shapes| && CheckShapeClick(v.shapes[i], pos);
      && (o.interaction[0].HandleDown? <==> onHandle)
      && (o.interaction[0].ShapeDown? <==> !onHandle && onShape)
      && (o.interaction[0] == StartPan <==> !onHandle && !onShape)
      && (o.interaction[0].ShapeDown? ==>
            && CheckShapeClick(o.interaction[0].shape, pos)
            && o.shapes[|o.shapes| - 1] == o.interaction[0].shape
            && multiset(o.shapes) == multiset(v.shapes))
      && (!o.interaction[0].ShapeDown? ==> o.shapes == v.shapes)
  {
    var o := ShapeEditDown(v, pos);
    if o.interaction[0].ShapeDown? {
      BringToFrontPermutes(v.shapes, o.interaction[0].shape);
    }
  }

  /** Pointer-up on shapes: the whole list is reported when a selected shape was moved; then edit ends. */
  function ShapeEditUp(v: View): (o: Outcome)
    ensures o.interaction == [ShapeUp] && o.panScale == [FramePan(None)]
    ensures o.callbacks != [] <==> v.opts.onMouse && v.ist.shape.Some? && v.ist.mouseMoved
    ensures o.callbacks != [] ==> o.callbacks == [ShapeUpdate(v.shapes)]
    ensures o.heap == v.store.heap && o.shapes == v.shapes
  {
    var cb := if v.ist.shape.Some? && v.ist.mouseMoved then Fire(v, ShapeUpdate(v.shapes)) else [];
    Quiet(v).(callbacks := cb, interaction := [ShapeUp], panScale := [FramePan(None)])
  }

  /**
   * Pointer-move on shapes: panning moves the pan; dragging an editable
   * shape moves its origin by the pointer movement over the scale;
   * dragging a handle of an editable shape resizes it with
   * setShapeByHandleDrag. The edited object is changed where it is listed.
   */
  function ShapeEditMove(v: View, e: MouseEvent, ctrlClick: bool): (o: Outcome)
    requires v.ps.scale != 0.0 && ShapeActionHasShape(v.ist)
    ensures o.heap == v.store.heap && o.callbacks == []
    ensures o.rollover == RolloverKept && o.hover == HoverKept
  {
    var ist := v.ist;
    if ist.action == Panning then
      Quiet(v).(panScale := [SetPan(Point(v.ps.pan.x + e.movementX, v.ps.pan.y + e.movementY))])
    else if ist.action == ShapeDrag && !ist.shape.value.noEdit then
      var s := ist.shape.value;
      var moved := s.(x := JsAdd(s.x, e.movementX / v.ps.scale), y := JsAdd(s.y, e.movementY / v.ps.scale));
      Quiet(v).(shapes := Replace(v.shapes, s, moved), interaction := [ShapeMoved(moved)])
    else if ist.action == HandleDrag && !ist.shape.value.noEdit then
      var s := ist.shape.value;
      var c := SetShapeByHandleDrag(s, ist.shapeHandle, Point(e.movementX / v.ps.scale, e.movementY / v.ps.scale), ctrlClick);
      var resized := s.(x := c.x, y := c.y, width := c.width, height := c.height);
      Quiet(v).(shapes := Replace(v.shapes, s, resized), interaction := [HandleMoved(resized)])
    else
      Quiet(v)
  }

  /**
   * Dragging a shape moves it on screen by exactly the pointer movement,
   * changes nothing else about it, and changes no other shape; a shape
   * marked noEdit does not move.
   */
  lemma ShapeDragFollowsPointer(v: View, e: MouseEvent, ctrlClick: bool)
    requires v.ps.scale != 0.0 && v.ist.action == ShapeDrag && v.ist.shape.Some?
    ensures var o := ShapeEditMove(v, e, ctrlClick); var s := v.ist.shape.value;
      && (s.noEdit ==> o == Quiet(v))
      && (!s.noEdit ==>
            && o.interaction[0].ShapeMoved?
            && var m := o.interaction[0].shape;
            && m.(x := s.x, y := s.y) == s
            && (s.x.Num? ==> m.x.Num? && m.x.v * v.ps.scale == s.x.v * v.ps.scale + e.movementX)
            && (s.y.Num? ==> m.y.Num? && m.y.v * v.ps.scale == s.y.v * v.ps.scale + e.movementY)
            && (forall i :: 0 <= i < |v.shapes| && v.shapes[i].ref != s.ref ==> o.shapes[i] == v.shapes[i])
            && (forall i :: 0 <= i < |v.shapes| && v.shapes[i].ref == s.ref ==> o.shapes[i] == m))
  {
    var s := v.ist.shape.value;
    if !s.noEdit {
      DivMul(e.movementX, v.ps.scale);
      DivMul(e.movementY, v.ps.scale);
    }
  }

  /**
   * Resizing through a handle applies setShapeByHandleDrag to the pointer
   * movement in world units: the resized shape keeps every other field, is
   * at least 10 by 10 when it had both extents, and is square with ctrl.
   */
  lemma HandleDragResizes(v: View, e: MouseEvent, ctrlClick: bool)
    requires v.ps.scale != 0.0 && v.ist.action == HandleDrag && v.ist.shape.Some? && !v.ist.shape.value.noEdit
    ensures var o := ShapeEditMove(v, e, ctrlClick); var s := v.ist.shape.value;
      && o.interaction[0].HandleMoved?
      && var m := o.interaction[0].shape;
      && m == SetShapeByHandleDrag(s, v.ist.shapeHandle, Point(e.movementX / v.ps.scale, e.movementY / v.ps.scale), ctrlClick)
      && (ExtentX(s).Num? && ExtentY(s).Num? ==>
            m.width.Num? && m.height.Num? && m.width.v >= MinShapeSize && m.height.v >= MinShapeSize)
      && (ctrlClick ==> m.width == m.height)
      && (forall i :: 0 <= i < |v.shapes| ==> o.shapes[i] == (if v.shapes[i].ref == s.ref then m else v.shapes[i]))
  {
  }

  /**
   * For a shape whose width and height are both given and non-zero, the
   * handle drag resizes it exactly as the source's setShapeByHandleDrag
   * does; the two differ only for shapes sized by `size` alone.
   */
  lemma HandleDragAgreesWithExplicitSides(v: View, e: MouseEvent, ctrlClick: bool)
    requires v.ps.scale != 0.0 && v.ist.action == HandleDrag && v.ist.shape.Some? && !v.ist.shape.value.noEdit
    requires Truthy(v.ist.shape.value.width) && Truthy(v.ist.shape.value.height)
    ensures var o := ShapeEditMove(v, e, ctrlClick); var s := v.ist.shape.value;
      && o.interaction[0].HandleMoved?
      && o.interaction[0].shape
         == SetShapeByHandleDragAsWritten(s, v.ist.shapeHandle, Point(e.movementX / v.ps.scale, e.movementY / v.ps.scale), ctrlClick)
  {
    var s := v.ist.shape.value;
    DragAgreesWithExplicitSides(s, v.ist.shapeHandle, Point(e.movementX / v.ps.scale, e.movementY / v.ps.scale), ctrlClick);
    HandleDragResizes(v, e, ctrlClick);
  }

  /** processShapeEdit: down, up and move; leave and double click do nothing. */
  function ProcessShapeEdit(v: View, pos: Point, e: MouseEvent, ctrlClick: bool): (o: Outcome)
    requires v.ps.scale != 0.0 && ShapeActionHasShape(v.ist)
    ensures o.heap == v.store.heap
    ensures Phase(e.kind) !in {"down", "up", "move"} ==> o == Quiet(v)
  {
    match Phase(e.kind)
    case "down" => ShapeEditDown(v, pos)
    case "up" => ShapeEditUp(v)
    case "move" => ShapeEditMove(v, e, ctrlClick)
    case _ => Quiet(v)
  }

  // ---------------------------------------------------------------------
  // processMouseAction and handleMouse
  // ---------------------------------------------------------------------

  /**
   * processMouseAction: with graph interaction enabled the graph handlers
   * run and shape editing never does; otherwise shape editing runs when
   * enabled; otherwise nothing happens.
   */
  function ProcessMouseAction(v: View, pos: Point, e: MouseEvent, ctrlClick: bool): (o: Outcome)
    requires ViewValid(v) && v.screen.boundingRect.Some? && ShapeActionHasShape(v.ist)
    requires v.opts.allowGraphInteraction && Phase(e.kind) == "dblclick" ==> BoundsPadded(v)
    ensures v.opts.allowGraphInteraction ==> o.shapes == v.shapes
    ensures !v.opts.allowGraphInteraction ==> o.heap == v.store.heap
    ensures !v.opts.allowGraphInteraction && !v.opts.allowShapeInteraction ==> o == Quiet(v)
  {
    if v.opts.allowGraphInteraction then
      match Phase(e.kind)
      case "down" => GraphDown(v, pos, ctrlClick)
      case "up" => GraphUp(v)
      case "move" => GraphMove(v, pos, e)
      case "leave" => GraphLeave(v)
      case "dblclick" => GraphDblClick(v, pos, e)
      case _ => Quiet(v)
    else if v.opts.allowShapeInteraction then
      ProcessShapeEdit(v, pos, e, ctrlClick)
    else
      Quiet(v)
  }

  /**
   * handleMouse: nothing without a bounding rectangle (answer false);
   * otherwise the pointer's world position and the ctrl/meta/shift flag go
   * to processMouseAction (answer true).
   */
  function HandleMouse(v: View, e: MouseEvent): (r: (bool, Outcome))
    requires ViewValid(v) && ShapeActionHasShape(v.ist)
    requires v.opts.allowGraphInteraction && Phase(e.kind) == "dblclick" ==> BoundsPadded(v)
    ensures r.0 <==> v.screen.boundingRect.Some?
    ensures !r.0 ==> r.1 == Quiet(v)
  {
    if v.screen.boundingRect.None? then (false, Quiet(v))
    else
      var pos := MousePos(Pointer(e, 0.0), v.screen, v.ps);
      (true, ProcessMouseAction(v, pos, e, e.ctrlKey || e.metaKey || e.shiftKey))
  }

  /**
   * A pointer-down through handleMouse tests the world point that is
   * drawn under the pointer: the position handed on maps back to the
   * pointer's canvas position.
   */
  lemma HandleMouseUsesPointerWorld(v: View, e: MouseEvent)
    requires ViewValid(v) && ShapeActionHasShape(v.ist) && v.screen.boundingRect.Some?
    requires v.opts.allowGraphInteraction && Phase(e.kind) == "down"
    ensures var pos := MousePos(Pointer(e, 0.0), v.screen, v.ps);
      var br := v.screen.boundingRect.value;
      && NodeScreenPos(pos, v.ps) == Point(e.clientX - br.left, e.clientY - br.top)
      && HandleMouse(v, e).1 == GraphDown(v, pos, e.ctrlKey || e.metaKey || e.shiftKey)
  {
  }

  // ---------------------------------------------------------------------
  // Keys, autopan and the frame tick
  // ---------------------------------------------------------------------

  /** The key bindings. */
  const KeyMap: map<string, string> := map[
    "ArrowUp" := "_moveUp",
    "ArrowDown" := "_moveDown",
    "ArrowLeft" := "_moveLeft",
    "ArrowRight" := "_moveRight",
    "[" := "_zoomOut",
    "]" := "_zoomIn",
    "pageup" := "_zoomIn",
    "pagedown" := "_zoomOut",
    "1" := "_1",
    "2" := "_2",
    "3" := "_3",
    "5" := "_0.5"]

  /** getKeyAction: the bound action, or none. */
  function GetKeyAction(key: string): (r: Option<string>)
    ensures r.Some? <==> key in KeyMap
    ensures r.Some? ==> r.value == KeyMap[key] && r.value != ""
  {
    if key in KeyMap then Some(KeyMap[key]) else None
  }

  /** The twelve bound keys. */
  lemma KeyBindings()
    ensures KeyMap.Keys == {"ArrowUp", "ArrowDown", "ArrowLeft", "ArrowRight", "[", "]", "pageup", "pagedown", "1", "2", "3", "5"}
  {
    var keys := {"ArrowUp", "ArrowDown", "ArrowLeft", "ArrowRight", "[", "]", "pageup", "pagedown", "1", "2", "3", "5"};
    forall k | k in KeyMap
      ensures k in keys
    {
    }
    forall k | k in keys
      ensures k in KeyMap
    {
    }
  }

  /** The bracket and page keys zoom; keys outside the bindings give nothing. */
  lemma ZoomKeys()
    ensures GetKeyAction("]") == GetKeyAction("pageup") == Some("_zoomIn")
    ensures GetKeyAction("[") == GetKeyAction("pagedown") == Some("_zoomOut")
    ensures GetKeyAction("") == None && GetKeyAction("Enter") == None
  {
  }

  /** The ten actions the bindings produce. */
  lemma KeyActions()
    ensures KeyMap.Values == {"_moveUp", "_moveDown", "_moveLeft", "_moveRight", "_zoomOut", "_zoomIn", "_1", "_2", "_3", "_0.5"}
  {
    var acts := {"_moveUp", "_moveDown", "_moveLeft", "_moveRight", "_zoomOut", "_zoomIn", "_1", "_2", "_3", "_0.5"};
    forall v | v in KeyMap.Values
      ensures v in acts
    {
      var k :| k in KeyMap && KeyMap[k] == v;
    }
    assert KeyMap["ArrowUp"] == "_moveUp" && KeyMap["ArrowDown"] == "_moveDown";
    assert KeyMap["ArrowLeft"] == "_moveLeft" && KeyMap["ArrowRight"] == "_moveRight";
    assert KeyMap["["] == "_zoomOut" && KeyMap["]"] == "_zoomIn";
    assert KeyMap["1"] == "_1" && KeyMap["2"] == "_2" && KeyMap["3"] == "_3" && KeyMap["5"] == "_0.5";
  }

  datatype KeyEvent = KeyEvent(kind: string, key: string, defaultPrevented: bool)

  /**
   * handleKey: an event already handled elsewhere is ignored (answer
   * false); otherwise the held key action becomes the key's binding on
   * keydown and nothing on any other key event (answer true).
   */
  function HandleKey(ev: KeyEvent, held: Option<string>): (r: (bool, Option<string>))
    ensures r.0 <==> !ev.defaultPrevented
    ensures !r.0 ==> r.1 == held
    ensures r.0 && ev.kind != "keydown" ==> r.1 == None
    ensures r.0 && ev.kind == "keydown" ==> r.1 == GetKeyAction(ev.key)
  {
    if ev.defaultPrevented then (false, held)
    else (true, if ev.kind == "keydown" then GetKeyAction(ev.key) else None)
  }

  /**
   * edgePan: the pan moves by the per-frame autopan vector times the scale
   * and every dragged node object moves back by the vector itself.
   */
  function EdgePan(ps: PanScaleState, dragged: seq<N.Oid>, heap: N.Heap): (r: (Point, N.Heap))
    requires ps.panPerFrame.Some?
    requires forall i :: 0 <= i < |dragged| ==> dragged[i] in heap
    ensures r.1.Keys == heap.Keys
  {
    var ppf := ps.panPerFrame.value;
    (Point(ps.pan.x + ppf.x * ps.scale, ps.pan.y + ppf.y * ps.scale),
     ShiftNodes(heap, dragged, Point(-ppf.x, -ppf.y), false))
  }

  /**
   * The autopan counter-shift: every dragged node keeps its screen
   * position under the new pan, keeps its fixed flag, and nodes that are
   * not dragged do not move.
   */
  lemma EdgePanKeepsDraggedOnScreen(ps: PanScaleState, dragged: seq<N.Oid>, heap: N.Heap, o: N.Oid)
    requires ps.panPerFrame.Some?
    requires forall i :: 0 <= i < |dragged| ==> dragged[i] in heap
    requires Distinct(dragged) && o in heap
    ensures var r := EdgePan(ps, dragged, heap);
      && (o in dragged ==>
            && NodeScreenPos(Point(r.1[o].x, r.1[o].y), ps.(pan := r.0)) == NodeScreenPos(Point(heap[o].x, heap[o].y), ps)
            && r.1[o].fixed == heap[o].fixed)
      && (o !in dragged ==> r.1[o] == heap[o])
  {
    var ppf := ps.panPerFrame.value;
    var r := EdgePan(ps, dragged, heap);
    ShiftDistinct(heap, dragged, Point(-ppf.x, -ppf.y), false, o);
    if o in dragged {
      var m := r.1[o];
      assert m.x == heap[o].x + -ppf.x && m.y == heap[o].y + -ppf.y;
      assert r.0 == Point(ps.pan.x + ppf.x * ps.scale, ps.pan.y + ppf.y * ps.scale);
      PanCompensates(heap[o].x, ppf.x, ps.scale, ps.pan.x);
      PanCompensates(heap[o].y, ppf.y, ps.scale, ps.pan.y);
    }
  }

  /** Moving a coordinate back by `d` while the pan moves by `d` times the scale keeps its screen position. */
  lemma PanCompensates(x: real, d: real, k: real, pan: real)
    ensures (x + -d) * k + (pan + d * k) == x * k + pan
  {
    assert (x + -d) * k == x * k - d * k;
  }

  /**
   * tickHandler: the held key action is dispatched, the camera animation
   * stepped while a destination scale is set, and edgePan applied while an
   * autopan vector is set, in that order.
   */
  function TickHandler(held: Option<string>, ps: PanScaleState, dragged: seq<N.Oid>, heap: N.Heap)
    : (r: (seq<PanScaleEvent>, N.Heap))
    requires forall i :: 0 <= i < |dragged| ==> dragged[i] in heap
    ensures r.1.Keys == heap.Keys
    ensures ps.panPerFrame.None? ==> r.1 == heap
    ensures |r.0| <= 3
  {
    var key := if held.Some? && held.value != "" then [KeyAction(held.value)] else [];
    var animate := if ps.destinationScale.Some? && ps.destinationScale.value != 0.0 then [ZoomPanimate] else [];
    if ps.panPerFrame.Some? then
      var p := EdgePan(ps, dragged, heap);
      (key + animate + [SetPan(p.0)], p.1)
    else
      (key + animate, heap)
  }

  /**
   * A bound key held down repeats its action on every tick, first; once
   * any other key event arrives, no key action is dispatched.
   */
  lemma HeldKeyRepeats(key: string, ps: PanScaleState, dragged: seq<N.Oid>, heap: N.Heap)
    requires forall i :: 0 <= i < |dragged| ==> dragged[i] in heap
    requires key in KeyMap
    ensures var held := HandleKey(KeyEvent("keydown", key, false), None).1;
      TickHandler(held, ps, dragged, heap).0[0] == KeyAction(KeyMap[key])
    ensures forall prev: Option<string> ::
      var held := HandleKey(KeyEvent("keyup", key, false), prev).1;
      forall i :: 0 <= i < |TickHandler(held, ps, dragged, heap).0| ==> !TickHandler(held, ps, dragged, heap).0[i].KeyAction?
  {
  }
}

=== FILE: js_values.dfy ===
/**
 * JavaScript value conventions used throughout the viewer.
 *
 * - `Option<T>` stands for an optional property (`undefined` is `None`).
 * - `OrElse(a, b)` is the `a || b` idiom on optional numbers: `0` and a
 *   missing value both fall through to `b`.
 * - `JsNum` is a number-typed property that may also be `undefined`, or
 *   that may have become `NaN` through arithmetic on `undefined`; it is used
 *   where the source really computes with such values (background shapes).
 */
module JsValues {

  datatype Option<+T> = None | Some(value: T) {
    function GetOr(default: T): T {
      match this
      case Some(v) => v
      case None => default
    }
  }

  /** `a || b` on an optional number: a present, non-zero `a` wins. */
  function OrElse(a: Option<real>, b: Option<real>): (r: Option<real>)
    ensures r == a || r == b
    ensures a.Some? && a.value != 0.0 ==> r == a
    ensures (a.None? || a.value == 0.0) ==> r == b
  {
    if a.Some? && a.value != 0.0 then a else b
  }

  /** `a || d` with a numeric default `d`. */
  function OrDefault(a: Option<real>, d: real): (r: real)
    ensures a.Some? && a.value != 0.0 ==> r == a.value
    ensures (a.None? || a.value == 0.0) ==> r == d
  {
    if a.Some? && a.value != 0.0 then a.value else d
  }

  /**
   * The first present, non-zero candidate, else `d`: the chain
   * `c0 || c1 || ... || d`, as an independent reference for nested OrElse.
   */
  function FirstTruthy(cands: seq<Option<real>>, d: real): (r: real)
    ensures d != 0.0 ==> r != 0.0
    ensures r == d || exists i :: 0 <= i < |cands| && cands[i] == Some(r)
  {
    if cands == [] then d
    else if cands[0].Some? && cands[0].value != 0.0 then cands[0].value
    else
      var r := FirstTruthy(cands[1..], d);
      assert r != d ==> exists i :: 1 <= i < |cands| && cands[i] == Some(r) by {
        if r != d {
          var j :| 0 <= j < |cands[1..]| && cands[1..][j] == Some(r);
          assert cands[j + 1] == Some(r);
        }
      }
      r
  }

  /** A JavaScript number-typed property: missing, NaN, or a real number. */
  datatype JsNum = Undef | NaN | Num(v: real)

  /** JavaScript truthiness of a number-typed value. */
  predicate Truthy(a: JsNum) {
    a.Num? && a.v != 0.0
  }

  /** `a || b` on number-typed values. */
  function JsOr(a: JsNum, b: JsNum): (r: JsNum)
    ensures Truthy(a) ==> r == a
    ensures !Truthy(a) ==> r == b
  {
    if Truthy(a) then a else b
  }

  /** `a + d`: `undefined + d` and `NaN + d` are both `NaN`. */
  function JsAdd(a: JsNum, d: real): (r: JsNum)
    ensures r.Num? <==> a.Num?
    ensures a.Num? ==> r.v == a.v + d
  {
    if a.Num? then Num(a.v + d) else NaN
  }

  /** `a + b` on two number-typed values. */
  function JsAddNum(a: JsNum, b: JsNum): (r: JsNum)
    ensures r.Num? <==> a.Num? && b.Num?
    ensures r.Num? ==> r.v == a.v + b.v
  {
    if a.Num? && b.Num? then Num(a.v + b.v) else NaN
  }

  /** `a - b` on two number-typed values. */
  function JsSubNum(a: JsNum, b: JsNum): (r: JsNum)
    ensures r.Num? <==> a.Num? && b.Num?
    ensures r.Num? ==> r.v == a.v - b.v
  {
    if a.Num? && b.Num? then Num(a.v - b.v) else NaN
  }

  /** `a * k` for a number `k`. */
  function JsScale(a: JsNum, k: real): (r: JsNum)
    ensures r.Num? <==> a.Num?
    ensures r.Num? ==> r.v == a.v * k
  {
    if a.Num? then Num(a.v * k) else NaN
  }

  /** `Math.max(a, b)`: any argument that is not a number yields `NaN`. */
  function JsMax(a: JsNum, b: JsNum): (r: JsNum)
    ensures r.Num? <==> a.Num? && b.Num?
    ensures r.Num? ==> r.v >= a.v && r.v >= b.v && (r.v == a.v || r.v == b.v)
  {
    if a.Num? && b.Num? then Num(if a.v >= b.v then a.v else b.v) else NaN
  }

  /** `Math.min(a, b)`: any argument that is not a number yields `NaN`. */
  function JsMin(a: JsNum, b: JsNum): (r: JsNum)
    ensures r.Num? <==> a.Num? && b.Num?
    ensures r.Num? ==> r.v <= a.v && r.v <= b.v && (r.v == a.v || r.v == b.v)
  {
    if a.Num? && b.Num? then Num(if a.v <= b.v then a.v else b.v) else NaN
  }

  /** `p < a` where `p` is a number: false whenever `a` is not a number. */
  predicate JsLess(p: real, a: JsNum) {
    a.Num? && p < a.v
  }

  /** `p > a` where `p` is a number: false whenever `a` is not a number. */
  predicate JsGreater(p: real, a: JsNum) {
    a.Num? && p > a.v
  }

  function Max(a: real, b: real): (r: real)
    ensures r >= a && r >= b && (r == a || r == b)
  {
    if a >= b then a else b
  }

  function Min(a: real, b: real): (r: real)
    ensures r <= a && r <= b && (r == a || r == b)
  {
    if a <= b then a else b
  }

  function Abs(a: real): (r: real)
    ensures r >= 0.0 && (r == a || r == -a)
  {
    if a >= 0.0 then a else -a
  }
}

=== FILE: layout_utils.dfy ===
/**
 * The helpers shared by the layouts: the sort comparators, the
 * parent/child marks an edge leaves on its ends, subtree widths, the
 * bounding box of layout coordinates, the scaling of coordinates to the
 * screen, and the assignment of computed coordinates to nodes.
 */
module LayoutUtils {
  import opened JsValues
  import opened Camera
  import N = Nodes

  /**
   * A node as the layouts see it: the optional coordinates, the easing
   * destination, the parent/child marks, the mass, the subtree width and
   * the layout order of its tree parent (`parent?.order`, missing without a
   * parent).
   */
  datatype LayoutNode = LayoutNode(
    x: Option<real>,
    y: Option<real>,
    destination: Option<Point>,
    isParent: bool,
    isChild: bool,
    mass: JsNum,
    width: JsNum,
    parentOrder: Option<JsNum>)

  // ---------------------------------------------------------------------
  // Comparators (a negative result sorts `a` first)
  // ---------------------------------------------------------------------

  /** A comparator result that sorts its first argument first; NaN counts as "equal". */
  predicate Before(c: JsNum) {
    c.Num? && c.v < 0.0
  }

  /** `mass || 0`. */
  function MassOrZero(a: LayoutNode): real {
    if Truthy(a.mass) then a.mass.v else 0.0
  }

  /** compareByMass: `(b.mass || 0) - (a.mass || 0)`. */
  function CompareByMass(a: LayoutNode, b: LayoutNode): (c: real) {
    MassOrZero(b) - MassOrZero(a)
  }

  /** compareByMass sorts by descending mass, a missing mass counting as 0, and is antisymmetric. */
  lemma CompareByMassDescending(a: LayoutNode, b: LayoutNode)
    ensures CompareByMass(a, b) < 0.0 <==> MassOrZero(a) > MassOrZero(b)
    ensures CompareByMass(a, b) == 0.0 <==> MassOrZero(a) == MassOrZero(b)
    ensures CompareByMass(a, b) == -CompareByMass(b, a)
    ensures a.mass.Undef? ==> CompareByMass(a, b) == MassOrZero(b)
  {
  }

  /** A parent that is not itself a child: the root of a tree. */
  predicate PureParent(a: LayoutNode) {
    a.isParent && !a.isChild
  }

  /** compareByParentChild: `bVal - aVal || b.mass - a.mass`, where the value is 1 for a pure parent. */
  function CompareByParentChild(a: LayoutNode, b: LayoutNode): (c: JsNum) {
    var aVal := if PureParent(a) then 1.0 else 0.0;
    var bVal := if PureParent(b) then 1.0 else 0.0;
    JsOr(Num(bVal - aVal), JsSubNum(b.mass, a.mass))
  }

  /**
   * compareByParentChild puts pure parents first and otherwise sorts by
   * descending mass (when both masses are numbers); it is antisymmetric.
   */
  lemma ParentChildOrder(a: LayoutNode, b: LayoutNode)
    requires a.mass.Num? && b.mass.Num?
    ensures Before(CompareByParentChild(a, b)) <==>
      (PureParent(a) && !PureParent(b)) || (PureParent(a) == PureParent(b) && a.mass.v > b.mass.v)
    ensures CompareByParentChild(a, b).Num? && CompareByParentChild(b, a).Num?
    ensures CompareByParentChild(a, b).v == -CompareByParentChild(b, a).v
  {
  }

  /** `a?.parent?.order || 0`. */
  function OrderOf(a: LayoutNode): real {
    match a.parentOrder
    case Some(o) => if Truthy(o) then o.v else 0.0
    case None => 0.0
  }

  /** compareByOrder: `aVal - bVal || b.width - a.width || b.mass - a.mass`. */
  function CompareByOrder(a: LayoutNode, b: LayoutNode): (c: JsNum) {
    JsOr(Num(OrderOf(a) - OrderOf(b)), JsOr(JsSubNum(b.width, a.width), JsSubNum(b.mass, a.mass)))
  }

  /**
   * compareByOrder is the lexicographic order on ascending parent order,
   * then descending width, then descending mass (when widths and masses are
   * numbers), and it is antisymmetric.
   */
  lemma OrderLexicographic(a: LayoutNode, b: LayoutNode)
    requires a.width.Num? && b.width.Num? && a.mass.Num? && b.mass.Num?
    ensures Before(CompareByOrder(a, b)) <==>
      || OrderOf(a) < OrderOf(b)
      || (OrderOf(a) == OrderOf(b) && a.width.v > b.width.v)
      || (OrderOf(a) == OrderOf(b) && a.width.v == b.width.v && a.mass.v > b.mass.v)
    ensures CompareByOrder(a, b).Num? && CompareByOrder(b, a).Num?
    ensures CompareByOrder(a, b).v == -CompareByOrder(b, a).v
  {
  }

  // ---------------------------------------------------------------------
  // assignEdgeParentChild
  // ---------------------------------------------------------------------

  /** assignEdgeParentChild: the edge's end becomes a child and its start a parent. */
  function AssignEdgeParentChild(nodes: map<N.Oid, LayoutNode>, start: N.Oid, end: N.Oid): (r: map<N.Oid, LayoutNode>)
    requires start in nodes && end in nodes
    ensures r.Keys == nodes.Keys
    ensures r[end].isChild && r[start].isParent
  {
    var marked := nodes[end := nodes[end].(isChild := true)];
    marked[start := marked[start].(isParent := true)]
  }

  /**
   * The marks only ever get set: nothing else changes, the end of an edge
   * is never again a pure parent, and marking twice is marking once.
   */
  lemma AssignEdgeParentChildEffect(nodes: map<N.Oid, LayoutNode>, start: N.Oid, end: N.Oid)
    requires start in nodes && end in nodes
    ensures var r := AssignEdgeParentChild(nodes, start, end);
      && !PureParent(r[end])
      && (forall o :: o in nodes && o != start && o != end ==> r[o] == nodes[o])
      && (forall o :: o in nodes ==>
            r[o] == nodes[o].(isParent := nodes[o].isParent || o == start, isChild := nodes[o].isChild || o == end))
      && AssignEdgeParentChild(r, start, end) == r
  {
  }

  // ---------------------------------------------------------------------
  // getWidth
  // ---------------------------------------------------------------------

  /** A layout tree: the stored width and the children. */
  datatype Tree = Tree(width: JsNum, children: seq<Tree>)

  /** The left-to-right sum `reduce((acc, w) => acc + w, 0)`. */
  function Sum(ws: seq<real>): real
    decreases |ws|
  {
    if ws == [] then 0.0 else Sum(ws[..|ws| - 1]) + ws[|ws| - 1]
  }

  /** The width getWidth computes: at least 1, and the sum of the children's widths. */
  function Width(t: Tree): (w: real)
    ensures w >= 1.0
    decreases t
  {
    Max(1.0, Sum(ChildWidths(t)))
  }

  function ChildWidths(t: Tree): (ws: seq<real>)
    ensures |ws| == |t.children|
    decreases t, 0
  {
    seq(|t.children|, i requires 0 <= i < |t.children| => Width(t.children[i]))
  }

  /** getWidth's side effect: every node of the tree gets its width stored. */
  function Annotate(t: Tree): (r: Tree)
    ensures r.width == Num(Width(t)) && |r.children| == |t.children|
    decreases t
  {
    Tree(Num(Width(t)), seq(|t.children|, i requires 0 <= i < |t.children| => Annotate(t.children[i])))
  }

  /** getWidth: a missing node answers 1 and changes nothing; otherwise the width, with the tree annotated. */
  function GetWidth(t: Option<Tree>): (r: (real, Option<Tree>))
    ensures r.0 >= 1.0
    ensures t.None? ==> r == (1.0, None)
    ensures t.Some? ==> r.1.Some? && r.1.value.width == Num(r.0)
  {
    match t
    case None => (1.0, None)
    case Some(tree) => (Width(tree), Some(Annotate(tree)))
  }

  /** The stored widths of the children, reading a missing width as 0. */
  function StoredWidths(t: Tree): (ws: seq<real>)
    ensures |ws| == |t.children|
  {
    seq(|t.children|, i requires 0 <= i < |t.children| => if t.children[i].width.Num? then t.children[i].width.v else 0.0)
  }

  /** Every stored width is at least 1 and is the larger of 1 and the sum of the children's stored widths. */
  ghost predicate WidthsConsistent(t: Tree)
    decreases t
  {
    && t.width.Num? && t.width.v >= 1.0
    && t.width.v == Max(1.0, Sum(StoredWidths(t)))
    && forall i :: 0 <= i < |t.children| ==> WidthsConsistent(t.children[i])
  }

  /** After getWidth the stored widths of the whole tree are consistent. */
  lemma {:induction false} AnnotateConsistent(t: Tree)
    ensures WidthsConsistent(Annotate(t))
    decreases t
  {
    var r := Annotate(t);
    forall i | 0 <= i < |t.children|
      ensures WidthsConsistent(r.children[i])
    {
      AnnotateConsistent(t.children[i]);
    }
    assert StoredWidths(r) == ChildWidths(t);
  }

  /** The number of leaves of a tree. */
  function Leaves(t: Tree): (n: nat)
    decreases t
  {
    if t.children == [] then 1
    else SumNat(seq(|t.children|, i requires 0 <= i < |t.children| => Leaves(t.children[i])))
  }

  function SumNat(ns: seq<nat>): nat
    decreases |ns|
  {
    if ns == [] then 0 else SumNat(ns[..|ns| - 1]) + ns[|ns| - 1]
  }

  /** Summing reals that equal the naturals, term by term. */
  lemma {:induction false} SumOfNats(ws: seq<real>, ns: seq<nat>)
    requires |ws| == |ns| && forall i :: 0 <= i < |ws| ==> ws[i] == ns[i] as real
    ensures Sum(ws) == SumNat(ns) as real
    decreases |ws|
  {
    if ws != [] {
      SumOfNats(ws[..|ws| - 1], ns[..|ns| - 1]);
    }
  }

  /** A non-empty sum of terms that are each at least 1 is at least 1. */
  lemma {:induction false} SumAtLeastOne(ws: seq<real>)
    requires ws != [] && forall i :: 0 <= i < |ws| ==> ws[i] >= 1.0
    ensures Sum(ws) >= 1.0
    decreases |ws|
  {
    if |ws| > 1 {
      SumAtLeastOne(ws[..|ws| - 1]);
    }
  }

  /** The width of a subtree is the number of its leaves: a leaf has width 1, and the `max` never binds above it. */
  lemma {:induction false} WidthCountsLeaves(t: Tree)
    ensures Width(t) == Leaves(t) as real
    decreases t
  {
    var ws := ChildWidths(t);
    if t.children != [] {
      var ls := seq(|t.children|, i requires 0 <= i < |t.children| => Leaves(t.children[i]));
      forall i | 0 <= i < |ws|
        ensures ws[i] == ls[i] as real
      {
        WidthCountsLeaves(t.children[i]);
      }
      SumOfNats(ws, ls);
      SumAtLeastOne(ws);
    }
  }

  // ---------------------------------------------------------------------
  // getBounds / getNodeBounds
  // ---------------------------------------------------------------------

  /**
   * getBounds: min and max of the coordinates, starting from the origin,
   * so the box always contains (0, 0); LayoutBoundsContains shows it
   * contains every point.
   */
  function LayoutBounds(ps: seq<Point>): (b: Bounds)
    ensures b.width == b.maxX - b.minX && b.height == b.maxY - b.minY
    ensures b.minX <= 0.0 <= b.maxX && b.minY <= 0.0 <= b.maxY
    decreases |ps|
  {
    if ps == [] then Bounds(0.0, 0.0, 0.0, 0.0, 0.0, 0.0)
    else
      var b := LayoutBounds(ps[..|ps| - 1]);
      var p := ps[|ps| - 1];
      var minX := Min(b.minX, p.x);
      var minY := Min(b.minY, p.y);
      var maxX := Max(b.maxX, p.x);
      var maxY := Max(b.maxY, p.y);
      Bounds(minX, minY, maxX, maxY, maxX - minX, maxY - minY)
  }

  /** The box contains every point. */
  lemma {:induction false} LayoutBoundsContains(ps: seq<Point>)
    ensures var b := LayoutBounds(ps);
      forall i :: 0 <= i < |ps| ==> b.minX <= ps[i].x <= b.maxX && b.minY <= ps[i].y <= b.maxY
    decreases |ps|
  {
    if ps != [] {
      var init := ps[..|ps| - 1];
      LayoutBoundsContains(init);
      assert forall i :: 0 <= i < |init| ==> init[i] == ps[i];
    }
  }

  /** The box is the smallest such: each side is the origin's or some point's coordinate. */
  lemma {:induction false} LayoutBoundsTight(ps: seq<Point>)
    ensures var b := LayoutBounds(ps);
      && (b.minX == 0.0 || exists i :: 0 <= i < |ps| && ps[i].x == b.minX)
      && (b.maxX == 0.0 || exists i :: 0 <= i < |ps| && ps[i].x == b.maxX)
      && (b.minY == 0.0 || exists i :: 0 <= i < |ps| && ps[i].y == b.minY)
      && (b.maxY == 0.0 || exists i :: 0 <= i < |ps| && ps[i].y == b.maxY)
    decreases |ps|
  {
    if ps != [] {
      var init := ps[..|ps| - 1];
      LayoutBoundsTight(init);
      assert forall i :: 0 <= i < |init| ==> init[i] == ps[i];
    }
  }

  /** The positions of nodes. */
  function Positions(nodes: seq<N.Node>): (ps: seq<Point>)
    ensures |ps| == |nodes| && forall i :: 0 <= i < |ps| ==> ps[i] == Point(nodes[i].x, nodes[i].y)
  {
    seq(|nodes|, i requires 0 <= i < |nodes| => Point(nodes[i].x, nodes[i].y))
  }

  /** getNodeBounds: the same box over the nodes' positions. */
  function NodeBounds(nodes: seq<N.Node>): (b: Bounds)
    ensures b.minX <= 0.0 <= b.maxX && b.minY <= 0.0 <= b.maxY
    ensures forall i :: 0 <= i < |nodes| ==> b.minX <= nodes[i].x <= b.maxX && b.minY <= nodes[i].y <= b.maxY
    ensures b == LayoutBounds(Positions(nodes))
  {
    var ps := Positions(nodes);
    LayoutBoundsContains(ps);
    assert forall i :: 0 <= i < |nodes| ==> ps[i].x == nodes[i].x && ps[i].y == nodes[i].y;
    LayoutBounds(ps)
  }

  // ---------------------------------------------------------------------
  // scaleCoords / scaleCoordsByScreenSize
  // ---------------------------------------------------------------------

  /** A computed layout coordinate with the rest of its record. */
  datatype Coord = Coord(id: string, x: real, y: real, rank: Option<nat>)

  /** scaleCoords: x and y multiplied by the spacings, every other field kept. */
  function ScaleCoords(xSpacing: real, ySpacing: real, c: Coord): (r: Coord)
    ensures r.(x := c.x, y := c.y) == c
  {
    c.(x := c.x * xSpacing, y := c.y * ySpacing)
  }

  function ScaleAll(xSpacing: real, ySpacing: real, cs: seq<Coord>): (r: seq<Coord>)
    ensures |r| == |cs| && forall i :: 0 <= i < |r| ==> r[i] == ScaleCoords(xSpacing, ySpacing, cs[i])
  {
    seq(|cs|, i requires 0 <= i < |cs| => ScaleCoords(xSpacing, ySpacing, cs[i]))
  }

  function CoordPoints(cs: seq<Coord>): (ps: seq<Point>)
    ensures |ps| == |cs| && forall i :: 0 <= i < |ps| ==> ps[i] == Point(cs[i].x, cs[i].y)
  {
    seq(|cs|, i requires 0 <= i < |cs| => Point(cs[i].x, cs[i].y))
  }

  /** Scaling twice is scaling once by the products; scaling by 1 changes nothing. */
  lemma ScaleCoordsCompose(a: real, b: real, c: real, d: real, k: Coord)
    ensures ScaleCoords(c, d, ScaleCoords(a, b, k)) == ScaleCoords(a * c, b * d, k)
    ensures ScaleCoords(1.0, 1.0, k) == k
  {
  }

  /** A map of one axis that keeps the order of coordinates and the origin. */
  ghost predicate MonotoneFixingZero(f: real -> real) {
    && f(0.0) == 0.0
    && forall a: real, b: real :: a <= b ==> f(a) <= f(b)
  }

  /** Every point moved by `fx` on the x axis and `fy` on the y axis. */
  function MapPoints(ps: seq<Point>, fx: real -> real, fy: real -> real): (qs: seq<Point>)
    ensures |qs| == |ps| && forall i :: 0 <= i < |qs| ==> qs[i] == Point(fx(ps[i].x), fy(ps[i].y))
  {
    seq(|ps|, i requires 0 <= i < |ps| => Point(fx(ps[i].x), fy(ps[i].y)))
  }

  /** A monotone map fixing the origin carries the bounding box of points to the box of the mapped points. */
  lemma {:induction false} MappedBounds(ps: seq<Point>, fx: real -> real, fy: real -> real)
    requires MonotoneFixingZero(fx) && MonotoneFixingZero(fy)
    ensures var b := LayoutBounds(ps);
      var s := LayoutBounds(MapPoints(ps, fx, fy));
      s.minX == fx(b.minX) && s.maxX == fx(b.maxX) && s.minY == fy(b.minY) && s.maxY == fy(b.maxY)
    decreases |ps|
  {
    if ps != [] {
      var init := ps[..|ps| - 1];
      MappedBounds(init, fx, fy);
      assert MapPoints(ps, fx, fy)[..|ps| - 1] == MapPoints(init, fx, fy);
      var b := LayoutBounds(init);
      var p := ps[|ps| - 1];
      assert b.minX <= p.x ==> fx(b.minX) <= fx(p.x);
      assert p.x <= b.minX ==> fx(p.x) <= fx(b.minX);
      assert b.maxX <= p.x ==> fx(b.maxX) <= fx(p.x);
      assert p.x <= b.maxX ==> fx(p.x) <= fx(b.maxX);
      assert b.minY <= p.y ==> fy(b.minY) <= fy(p.y);
      assert p.y <= b.minY ==> fy(p.y) <= fy(b.minY);
      assert b.maxY <= p.y ==> fy(b.maxY) <= fy(p.y);
      assert p.y <= b.maxY ==> fy(p.y) <= fy(b.maxY);
    }
  }

  /** Multiplication by `k`, as a map of one axis. */
  function ScaleBy(k: real): real -> real {
    x => x * k
  }

  /** Multiplying by a non-negative factor keeps the order and the origin. */
  lemma ScalingMonotone(k: real)
    requires k >= 0.0
    ensures MonotoneFixingZero(ScaleBy(k))
  {
    var f := ScaleBy(k);
    forall a: real, b: real | a <= b
      ensures f(a) <= f(b)
    {
      assert (b - a) * k >= 0.0;
    }
  }

  /** Scaling the coordinates is mapping their points by the two multiplications. */
  lemma ScaledIsMapped(xs: real, ys: real, cs: seq<Coord>)
    ensures CoordPoints(ScaleAll(xs, ys, cs)) == MapPoints(CoordPoints(cs), ScaleBy(xs), ScaleBy(ys))
  {
    var scaled := CoordPoints(ScaleAll(xs, ys, cs));
    var mapped := MapPoints(CoordPoints(cs), ScaleBy(xs), ScaleBy(ys));
    forall i | 0 <= i < |cs|
      ensures scaled[i] == mapped[i]
    {
      assert scaled[i] == Point(cs[i].x * xs, cs[i].y * ys);
    }
  }

  /** The bounding box of points scaled by non-negative factors, in terms of the two maps. */
  lemma MappedScaledBounds(ps: seq<Point>, xs: real, ys: real)
    requires xs >= 0.0 && ys >= 0.0
    ensures var b := LayoutBounds(ps);
      var s := LayoutBounds(MapPoints(ps, ScaleBy(xs), ScaleBy(ys)));
      s.minX == ScaleBy(xs)(b.minX) && s.maxX == ScaleBy(xs)(b.maxX)
      && s.minY == ScaleBy(ys)(b.minY) && s.maxY == ScaleBy(ys)(b.maxY)
  {
    ScalingMonotone(xs);
    ScalingMonotone(ys);
    MappedBounds(ps, ScaleBy(xs), ScaleBy(ys));
  }

  /**
   * The bounds of coordinates scaled by non-negative spacings are the
   * scaled bounds: each side is the old side times its axis's spacing.
   */
  lemma ScaledBounds(xs: real, ys: real, cs: seq<Coord>)
    requires xs >= 0.0 && ys >= 0.0
    ensures var b := LayoutBounds(CoordPoints(cs));
      var s := LayoutBounds(CoordPoints(ScaleAll(xs, ys, cs)));
      s.minX == ScaleBy(xs)(b.minX) && s.maxX == ScaleBy(xs)(b.maxX)
      && s.minY == ScaleBy(ys)(b.minY) && s.maxY == ScaleBy(ys)(b.maxY)
  {
    ScaledIsMapped(xs, ys, cs);
    MappedScaledBounds(CoordPoints(cs), xs, ys);
  }


  const XSpacing: real := 100.0
  const MinYSpacing: real := 100.0
  const MaxYSpacing: real := 500.0

  /** `maxX - minX || 1`: a zero extent counts as 1. */
  function NonZero(extent: real): (r: real)
    ensures r != 0.0
  {
    if extent != 0.0 then extent else 1.0
  }

  /**
   * The y spacing for a layout of width `lw` and height `lh` on a screen of
   * width `sw` and height `sh`: the one that gives the layout the screen's
   * aspect ratio at x spacing 100, clamped into [100, 500].
   */
  function YSpacing(lw: real, lh: real, sw: real, sh: real): (ys: real)
    requires lw != 0.0 && lh != 0.0 && sw != 0.0
    ensures MinYSpacing <= ys <= MaxYSpacing
    ensures var aspect := (sh / lh) * XSpacing / (sw / lw);
      && (aspect > MaxYSpacing ==> ys == MaxYSpacing)
      && (aspect < MinYSpacing ==> ys == MinYSpacing)
      && (MinYSpacing <= aspect <= MaxYSpacing ==> ys == aspect)
  {
    var xSpacing := sw / lw;
    var ySpacing := sh / lh;
    assert xSpacing != 0.0 by { DivMul(sw, lw); }
    Max(Min(ySpacing * XSpacing / xSpacing, MaxYSpacing), MinYSpacing)
  }

  /**
   * scaleCoordsByScreenSize, as the pair of spacings of the scaleCoords it
   * returns: x spacing 100 and the clamped aspect-keeping y spacing, over the
   * layout's extents with a zero extent counting as 1.
   */
  function ScreenSpacing(cs: seq<Coord>, screen: Screen): (r: (real, real))
    requires screen.width != 0.0
    ensures r.0 == XSpacing && MinYSpacing <= r.1 <= MaxYSpacing
    ensures var b := LayoutBounds(CoordPoints(cs));
      r.1 == YSpacing(NonZero(b.maxX - b.minX), NonZero(b.maxY - b.minY), screen.width, screen.height)
  {
    var b := LayoutBounds(CoordPoints(cs));
    (XSpacing, YSpacing(NonZero(b.maxX - b.minX), NonZero(b.maxY - b.minY), screen.width, screen.height))
  }

  /**
   * When the clamp does not bind, the scaled layout has the screen's aspect
   * ratio: its height over its width (`lh * ys` over `lw * 100`) is the
   * screen's height over its width.
   */
  lemma YSpacingKeepsAspect(lw: real, lh: real, sw: real, sh: real)
    requires lw != 0.0 && lh != 0.0 && sw != 0.0
    ensures var ys := (sh / lh) * XSpacing / (sw / lw);
      MinYSpacing <= ys <= MaxYSpacing ==> (lh * YSpacing(lw, lh, sw, sh)) * sw == (lw * XSpacing) * sh
  {
    var xsp := sw / lw;
    var ysp := sh / lh;
    DivMul(sw, lw);
    DivMul(sh, lh);
    assert xsp != 0.0;
    var ys := ysp * XSpacing / xsp;
    DivMul(ysp * XSpacing, xsp);
    if MinYSpacing <= ys <= MaxYSpacing {
      assert YSpacing(lw, lh, sw, sh) == ys;
      calc {
        (lh * ys) * sw;
        (lh * ys) * (xsp * lw);
        { assert (lh * ys) * (xsp * lw) == (lh * lw) * (ys * xsp); }
        (lh * lw) * (ys * xsp);
        (lh * lw) * (ysp * XSpacing);
        { assert (lh * lw) * (ysp * XSpacing) == (lw * XSpacing) * (ysp * lh); }
        (lw * XSpacing) * (ysp * lh);
        (lw * XSpacing) * sh;
      }
    }
  }

  // ---------------------------------------------------------------------
  // shouldAssignCoords / assignCoords
  // ---------------------------------------------------------------------

  /** A property value that may be missing, null, a boolean or a number. */
  datatype JsVal = JUndefined | JNull | JBool(b: bool) | JNumber(n: real)

  /** falsyNonNumeric: undefined, null or false; the number 0 is not. */
  predicate FalsyNonNumeric(v: JsVal) {
    v == JUndefined || v == JNull || v == JBool(false)
  }

  /** shouldAssignCoords: some of x, y and fixed is undefined, null or false. */
  function ShouldAssignCoords(x: JsVal, y: JsVal, fixed: JsVal): (r: bool)
    ensures !r <==> ((x.JBool? || x.JNumber?) && (y.JBool? || y.JNumber?) && (fixed.JBool? || fixed.JNumber?)
                     && x != JBool(false) && y != JBool(false) && fixed != JBool(false))
  {
    FalsyNonNumeric(x) || FalsyNonNumeric(y) || FalsyNonNumeric(fixed)
  }

  /** Zero coordinates count as present; a node not fixed always gets coordinates. */
  lemma ShouldAssignCoordsCases(x: real, y: real)
    ensures !ShouldAssignCoords(JNumber(0.0), JNumber(0.0), JBool(true))
    ensures ShouldAssignCoords(JNumber(x), JNumber(y), JBool(false))
    ensures ShouldAssignCoords(JNumber(x), JNumber(y), JUndefined)
    ensures !ShouldAssignCoords(JNumber(x), JNumber(y), JNumber(0.0))
  {
  }

  /**
   * assignCoords: a node that already has a coordinate gets the computed
   * one as its destination and keeps its position; otherwise it is placed
   * there directly.
   */
  function AssignCoords(n: LayoutNode, c: Point): (r: LayoutNode)
    ensures n.x.Some? || n.y.Some? ==> r == n.(destination := Some(c))
    ensures n.x.None? && n.y.None? ==> r == n.(x := Some(c.x), y := Some(c.y))
  {
    if n.x.Some? || n.y.Some? then n.(destination := Some(c)) else n.(x := Some(c.x), y := Some(c.y))
  }

  /**
   * After assignCoords the node is at the computed point or heading to it,
   * and a node that was placed never jumps.
   */
  lemma AssignCoordsReaches(n: LayoutNode, c: Point)
    ensures var r := AssignCoords(n, c);
      && ((r.x == Some(c.x) && r.y == Some(c.y)) || r.destination == Some(c))
      && (n.x.Some? || n.y.Some? ==> r.x == n.x && r.y == n.y)
      && AssignCoords(AssignCoords(n, c), c) == AssignCoords(n, c).(destination := Some(c))
  {
  }

  /** A node built by the Node constructor always has both coordinates, so assignCoords only ever eases it. */
  function OfNode(n: N.Node): LayoutNode {
    LayoutNode(Some(n.x), Some(n.y), n.destination, false, false, Num(n.mass), Undef, None)
  }

  lemma ConstructedNodesEase(n: N.Node, c: Point)
    ensures AssignCoords(OfNode(n), c).destination == Some(c)
    ensures AssignCoords(OfNode(n), c).x == Some(n.x) && AssignCoords(OfNode(n), c).y == Some(n.y)
  {
  }
}

=== FILE: node.dfy ===
/**
 * The node entity: construction from a definition, in-place update, the
 * per-frame size selection and easing towards a destination, and which
 * labels a frame draws.
 */
module Nodes {
  import opened JsValues
  import opened Camera
  import Curves

  /** Object identity of a node instance (the source compares nodes with `===`). */
  type Oid = nat

  /** A node definition as supplied from outside; `ref` is its object identity. */
  datatype NodeDef = NodeDef(
    ref: nat,
    id: string,
    size: Option<real>,
    mass: Option<real>,
    x: Option<real>,
    y: Option<real>,
    fixed: Option<bool>,
    styleSize: Option<real>,
    outerLabel: string,  // the definition's `label`
    innerLabel: string)

  datatype Node = Node(
    id: string,
    definition: NodeDef,
    size: real,
    bSize: real,
    mass: real,
    x: real,
    y: real,
    fixed: bool,
    destination: Option<Point>,
    deleted: bool)

  /** Every node instance ever created, by identity; the live map refers into it. */
  type Heap = map<Oid, Node>

  const NodeSize: real := 30.0
  const MaxInnerLabelChars: nat := 10
  const MinInnerLabelChars: nat := 7
  const MaxOuterLabelChars: nat := 35
  const MinOuterLabelChars: nat := 12
  const HoverGrowth: real := 5.0

  /**
   * The constructor. Size is the definition's, else the configured
   * default, else 30, and is never zero; mass defaults to 1, position to the
   * origin (a zero and a missing coordinate are the same), `fixed` only when
   * the definition says `true`; no destination, not deleted.
   */
  function NewNode(id: string, def: NodeDef, defaultSize: Option<real>): (n: Node)
    ensures n.id == id && n.definition == def && !n.deleted && n.destination.None?
    ensures n.size != 0.0 && n.bSize == n.size
    ensures n.size == FirstTruthy([def.size, defaultSize], NodeSize)
    ensures n.mass != 0.0 && (def.mass.Some? && def.mass.value != 0.0 ==> n.mass == def.mass.value)
    ensures (def.mass.None? || def.mass.value == 0.0) ==> n.mass == 1.0
    ensures n.x == def.x.GetOr(0.0) && n.y == def.y.GetOr(0.0)
    ensures n.fixed <==> def.fixed == Some(true)
  {
    var size := OrDefault(OrElse(def.size, defaultSize), NodeSize);
    Node(id, def, size, size, OrDefault(def.mass, 1.0),
         OrDefault(def.x, 0.0), OrDefault(def.y, 0.0),
         def.fixed == Some(true), None, false)
  }

  /**
   * update: replaces the definition; clears `fixed` only when the new
   * definition says `fixed: false`, never sets it; nothing else changes.
   */
  function Update(n: Node, def: NodeDef): (r: Node)
    ensures r.definition == def
    ensures r.fixed <==> n.fixed && def.fixed != Some(false)
    ensures r.(definition := n.definition, fixed := n.fixed) == n
  {
    var n1 := n.(definition := def);
    if def.fixed == Some(false) then n1.(fixed := false) else n1
  }

  /** destroy: only the deletion flag is set. */
  function Destroy(n: Node): (r: Node)
    ensures r.deleted && r.(deleted := n.deleted) == n
  {
    n.(deleted := true)
  }

  /** The scale bucket of a frame: 0.5 above 1.5, 2 below 0.5, else 1. */
  function ScaleCoefficient(scale: real): (r: real)
    ensures r < 1.0 <==> scale > 1.5
  {
    if scale > 1.5 then 0.5 else if scale < 0.5 then 2.0 else 1.0
  }

  /**
   * The size a frame draws: the first present, non-zero of the style size,
   * the configured default, the definition size and the constructed size,
   * plus 5 while hovered.
   */
  function DrawnSize(n: Node, defaultSize: Option<real>, hovering: bool): (r: real)
    ensures r - (if hovering then HoverGrowth else 0.0)
      == FirstTruthy([n.definition.styleSize, defaultSize, n.definition.size], n.size)
    ensures n.size != 0.0 ==> r - (if hovering then HoverGrowth else 0.0) != 0.0
  {
    var cands := [n.definition.styleSize, defaultSize, n.definition.size];
    assert cands[1..][1..] == [n.definition.size];
    assert FirstTruthy(cands[1..][1..], n.size) == OrDefault(n.definition.size, n.size);
    OrDefault(OrElse(OrElse(n.definition.styleSize, defaultSize), n.definition.size), n.size)
      + (if hovering then HoverGrowth else 0.0)
  }

  /** The configured default size shadows the definition's own size when drawing. */
  lemma DefaultSizeShadowsDefinitionSize(n: Node, d: real, hovering: bool)
    requires n.definition.styleSize.None? && d != 0.0
    ensures DrawnSize(n, Some(d), hovering) == d + (if hovering then HoverGrowth else 0.0)
  {
  }

  /** One easing step towards the destination (the move block of render). */
  function EaseStep(n: Node): (r: Node)
    ensures n.destination.None? ==> r == n
    ensures n.destination.Some? && (Abs(n.x - n.destination.value.x) > 1.0 || Abs(n.y - n.destination.value.y) > 1.0) ==>
      && r.destination == n.destination
      && r.x - n.destination.value.x == (n.x - n.destination.value.x) / 2.0
      && r.y - n.destination.value.y == (n.y - n.destination.value.y) / 2.0
      && r.(x := n.x, y := n.y) == n
    ensures n.destination.Some? && Abs(n.x - n.destination.value.x) <= 1.0 && Abs(n.y - n.destination.value.y) <= 1.0 ==>
      r == n.(destination := None)
  {
    match n.destination
    case None => n
    case Some(d) =>
      if Abs(n.x - d.x) > 1.0 || Abs(n.y - d.y) > 1.0 then
        n.(x := n.x + (d.x - n.x) * 0.5, y := n.y + (d.y - n.y) * 0.5)
      else
        n.(destination := None)
  }

  /** The remaining whole units of offset from the destination, on both axes. */
  function EaseMeasure(n: Node): nat {
    match n.destination
    case None => 0
    case Some(d) => FloorNat(Abs(n.x - d.x)) + FloorNat(Abs(n.y - d.y))
  }

  function FloorNat(a: real): nat
    requires a >= 0.0
  {
    a.Floor
  }

  lemma HalvingFloor(o: real, half: real)
    requires o >= 0.0 && half == o / 2.0
    ensures FloorNat(half) <= FloorNat(o)
    ensures o > 1.0 ==> FloorNat(half) < FloorNat(o)
  {
    var f := FloorNat(o);
    var h := FloorNat(half);
    assert h as real <= o / 2.0;
    assert o < f as real + 1.0;
    if o > 1.0 {
      assert f >= 1;
      if o >= 2.0 {
        assert h as real <= o - 1.0;
      } else {
        assert o / 2.0 < 1.0;
      }
    }
  }

  /** A step that moves the node strictly decreases the measure. */
  lemma {:induction false} EaseStepDecreases(n: Node)
    requires n.destination.Some?
    requires Abs(n.x - n.destination.value.x) > 1.0 || Abs(n.y - n.destination.value.y) > 1.0
    ensures EaseMeasure(EaseStep(n)) < EaseMeasure(n)
  {
    EaseStepHalves(n);
    HalvedMeasure(n, EaseStep(n));
  }

  /** Within one unit on both axes, the step drops the destination and keeps the position. */
  lemma EaseStepArrives(n: Node)
    requires n.destination.Some?
    requires Abs(n.x - n.destination.value.x) <= 1.0 && Abs(n.y - n.destination.value.y) <= 1.0
    ensures EaseStep(n) == n.(destination := None)
  {
  }

  /** Halving the distance to the same destination, when it exceeds 1 on some axis, lowers the measure. */
  lemma HalvedMeasure(n: Node, r: Node)
    requires n.destination.Some? && r.destination == n.destination
    requires Abs(n.x - n.destination.value.x) > 1.0 || Abs(n.y - n.destination.value.y) > 1.0
    requires Abs(r.x - n.destination.value.x) == Abs(n.x - n.destination.value.x) / 2.0
    requires Abs(r.y - n.destination.value.y) == Abs(n.y - n.destination.value.y) / 2.0
    ensures EaseMeasure(r) < EaseMeasure(n)
  {
    var d := n.destination.value;
    assert EaseMeasure(n) == FloorNat(Abs(n.x - d.x)) + FloorNat(Abs(n.y - d.y));
    assert EaseMeasure(r) == FloorNat(Abs(r.x - d.x)) + FloorNat(Abs(r.y - d.y));
    HalvedSum(Abs(n.x - d.x), Abs(n.y - d.y), Abs(r.x - d.x), Abs(r.y - d.y));
  }

  /** Halving two non-negative offsets, one of them above 1, lowers the sum of their floors. */
  lemma HalvedSum(nx: real, ny: real, rx: real, ry: real)
    requires nx >= 0.0 && ny >= 0.0 && rx == nx / 2.0 && ry == ny / 2.0
    requires nx > 1.0 || ny > 1.0
    ensures FloorNat(rx) + FloorNat(ry) < FloorNat(nx) + FloorNat(ny)
  {
    HalvingFloor(nx, rx);
    HalvingFloor(ny, ry);
  }

  /** A step that moves the node halves its distance from the destination on each axis. */
  lemma EaseStepHalves(n: Node)
    requires n.destination.Some?
    requires Abs(n.x - n.destination.value.x) > 1.0 || Abs(n.y - n.destination.value.y) > 1.0
    ensures var r := EaseStep(n); var d := n.destination.value;
      && r.destination == n.destination
      && Abs(r.x - d.x) == Abs(n.x - d.x) / 2.0
      && Abs(r.y - d.y) == Abs(n.y - d.y) / 2.0
  {
    var d := n.destination.value;
    AbsHalf(n.x - d.x);
    AbsHalf(n.y - d.y);
  }

  lemma AbsHalf(v: real)
    ensures Abs(v / 2.0) == Abs(v) / 2.0
  {
  }

  /** The node lies within one unit of `d` on both axes. */
  predicate WithinOne(n: Node, d: Point) {
    -1.0 <= n.x - d.x <= 1.0 && -1.0 <= n.y - d.y <= 1.0
  }

  /**
   * Easing terminates: repeating the step from any state reaches a node
   * without a destination, within one unit of it on both axes; the
   * position is never snapped onto it.
   */
  function EaseUntilArrived(n: Node): (r: Node)
    ensures r.destination.None?
    ensures n.destination.None? ==> r == n
    ensures n.destination.Some? ==>
      Abs(r.x - n.destination.value.x) <= Abs(n.x - n.destination.value.x) &&
      Abs(r.y - n.destination.value.y) <= Abs(n.y - n.destination.value.y)
    ensures n.destination.Some? ==> WithinOne(r, n.destination.value)
    decreases EaseMeasure(n), n.destination.Some?
  {
    match n.destination
    case None => n
    case Some(d) =>
      if Abs(n.x - d.x) > 1.0 || Abs(n.y - d.y) > 1.0 then
        EaseStepDecreases(n);
        EaseStepHalves(n);
        EaseUntilArrived(EaseStep(n))
      else
        EaseStepArrives(n);
        EaseUntilArrived(EaseStep(n))
  }

  /** What one render call of a node produces besides drawing. */
  datatype NodeFrame = NodeFrame(node: Node, size: real, innerText: Option<string>, outerText: Option<string>)

  function InnerLabelLimit(scale: real): (r: nat)
    ensures r == MaxInnerLabelChars <==> scale > 1.5
    ensures r == MaxInnerLabelChars || r == MinInnerLabelChars
  {
    if ScaleCoefficient(scale) < 1.0 then MaxInnerLabelChars else MinInnerLabelChars
  }

  function OuterLabelLimit(scale: real): (r: nat)
    ensures r == MaxOuterLabelChars <==> scale > 1.5
    ensures r == MaxOuterLabelChars || r == MinOuterLabelChars
  {
    if ScaleCoefficient(scale) < 1.0 then MaxOuterLabelChars else MinOuterLabelChars
  }

  /**
   * render, without the canvas calls: sets bSize to the drawn size, takes
   * one easing step, and draws the inner label (limit by scale bucket) and,
   * when labels are shown and the scale exceeds 1.75, the outer label.
   */
  function RenderNode(n: Node, scale: real, hovering: bool, defaultSize: Option<real>, showLabels: bool)
    : (f: NodeFrame)
    ensures f.node.bSize == f.size == DrawnSize(n, defaultSize, hovering)
    ensures f.node == EaseStep(n).(bSize := f.size)
    ensures f.innerText.Some? <==> n.definition.innerLabel != ""
    ensures f.innerText.Some? ==>
      f.innerText.value == Curves.FitText(n.definition.innerLabel, InnerLabelLimit(scale))
    ensures f.outerText.Some? <==> n.definition.outerLabel != "" && showLabels && scale > 1.75
    ensures f.outerText.Some? ==> f.outerText.value == Curves.FitText(n.definition.outerLabel, OuterLabelLimit(scale))
  {
    var size := DrawnSize(n, defaultSize, hovering);
    var moved := EaseStep(n.(bSize := size));
    var inner := if n.definition.innerLabel != "" then
      Some(Curves.FitText(n.definition.innerLabel, InnerLabelLimit(scale))) else None;
    var outer := if n.definition.outerLabel != "" && showLabels && scale > 1.75 then
      Some(Curves.FitText(n.definition.outerLabel, OuterLabelLimit(scale))) else None;
    NodeFrame(moved, size, inner, outer)
  }

  /** Whenever the outer label is drawn its limit is 35: the 12-character limit is never used. */
  lemma OuterLabelAlwaysLong(n: Node, scale: real, hovering: bool, defaultSize: Option<real>, showLabels: bool)
    ensures
      var f := RenderNode(n, scale, hovering, defaultSize, showLabels);
      f.outerText.Some? ==> f.outerText.value == Curves.FitText(n.definition.outerLabel, MaxOuterLabelChars)
  {
  }
}

=== FILE: ordered_map.dfy ===
/**
 * A string-keyed map that remembers insertion order, as a JavaScript `Map`
 * does: `Set` on a new key appends it, `Set` on an existing key replaces the
 * value in place, `Delete` removes the key from the order.
 */
module OrderedMaps {
  import opened Seqs

  datatype OMap<V> = OMap(keys: seq<string>, m: map<string, V>)

  ghost predicate Valid<V>(om: OMap<V>) {
    && Distinct(om.keys)
    && (forall k :: k in om.m <==> k in om.keys)
  }

  function Empty<V>(): (r: OMap<V>)
    ensures Valid(r) && r.m == map[]
  {
    OMap([], map[])
  }

  /** `map.set(k, v)`. */
  function Set<V>(om: OMap<V>, k: string, v: V): (r: OMap<V>)
    requires Valid(om)
    ensures Valid(r)
    ensures r.m == om.m[k := v]
    ensures k in om.m ==> r.keys == om.keys
    ensures k !in om.m ==> r.keys == om.keys + [k]
  {
    if k in om.m then OMap(om.keys, om.m[k := v])
    else
      DistinctSnoc(om.keys, k);
      OMap(om.keys + [k], om.m[k := v])
  }

  /** The keys of `s` in order, without those in `gone`. */
  function Without(s: seq<string>, gone: set<string>): (r: seq<string>)
    ensures forall k :: k in r <==> k in s && k !in gone
    ensures |r| <= |s|
  {
    if s == [] then []
    else
      var rest := Without(s[..|s| - 1], gone);
      var last := s[|s| - 1];
      assert forall k :: k in s <==> k in s[..|s| - 1] || k == last;
      if last in gone then rest
      else
        rest + [last]
  }

  lemma {:induction false} WithoutDistinct(s: seq<string>, gone: set<string>)
    requires Distinct(s)
    ensures Distinct(Without(s, gone))
    decreases |s|
  {
    if s != [] {
      var init := s[..|s| - 1];
      var last := s[|s| - 1];
      DistinctInit(s);
      WithoutDistinct(init, gone);
      var rest := Without(init, gone);
      if last !in gone {
        DistinctSnoc(rest, last);
      }
    }
  }

  /** Removes every key in `gone` (`map.delete` for each of them). */
  function DeleteAll<V>(om: OMap<V>, gone: set<string>): (r: OMap<V>)
    requires Valid(om)
    ensures Valid(r)
    ensures r.m == om.m - gone
    ensures r.keys == Without(om.keys, gone)
  {
    WithoutDistinct(om.keys, gone);
    OMap(Without(om.keys, gone), om.m - gone)
  }

  /** The values in iteration order (`map.values()`). */
  function Values<V>(om: OMap<V>): (r: seq<V>)
    requires Valid(om)
    ensures |r| == |om.keys|
    ensures forall i :: 0 <= i < |r| ==> r[i] == om.m[om.keys[i]]
  {
    seq(|om.keys|, i requires 0 <= i < |om.keys| => om.m[om.keys[i]])
  }

  /** Deleting no key leaves the map as it was, order included. */
  lemma DeleteNothing<V>(om: OMap<V>)
    requires Valid(om)
    ensures DeleteAll(om, {}) == om
  {
    WithoutNothing(om.keys);
  }

  lemma WithoutNothing(s: seq<string>)
    ensures Without(s, {}) == s
  {
    if s != [] {
      WithoutNothing(s[..|s| - 1]);
      assert s[..|s| - 1] + [s[|s| - 1]] == s;
    }
  }
}

=== FILE: renderer.dfy ===
/**
 * The renderer's frame loop and drawing decisions: the 30 ms frame
 * throttle, the redraw predicate, the viewport a node layer is culled
 * against, and the draw list (visible shapes, then every edge, then the
 * nodes that survive culling). Canvas calls themselves are not modelled;
 * a draw is the list of items handed to their render functions.
 */
module Renderer {
  import opened JsValues
  import opened Camera
  import N = Nodes
  import E = Edges
  import Shapes
  import GS = GraphStore
  import OrderedMaps
  import I = Interaction

  /** The minimum time between two processed frames, in milliseconds. */
  const MsPerRender: real := 30.0

  /** The screen margin, in pixels, inside which nodes are still drawn. */
  const ViewPortMargin: real := 10.0

  // ---------------------------------------------------------------------
  // The frame loop
  // ---------------------------------------------------------------------

  /**
   * A frame is drawn when the props changed since the last draw, an
   * interaction is under way, or a pan or zoom animation has a destination
   * (a destination scale of 0 is falsy).
   */
  predicate NeedsRedraw(dirty: bool, action: I.Action, ps: PanScaleState) {
    || dirty
    || action != I.Idle
    || ps.destinationPan.Some?
    || (ps.destinationScale.Some? && ps.destinationScale.value != 0.0)
  }

  /** The loop's closure state: the time of the last processed frame (0 before the first) and the dirty flag. */
  datatype LoopState = LoopState(lastFrameTime: real, dirty: bool)

  /** What one animation frame did: the state after it, whether it ticked the handlers, whether it drew. */
  datatype Frame = Frame(next: LoopState, ticked: bool, drew: bool)

  /**
   * loop: a frame less than 30 ms after the last processed one is skipped
   * unless no frame has been processed yet; a processed frame records its
   * time, ticks the handlers and draws when NeedsRedraw, clearing dirty.
   */
  function LoopFrame(s: LoopState, elapsed: real, action: I.Action, ps: PanScaleState): (f: Frame)
    ensures f.drew ==> f.ticked && !f.next.dirty
    ensures !f.ticked ==> f.next == s
    ensures f.ticked ==> f.next.lastFrameTime == elapsed
    ensures f.ticked && !f.drew ==> f.next.dirty == s.dirty
  {
    if s.lastFrameTime != 0.0 && elapsed - s.lastFrameTime < MsPerRender then Frame(s, false, false)
    else if NeedsRedraw(s.dirty, action, ps) then Frame(LoopState(elapsed, false), true, true)
    else Frame(LoopState(elapsed, s.dirty), true, false)
  }

  /**
   * A frame is processed exactly when it is the first or comes at least
   * 30 ms after the last processed one, and a processed frame draws exactly
   * when NeedsRedraw holds.
   */
  lemma LoopFrameThrottles(s: LoopState, elapsed: real, action: I.Action, ps: PanScaleState)
    ensures var f := LoopFrame(s, elapsed, action, ps);
      && (f.ticked <==> s.lastFrameTime == 0.0 || elapsed - s.lastFrameTime >= MsPerRender)
      && (f.drew <==> f.ticked && NeedsRedraw(s.dirty, action, ps))
  {
  }

  /** One animation frame's inputs: its timestamp, whether the props changed before it, and the state it reads. */
  datatype FrameInput = FrameInput(elapsed: real, propsChanged: bool, action: I.Action, ps: PanScaleState)

  /** The outcome of a run of frames: the final state, the timestamps of processed frames, the number of draws. */
  datatype Run = Run(final: LoopState, ticks: seq<real>, draws: nat)

  /** A props change sets dirty before the frame (the props effect). */
  function BeforeFrame(s: LoopState, inp: FrameInput): (t: LoopState)
    ensures t.lastFrameTime == s.lastFrameTime
    ensures t.dirty == (s.dirty || inp.propsChanged)
  {
    if inp.propsChanged then s.(dirty := true) else s
  }

  /** The loop driven by a sequence of animation frames. */
  function RunFrames(s: LoopState, inputs: seq<FrameInput>): (r: Run)
    ensures |r.ticks| <= |inputs| && r.draws <= |r.ticks|
    decreases |inputs|
  {
    if inputs == [] then Run(s, [], 0)
    else
      var prev := RunFrames(s, inputs[..|inputs| - 1]);
      var inp := inputs[|inputs| - 1];
      var f := LoopFrame(BeforeFrame(prev.final, inp), inp.elapsed, inp.action, inp.ps);
      Run(f.next,
          if f.ticked then prev.ticks + [inp.elapsed] else prev.ticks,
          if f.drew then prev.draws + 1 else prev.draws)
  }

  /**
   * The throttle over a run: consecutive processed frames are at least
   * 30 ms apart unless the earlier one was at time 0, the first is spaced
   * likewise from the starting state, and the state remembers the last.
   */
  lemma {:induction false} ThrottleSpacing(s: LoopState, inputs: seq<FrameInput>)
    ensures var r := RunFrames(s, inputs);
      && (forall i :: 0 <= i < |r.ticks| - 1 ==> r.ticks[i] == 0.0 || r.ticks[i + 1] - r.ticks[i] >= MsPerRender)
      && (r.ticks != [] ==> s.lastFrameTime == 0.0 || r.ticks[0] - s.lastFrameTime >= MsPerRender)
      && r.final.lastFrameTime == (if r.ticks == [] then s.lastFrameTime else r.ticks[|r.ticks| - 1])
    decreases |inputs|
  {
    if inputs != [] {
      var init := inputs[..|inputs| - 1];
      ThrottleSpacing(s, init);
      var prev := RunFrames(s, init);
      var inp := inputs[|inputs| - 1];
      LoopFrameThrottles(BeforeFrame(prev.final, inp), inp.elapsed, inp.action, inp.ps);
    }
  }

  /** A frame in which nothing changed: no new props, no interaction, no animation destination. */
  predicate Static(inp: FrameInput) {
    && !inp.propsChanged
    && inp.action == I.Idle
    && inp.ps.destinationPan.None?
    && (inp.ps.destinationScale.None? || inp.ps.destinationScale.value == 0.0)
  }

  /**
   * A static view is drawn at most once, and only if it started dirty:
   * the draw clears dirty and nothing sets it again.
   */
  lemma {:induction false} StaticViewDrawsAtMostOnce(s: LoopState, inputs: seq<FrameInput>)
    requires forall i :: 0 <= i < |inputs| ==> Static(inputs[i])
    ensures var r := RunFrames(s, inputs);
      && r.draws <= (if s.dirty then 1 else 0)
      && (r.draws == 0 ==> r.final.dirty == s.dirty)
      && (r.draws == 1 ==> !r.final.dirty)
    decreases |inputs|
  {
    if inputs != [] {
      var init := inputs[..|inputs| - 1];
      assert forall i :: 0 <= i < |init| ==> Static(init[i]) by {
        forall i | 0 <= i < |init| ensures Static(init[i]) {
          assert init[i] == inputs[i];
        }
      }
      StaticViewDrawsAtMostOnce(s, init);
      var inp := inputs[|inputs| - 1];
      assert Static(inp);
      var prev := RunFrames(s, init);
      LoopFrameThrottles(BeforeFrame(prev.final, inp), inp.elapsed, inp.action, inp.ps);
    }
  }

  // ---------------------------------------------------------------------
  // The viewport
  // ---------------------------------------------------------------------

  /** The screen grown by the margin on every side, mapped to world coordinates. */
  function ViewPortOf(ps: PanScaleState, screen: Screen): (vp: ViewPort)
    requires ps.scale != 0.0
  {
    ViewPort((-ViewPortMargin - ps.pan.x) / ps.scale,
             (-ViewPortMargin - ps.pan.y) / ps.scale,
             (ViewPortMargin + screen.width - ps.pan.x) / ps.scale,
             (ViewPortMargin + screen.height - ps.pan.y) / ps.scale)
  }

  /** For a positive divisor, comparing with a quotient is comparing the product. */
  lemma QuotientCompare(a: real, b: real, k: real)
    requires k > 0.0
    ensures a < b / k <==> a * k < b
    ensures a > b / k <==> a * k > b
  {
    var q := b / k;
    DivMul(b, k);
    assert q * k == b;
    if a < q {
      assert (q - a) * k > 0.0;
    }
    if a > q {
      assert (a - q) * k > 0.0;
    }
    if a == q {
      assert a * k == b;
    }
  }

  /**
   * At a positive scale, a world point is in the viewport exactly when its
   * screen position lies strictly inside the screen grown by the margin.
   */
  lemma ViewPortIsPaddedScreen(p: Point, ps: PanScaleState, screen: Screen)
    requires ps.scale > 0.0
    ensures var q := NodeScreenPos(p, ps);
      InViewPort(p, ViewPortOf(ps, screen)) <==>
        && -ViewPortMargin < q.x < screen.width + ViewPortMargin
        && -ViewPortMargin < q.y < screen.height + ViewPortMargin
  {
    AxisInside(p.x, ps.pan.x, ps.scale, -ViewPortMargin, ViewPortMargin + screen.width);
    AxisInside(p.y, ps.pan.y, ps.scale, -ViewPortMargin, ViewPortMargin + screen.height);
  }

  /** One axis of the viewport test: inside the world interval iff the screen coordinate is inside. */
  lemma AxisInside(x: real, pan: real, k: real, lo: real, hi: real)
    requires k > 0.0
    ensures (lo - pan) / k < x < (hi - pan) / k <==> lo < x * k + pan < hi
  {
    QuotientCompare(x, lo - pan, k);
    QuotientCompare(x, hi - pan, k);
  }

  // ---------------------------------------------------------------------
  // What gets drawn
  // ---------------------------------------------------------------------

  /** The three canvases, bottom to top. */
  datatype Layer = ShapeLayer | EdgeLayer | NodeLayer

  /**
   * drawObjects' test: the item has a render function and, on the node
   * canvas only, is moving towards a destination or lies in the viewport.
   */
  predicate ShouldRender(layer: Layer, hasRender: bool, destination: Option<Point>, pos: Point, vp: ViewPort) {
    hasRender && (layer != NodeLayer || destination.Some? || InViewPort(pos, vp))
  }

  /** Only the node canvas culls, and it never culls a node that is moving. */
  lemma OnlyNodesAreCulled(layer: Layer, destination: Option<Point>, pos: Point, vp: ViewPort)
    ensures layer != NodeLayer ==> ShouldRender(layer, true, destination, pos, vp)
    ensures destination.Some? ==> ShouldRender(layer, true, destination, pos, vp)
    ensures !ShouldRender(layer, false, destination, pos, vp)
    ensures ShouldRender(NodeLayer, true, destination, pos, vp) <==> destination.Some? || InViewPort(pos, vp)
  {
  }

  /** A background shape is drawn unless its `visible` is explicitly false. */
  predicate Visible(s: Shapes.Shape) {
    s.visible != Some(false)
  }

  /** drawShapes: the shapes it draws, in order. */
  function DrawShapes(shapes: seq<Shapes.Shape>): (r: seq<Shapes.Shape>)
    ensures forall s :: s in r <==> s in shapes && Visible(s)
    ensures |r| <= |shapes|
    decreases |shapes|
  {
    if shapes == [] then []
    else
      var rest := DrawShapes(shapes[..|shapes| - 1]);
      var last := shapes[|shapes| - 1];
      assert forall s :: s in shapes <==> s in shapes[..|shapes| - 1] || s == last;
      if Visible(last) then rest + [last] else rest
  }

  /** Drawing keeps the shapes' order: the shapes drawn from a concatenation are those of each part, in turn. */
  lemma {:induction false} DrawShapesConcat(a: seq<Shapes.Shape>, b: seq<Shapes.Shape>)
    ensures DrawShapes(a + b) == DrawShapes(a) + DrawShapes(b)
    decreases |b|
  {
    if b == [] {
      assert a + b == a;
    } else {
      var init := b[..|b| - 1];
      assert (a + b)[..|a + b| - 1] == a + init;
      assert (a + b)[|a + b| - 1] == b[|b| - 1];
      DrawShapesConcat(a, init);
    }
  }

  /** When no shape is hidden, every shape is drawn, in order. */
  lemma {:induction false} AllVisibleShapesDrawn(shapes: seq<Shapes.Shape>)
    requires forall i :: 0 <= i < |shapes| ==> Visible(shapes[i])
    ensures DrawShapes(shapes) == shapes
    decreases |shapes|
  {
    if shapes != [] {
      var init := shapes[..|shapes| - 1];
      assert forall i :: 0 <= i < |init| ==> init[i] == shapes[i];
      AllVisibleShapesDrawn(init);
      assert init + [shapes[|shapes| - 1]] == shapes;
    }
  }

  /** The nodes the node canvas draws, in order. */
  function DrawNodes(nodes: seq<N.Node>, vp: ViewPort): (r: seq<N.Node>)
    ensures forall n :: n in r <==> n in nodes && ShouldRender(NodeLayer, true, n.destination, Point(n.x, n.y), vp)
    ensures |r| <= |nodes|
    decreases |nodes|
  {
    if nodes == [] then []
    else
      var rest := DrawNodes(nodes[..|nodes| - 1], vp);
      var last := nodes[|nodes| - 1];
      assert forall n :: n in nodes <==> n in nodes[..|nodes| - 1] || n == last;
      if ShouldRender(NodeLayer, true, last.destination, Point(last.x, last.y), vp) then rest + [last] else rest
  }

  /** One item handed to a render function, tagged with its canvas. */
  datatype DrawCall = DrawShape(shape: Shapes.Shape) | DrawEdge(edge: E.Edge) | DrawNode(node: N.Node)

  function LayerOf(c: DrawCall): Layer {
    match c
    case DrawShape(_) => ShapeLayer
    case DrawEdge(_) => EdgeLayer
    case DrawNode(_) => NodeLayer
  }

  /** The canvases' stacking order as a number. */
  function Depth(l: Layer): nat {
    match l
    case ShapeLayer => 0
    case EdgeLayer => 1
    case NodeLayer => 2
  }

  /** The live node instances, in the node map's order. */
  function LiveNodes(st: GS.Store): (r: seq<N.Node>)
    requires GS.Valid(st)
    ensures |r| == |st.nodes.keys|
    ensures forall i :: 0 <= i < |r| ==> r[i] == st.heap[st.nodes.m[st.nodes.keys[i]]]
  {
    seq(|st.nodes.keys|, i requires 0 <= i < |st.nodes.keys| => st.heap[st.nodes.m[st.nodes.keys[i]]])
  }

  /** The shapes as draw calls. */
  function ShapeCalls(ss: seq<Shapes.Shape>): (r: seq<DrawCall>)
    ensures forall i :: 0 <= i < |r| ==> LayerOf(r[i]) == ShapeLayer
    ensures forall c :: c in r <==> c.DrawShape? && c.shape in ss
  {
    var r := seq(|ss|, i requires 0 <= i < |ss| => DrawShape(ss[i]));
    assert forall s :: s in ss ==> DrawShape(s) in r by {
      forall s | s in ss ensures DrawShape(s) in r {
        var i :| 0 <= i < |ss| && ss[i] == s;
        assert r[i] == DrawShape(s);
      }
    }
    r
  }

  /** The edges as draw calls. */
  function EdgeCalls(es: seq<E.Edge>): (r: seq<DrawCall>)
    ensures forall i :: 0 <= i < |r| ==> LayerOf(r[i]) == EdgeLayer
    ensures forall c :: c in r <==> c.DrawEdge? && c.edge in es
  {
    var r := seq(|es|, i requires 0 <= i < |es| => DrawEdge(es[i]));
    assert forall e :: e in es ==> DrawEdge(e) in r by {
      forall e | e in es ensures DrawEdge(e) in r {
        var i :| 0 <= i < |es| && es[i] == e;
        assert r[i] == DrawEdge(e);
      }
    }
    r
  }

  /** The nodes as draw calls. */
  function NodeCalls(ns: seq<N.Node>): (r: seq<DrawCall>)
    ensures forall i :: 0 <= i < |r| ==> LayerOf(r[i]) == NodeLayer
    ensures forall c :: c in r <==> c.DrawNode? && c.node in ns
  {
    var r := seq(|ns|, i requires 0 <= i < |ns| => DrawNode(ns[i]));
    assert forall n :: n in ns ==> DrawNode(n) in r by {
      forall n | n in ns ensures DrawNode(n) in r {
        var i :| 0 <= i < |ns| && ns[i] == n;
        assert r[i] == DrawNode(n);
      }
    }
    r
  }

  /** The values of a valid ordered map are the values of its map. */
  lemma ValuesAreMapValues<V>(om: OrderedMaps.OMap<V>)
    requires OrderedMaps.Valid(om)
    ensures forall v :: v in OrderedMaps.Values(om) <==> v in om.m.Values
  {
    var vs := OrderedMaps.Values(om);
    forall v | v in om.m.Values
      ensures v in vs
    {
      var k :| k in om.m && om.m[k] == v;
      var i :| 0 <= i < |om.keys| && om.keys[i] == k;
      assert vs[i] == v;
    }
  }

  /**
   * draw: the visible shapes, then every edge in the edge map's order,
   * then the nodes that are moving or inside the viewport, in the node
   * map's order.
   */
  function Draw(shapes: seq<Shapes.Shape>, st: GS.Store, ps: PanScaleState, screen: Screen): (calls: seq<DrawCall>)
    requires GS.Valid(st) && ps.scale != 0.0
    ensures forall i, j :: 0 <= i < j < |calls| ==> Depth(LayerOf(calls[i])) <= Depth(LayerOf(calls[j]))
    ensures forall s :: DrawShape(s) in calls <==> s in shapes && Visible(s)
    ensures forall e :: DrawEdge(e) in calls <==> e in st.edges.m.Values
    ensures forall n :: DrawNode(n) in calls <==>
      && n in LiveNodes(st)
      && ShouldRender(NodeLayer, true, n.destination, Point(n.x, n.y), ViewPortOf(ps, screen))
  {
    var a := ShapeCalls(DrawShapes(shapes));
    var b := EdgeCalls(OrderedMaps.Values(st.edges));
    var c := NodeCalls(DrawNodes(LiveNodes(st), ViewPortOf(ps, screen)));
    ValuesAreMapValues(st.edges);
    LayersInOrder(a, b, c);
    a + b + c
  }

  /** Three runs of calls on the three canvases, bottom to top, are in stacking order. */
  lemma LayersInOrder(a: seq<DrawCall>, b: seq<DrawCall>, c: seq<DrawCall>)
    requires forall i :: 0 <= i < |a| ==> LayerOf(a[i]) == ShapeLayer
    requires forall i :: 0 <= i < |b| ==> LayerOf(b[i]) == EdgeLayer
    requires forall i :: 0 <= i < |c| ==> LayerOf(c[i]) == NodeLayer
    ensures var calls := a + b + c;
      forall i, j :: 0 <= i < j < |calls| ==> Depth(LayerOf(calls[i])) <= Depth(LayerOf(calls[j]))
  {
    var calls := a + b + c;
    forall i, j | 0 <= i < j < |calls|
      ensures Depth(LayerOf(calls[i])) <= Depth(LayerOf(calls[j]))
    {
      if j < |a| {
        assert calls[i] == a[i] && calls[j] == a[j];
      } else if j < |a| + |b| {
        assert calls[j] == b[j - |a|];
      } else {
        assert calls[j] == c[j - |a| - |b|];
      }
      assert i < |a| ==> calls[i] == a[i];
      assert |a| <= i < |a| + |b| ==> calls[i] == b[i - |a|];
      assert |a| + |b| <= i ==> calls[i] == c[i - |a| - |b|];
    }
  }

  /**
   * A live node is drawn when it is moving, or, at a positive scale, when
   * its screen position lies inside the screen grown by the margin; and
   * at a positive scale a still node outside that box is not drawn.
   */
  lemma NodeDrawnIffOnScreen(shapes: seq<Shapes.Shape>, st: GS.Store, ps: PanScaleState, screen: Screen, k: string)
    requires GS.Valid(st) && ps.scale > 0.0 && k in st.nodes.m
    ensures var n := st.heap[st.nodes.m[k]];
      var q := NodeScreenPos(Point(n.x, n.y), ps);
      DrawNode(n) in Draw(shapes, st, ps, screen) <==>
        || n.destination.Some?
        || (&& -ViewPortMargin < q.x < screen.width + ViewPortMargin
            && -ViewPortMargin < q.y < screen.height + ViewPortMargin)
  {
    var n := st.heap[st.nodes.m[k]];
    var i :| 0 <= i < |st.nodes.keys| && st.nodes.keys[i] == k;
    assert LiveNodes(st)[i] == n;
    ViewPortIsPaddedScreen(Point(n.x, n.y), ps, screen);
  }
}

=== FILE: seqs.dfy ===
/**
 * Sequence helpers shared by the model: distinctness, occurrence counts,
 * and the insertion-ordered set that JavaScript's `Set` is.
 */
module Seqs {

  /** The i-th element; distinctness is stated over it so that it is only instantiated on demand. */
  function At<T>(s: seq<T>, i: nat): T
    requires i < |s|
  {
    s[i]
  }

  /** No element occurs twice. */
  ghost predicate Distinct<T>(s: seq<T>) {
    forall i: nat, j: nat :: i < j < |s| ==> At(s, i) != At(s, j)
  }

  lemma DistinctSnoc<T>(s: seq<T>, x: T)
    requires Distinct(s) && x !in s
    ensures Distinct(s + [x])
  {
    var t := s + [x];
    forall i: nat, j: nat | i < j < |t|
      ensures At(t, i) != At(t, j)
    {
      if j < |s| {
        assert At(s, i) != At(s, j);
      } else {
        assert t[i] == s[i];
      }
    }
  }

  lemma DistinctInit<T>(s: seq<T>)
    requires Distinct(s) && s != []
    ensures Distinct(s[..|s| - 1]) && s[|s| - 1] !in s[..|s| - 1]
  {
    var init := s[..|s| - 1];
    forall i: nat, j: nat | i < j < |init|
      ensures At(init, i) != At(init, j)
    {
      assert At(s, i) != At(s, j);
    }
    forall i | 0 <= i < |init|
      ensures init[i] != s[|s| - 1]
    {
      assert At(s, i) != At(s, |s| - 1);
    }
  }

  /** How many times `x` occurs in `s`. */
  function Occurrences<T(==,!new)>(s: seq<T>, x: T): (n: nat)
    ensures n == 0 <==> x !in s
    ensures n <= |s|
    decreases |s|
  {
    if s == [] then 0
    else
      var init := s[..|s| - 1];
      assert forall y :: y in s <==> y in init || y == s[|s| - 1];
      Occurrences(init, x) + (if s[|s| - 1] == x then 1 else 0)
  }

  /** In a sequence without repeats every element occurs exactly once. */
  lemma {:induction false} DistinctOccursOnce<T(!new)>(s: seq<T>, x: T)
    requires Distinct(s) && x in s
    ensures Occurrences(s, x) == 1
    decreases |s|
  {
    DistinctInit(s);
    var init := s[..|s| - 1];
    if x != s[|s| - 1] {
      assert x in init by {
        var i :| 0 <= i < |s| && s[i] == x;
        assert init[i] == x;
      }
      DistinctOccursOnce(init, x);
    }
  }

  /** `set.add(x)` on an insertion-ordered set. */
  function SetAdd<T(==,!new)>(s: seq<T>, x: T): (r: seq<T>)
    ensures x in r && (forall y :: y in r <==> y in s || y == x)
    ensures Distinct(s) ==> Distinct(r)
    ensures x in s ==> r == s
    ensures x !in s ==> r == s + [x]
  {
    if x in s then s
    else
      assert forall y :: y in s + [x] <==> y in s || y == x;
      assert Distinct(s) ==> Distinct(s + [x]) by {
        if Distinct(s) { DistinctSnoc(s, x); }
      }
      s + [x]
  }

  /** `Array.from(new Set(s))`: the elements of `s` without repeats, in order of first occurrence. */
  function Dedupe<T(==,!new)>(s: seq<T>): (r: seq<T>)
    ensures Distinct(r)
    ensures forall y :: y in r <==> y in s
    decreases |s|
  {
    if s == [] then []
    else
      var init := s[..|s| - 1];
      assert forall y :: y in s <==> y in init || y == s[|s| - 1];
      SetAdd(Dedupe(init), s[|s| - 1])
  }

  /** A sequence that already has no repeats is its own set. */
  lemma {:induction false} DedupeDistinct<T(!new)>(s: seq<T>)
    requires Distinct(s)
    ensures Dedupe(s) == s
    decreases |s|
  {
    if s != [] {
      DistinctInit(s);
      DedupeDistinct(s[..|s| - 1]);
      assert s[..|s| - 1] + [s[|s| - 1]] == s;
    }
  }
}

=== FILE: shapes.dfy ===
/**
 * Background shapes: their hit-test (the topmost shape wins), the eight
 * resize handles of a selected shape, resizing by dragging a handle, and
 * the bounding box of nodes and shapes used to fit and to limit zoom.
 *
 * Shape coordinates are plain JavaScript properties that may be missing or
 * may have become NaN, so they are `JsNum`s and the arithmetic on them
 * propagates NaN as the source's does.
 */
module Shapes {
  import opened JsValues
  import opened Camera
  import HitTest
  import Nodes

  datatype Shape = Shape(
    ref: nat,
    x: JsNum,
    y: JsNum,
    width: JsNum,
    height: JsNum,
    size: JsNum,
    noClick: bool,
    noEdit: bool,
    boundsIgnoreDefined: bool,  // `boundsIgnore !== undefined`
    visible: Option<bool>)

  /** The horizontal extent `width || size`. */
  function ExtentX(s: Shape): JsNum {
    JsOr(s.width, s.size)
  }

  /** The vertical extent `height || size`. */
  function ExtentY(s: Shape): JsNum {
    JsOr(s.height, s.size)
  }

  /**
   * checkShapeClick: a shape is hit when the pointer is strictly inside the
   * box from (x, y) spanning `width || size` by `height || size`; shapes
   * with noClick never are. A shape with any of these values missing or NaN
   * is never hit (NaN compares false), so the source's explicit guard on
   * missing values changes nothing.
   */
  function CheckShapeClick(n: Shape, p: Point): (hit: bool)
    ensures hit <==>
      && !n.noClick
      && n.x.Num? && n.y.Num? && ExtentX(n).Num? && ExtentY(n).Num?
      && n.x.v < p.x < n.x.v + ExtentX(n).v
      && n.y.v < p.y < n.y.v + ExtentY(n).v
  {
    if n.noClick || n.x.Undef? || n.y.Undef? || (n.size.Undef? && n.width.Undef? && n.height.Undef?) then false
    else
      var maxX := JsAddNum(n.x, ExtentX(n));
      var maxY := JsAddNum(n.y, ExtentY(n));
      JsGreater(p.x, n.x) && JsLess(p.x, maxX) && JsGreater(p.y, n.y) && JsLess(p.y, maxY)
  }

  /**
   * getShapeAtPos: scanning from the last shape backwards, the index of the
   * first one hit, so the shape drawn on top wins; None (the source's
   * `false`) when no shape is hit.
   */
  function ShapeAtPos(shapes: seq<Shape>, p: Point): (r: Option<nat>)
    ensures r.None? <==> forall i :: 0 <= i < |shapes| ==> !CheckShapeClick(shapes[i], p)
    ensures r.Some? ==> r.value < |shapes| && CheckShapeClick(shapes[r.value], p)
    ensures r.Some? ==> forall j :: r.value < j < |shapes| ==> !CheckShapeClick(shapes[j], p)
  {
    HitTest.LastIndex(shapes, (s: Shape) => CheckShapeClick(s, p))
  }

  datatype Handle = TL | TC | TR | BL | BC | BR | ML | MR

  const HandleOffset: real := 8.0
  const MinShapeSize: real := 10.0

  /** The handles in the order getHandleAtPos lists them. */
  const HandleOrder: seq<Handle> := [TL, TC, TR, BL, BC, BR, ML, MR]

  /**
   * The clickable square of handle `h` of `item` at zoom `scale`: side
   * 8/scale, placed as the source places it (left handles one and a half
   * sides left of the shape, right handles half a side right of it, top
   * handles one and a half sides above, bottom handles half a side below,
   * centre handles centred on the shape's midline).
   */
  function HandleSquare(item: Shape, h: Handle, scale: real): Shape
    requires scale != 0.0
  {
    var hs := HandleOffset / scale;
    var offset := hs * 0.5;
    var c := JsAdd(JsAddNum(item.x, JsScale(ExtentX(item), 0.5)), -offset);
    var m := JsAdd(JsAddNum(item.y, JsScale(ExtentY(item), 0.5)), -offset);
    var l := JsAdd(item.x, -hs * 2.0 + offset);
    var r := JsAdd(JsAddNum(item.x, ExtentX(item)), offset);
    var t := JsAdd(item.y, -hs - offset);
    var b := JsAdd(JsAddNum(item.y, ExtentY(item)), offset);
    var (hx, hy) := match h
      case TL => (l, t)
      case TC => (c, t)
      case TR => (r, t)
      case BL => (l, b)
      case BC => (c, b)
      case BR => (r, b)
      case ML => (l, m)
      case MR => (r, m);
    Shape(0, hx, hy, Undef, Undef, Num(hs), false, false, false, None)
  }

  /** Where each handle sits in HandleOrder. */
  function HandleIndex(h: Handle): (i: nat)
    ensures i < |HandleOrder| && HandleOrder[i] == h
  {
    match h
    case TL => 0
    case TC => 1
    case TR => 2
    case BL => 3
    case BC => 4
    case BR => 5
    case ML => 6
    case MR => 7
  }

  function HandleSquares(item: Shape, scale: real): (r: seq<Shape>)
    requires scale != 0.0
    ensures |r| == |HandleOrder|
    ensures forall i :: 0 <= i < |r| ==> r[i] == HandleSquare(item, HandleOrder[i], scale)
  {
    seq(|HandleOrder|, i requires 0 <= i < |HandleOrder| => HandleSquare(item, HandleOrder[i], scale))
  }

  /**
   * getHandleAtPos: the handle under the pointer, searched with
   * getShapeAtPos, so of overlapping handles the one listed last wins.
   */
  function HandleAtPos(item: Shape, p: Point, scale: real): (r: Option<Handle>)
    requires scale != 0.0
    ensures r.None? <==> forall h: Handle :: !CheckShapeClick(HandleSquare(item, h, scale), p)
    ensures r.Some? ==> CheckShapeClick(HandleSquare(item, r.value, scale), p)
    ensures r.Some? ==> exists i :: (0 <= i < |HandleOrder| && HandleOrder[i] == r.value &&
      forall j :: i < j < |HandleOrder| ==> !CheckShapeClick(HandleSquare(item, HandleOrder[j], scale), p))
  {
    var squares := HandleSquares(item, scale);
    match ShapeAtPos(squares, p)
    case None =>
      assert forall h: Handle :: !CheckShapeClick(HandleSquare(item, h, scale), p) by {
        forall h: Handle ensures !CheckShapeClick(HandleSquare(item, h, scale), p) {
          assert squares[HandleIndex(h)] == HandleSquare(item, h, scale);
        }
      }
      None
    case Some(i) =>
      assert squares[i] == HandleSquare(item, HandleOrder[i], scale);
      Some(HandleOrder[i])
  }

  /**
   * At a positive zoom every handle lies outside the shape's box, so a
   * pointer strictly inside the shape never selects a handle.
   */
  lemma HandlesOutsideShape(item: Shape, p: Point, scale: real)
    requires scale > 0.0
    requires item.x.Num? && item.y.Num? && ExtentX(item).Num? && ExtentY(item).Num?
    requires item.x.v < p.x < item.x.v + ExtentX(item).v
    requires item.y.v < p.y < item.y.v + ExtentY(item).v
    ensures HandleAtPos(item, p, scale).None?
  {
    var hs := HandleOffset / scale;
    assert hs > 0.0;
    forall h: Handle
      ensures !CheckShapeClick(HandleSquare(item, h, scale), p)
    {
      var sq := HandleSquare(item, h, scale);
      assert ExtentX(sq) == Num(hs) && ExtentY(sq) == Num(hs);
    }
  }

  /** One side grown by `d`: `(side || size) + d`, NaN when the extent is missing. */
  function Grow(extent: JsNum, d: real): JsNum {
    JsAdd(extent, d)
  }

  /** Handles on the left side move x and take delta.x off the width. */
  predicate MovesLeft(h: Option<Handle>) { h in {Some(TL), Some(BL), Some(ML)} }
  /** Handles on the right side add delta.x to the width. */
  predicate MovesRight(h: Option<Handle>) { h in {Some(TR), Some(BR), Some(MR)} }
  /** Handles on the top side move y and take delta.y off the height. */
  predicate MovesTop(h: Option<Handle>) { h in {Some(TL), Some(TR), Some(TC)} }
  /** Handles on the bottom side add delta.y to the height. */
  predicate MovesBottom(h: Option<Handle>) { h in {Some(BL), Some(BR), Some(BC)} }

  /**
   * The effect of the switch in setShapeByHandleDrag, before clamping,
   * grouped by the side each handle moves; the corner handles move two
   * sides, the middle handles one, any other handle none. A moved side
   * starts from `width || size` (or `height || size`); an unmoved one keeps
   * the shape's own value.
   */
  function ApplyHandle(si: Shape, handle: Option<Handle>, delta: Point): Shape {
    var w := ExtentX(si);
    var h := ExtentY(si);
    si.(x := if MovesLeft(handle) then JsAdd(si.x, delta.x) else si.x,
        width := if MovesLeft(handle) then Grow(w, -delta.x)
                 else if MovesRight(handle) then Grow(w, delta.x) else si.width,
        y := if MovesTop(handle) then JsAdd(si.y, delta.y) else si.y,
        height := if MovesTop(handle) then Grow(h, -delta.y)
                  else if MovesBottom(handle) then Grow(h, delta.y) else si.height)
  }

  /** Every handle moves at least one side, and no handle moves opposite sides. */
  lemma HandleSides(h: Handle)
    ensures MovesLeft(Some(h)) || MovesRight(Some(h)) || MovesTop(Some(h)) || MovesBottom(Some(h))
    ensures !(MovesLeft(Some(h)) && MovesRight(Some(h))) && !(MovesTop(Some(h)) && MovesBottom(Some(h)))
    ensures MovesLeft(Some(h)) || MovesRight(Some(h)) <==> h !in {TC, BC}
    ensures MovesTop(Some(h)) || MovesBottom(Some(h)) <==> h !in {ML, MR}
  {
  }

  /** Clamping to the minimum size, then the ctrl square constraint. */
  function ClampAndSquare(ret: Shape, ctrl: bool): (r: Shape)
    ensures r.(width := ret.width, height := ret.height) == ret
    ensures !ctrl ==> r.width == JsMax(ret.width, Num(MinShapeSize)) && r.height == JsMax(ret.height, Num(MinShapeSize))
    ensures ctrl ==> r.width == r.height == JsMin(JsMax(ret.width, Num(MinShapeSize)), JsMax(ret.height, Num(MinShapeSize)))
  {
    var w := JsMax(ret.width, Num(MinShapeSize));
    var h := JsMax(ret.height, Num(MinShapeSize));
    if ctrl then
      var smaller := JsMin(w, h);
      ret.(width := smaller, height := smaller)
    else ret.(width := w, height := h)
  }

  /**
   * setShapeByHandleDrag as written: the axis a handle does not move keeps
   * the shape's own `width` or `height`, which a shape sized only by `size`
   * does not have, so `Math.max(undefined, 10)` makes it NaN.
   */
  function SetShapeByHandleDragAsWritten(si: Shape, handle: Option<Handle>, delta: Point, ctrl: bool): (r: Shape)
    ensures r.(x := si.x, y := si.y, width := si.width, height := si.height) == si
    ensures !MovesLeft(handle) && !MovesTop(handle) ==> r.x == si.x && r.y == si.y
    ensures ctrl ==> r.width == r.height
    ensures r.width.Num? ==> r.width.v >= MinShapeSize
    ensures r.height.Num? ==> r.height.v >= MinShapeSize
    ensures handle.None? ==> r == ClampAndSquare(si, ctrl)
  {
    ClampAndSquare(ApplyHandle(si, handle, delta), ctrl)
  }

  /**
   * The discrepancy: a square shape given only a `size`, resized from its
   * bottom-centre handle, loses its width (NaN), and with ctrl held both
   * sides become NaN.
   */
  lemma SizeOnlyShapeLosesWidth(s: Shape, dy: real)
    requires s.width == Undef && s.height == Undef && s.size == Num(20.0)
    ensures SetShapeByHandleDragAsWritten(s, Some(BC), Point(0.0, dy), false).width == NaN
    ensures SetShapeByHandleDragAsWritten(s, Some(BC), Point(0.0, dy), true).width == NaN
    ensures SetShapeByHandleDragAsWritten(s, Some(BC), Point(0.0, dy), true).height == NaN
    ensures SetShapeByHandleDrag(s, Some(BC), Point(0.0, dy), false).width == Num(20.0)
  {
  }

  /**
   * setShapeByHandleDrag, corrected: the sides a handle does not move keep
   * `width || size` and `height || size`. Whenever the shape has both
   * extents the result has both, each at least 10; with ctrl they are
   * equal; right, bottom and unknown handles never move the origin.
   */
  function SetShapeByHandleDrag(si: Shape, handle: Option<Handle>, delta: Point, ctrl: bool): (r: Shape)
    ensures r.(x := si.x, y := si.y, width := si.width, height := si.height) == si
    ensures !MovesLeft(handle) && !MovesTop(handle) ==> r.x == si.x && r.y == si.y
    ensures ExtentX(si).Num? && ExtentY(si).Num? ==>
      r.width.Num? && r.height.Num? && r.width.v >= MinShapeSize && r.height.v >= MinShapeSize
    ensures ctrl ==> r.width == r.height
    ensures handle.None? && !ctrl ==> r.width == JsMax(ExtentX(si), Num(MinShapeSize))
  {
    var normal := si.(width := ExtentX(si), height := ExtentY(si));
    NormalExtents(si);
    var moved := ApplyHandle(normal, handle, delta);
    assert ExtentX(si).Num? ==> moved.width.Num?;
    assert ExtentY(si).Num? ==> moved.height.Num?;
    ClampAndSquare(moved, ctrl)
  }

  /**
   * What each handle does to the corrected resize without ctrl: a moved
   * right or bottom side grows by the drag, a moved left or top side moves
   * the origin by the drag and shrinks by it, each moved side is then held
   * at the minimum size, and the axis a middle handle does not touch keeps
   * `width || size` (or `height || size`) held at the minimum size.
   */
  lemma HandleMovesSides(si: Shape, h: Handle, delta: Point)
    ensures var r := SetShapeByHandleDrag(si, Some(h), delta, false);
      && (MovesRight(Some(h)) ==> r.width == JsMax(JsAdd(ExtentX(si), delta.x), Num(MinShapeSize)))
      && (MovesBottom(Some(h)) ==> r.height == JsMax(JsAdd(ExtentY(si), delta.y), Num(MinShapeSize)))
      && (MovesLeft(Some(h)) ==>
            r.x == JsAdd(si.x, delta.x) && r.width == JsMax(JsAdd(ExtentX(si), -delta.x), Num(MinShapeSize)))
      && (MovesTop(Some(h)) ==>
            r.y == JsAdd(si.y, delta.y) && r.height == JsMax(JsAdd(ExtentY(si), -delta.y), Num(MinShapeSize)))
      && (h in {TC, BC} ==> r.x == si.x && r.width == JsMax(ExtentX(si), Num(MinShapeSize)))
      && (h in {ML, MR} ==> r.y == si.y && r.height == JsMax(ExtentY(si), Num(MinShapeSize)))
  {
    NormalExtents(si);
  }

  /**
   * The same for the resize as written: the moved sides behave alike, but
   * the axis a middle handle does not touch keeps the shape's own `width`
   * or `height`, held at the minimum size.
   */
  lemma HandleMovesSidesAsWritten(si: Shape, h: Handle, delta: Point)
    ensures var r := SetShapeByHandleDragAsWritten(si, Some(h), delta, false);
      && (MovesRight(Some(h)) ==> r.width == JsMax(JsAdd(ExtentX(si), delta.x), Num(MinShapeSize)))
      && (MovesBottom(Some(h)) ==> r.height == JsMax(JsAdd(ExtentY(si), delta.y), Num(MinShapeSize)))
      && (MovesLeft(Some(h)) ==>
            r.x == JsAdd(si.x, delta.x) && r.width == JsMax(JsAdd(ExtentX(si), -delta.x), Num(MinShapeSize)))
      && (MovesTop(Some(h)) ==>
            r.y == JsAdd(si.y, delta.y) && r.height == JsMax(JsAdd(ExtentY(si), -delta.y), Num(MinShapeSize)))
      && (h in {TC, BC} ==> r.x == si.x && r.width == JsMax(si.width, Num(MinShapeSize)))
      && (h in {ML, MR} ==> r.y == si.y && r.height == JsMax(si.height, Num(MinShapeSize)))
  {
  }

  /**
   * Holding ctrl makes both sides the smaller of the two sides the same
   * drag gives without ctrl, in the corrected resize and as written.
   */
  lemma CtrlTakesSmallerSide(si: Shape, handle: Option<Handle>, delta: Point)
    ensures var free := SetShapeByHandleDrag(si, handle, delta, false);
      var sq := SetShapeByHandleDrag(si, handle, delta, true);
      sq == free.(width := JsMin(free.width, free.height), height := JsMin(free.width, free.height))
    ensures var free := SetShapeByHandleDragAsWritten(si, handle, delta, false);
      var sq := SetShapeByHandleDragAsWritten(si, handle, delta, true);
      sq == free.(width := JsMin(free.width, free.height), height := JsMin(free.width, free.height))
  {
  }

  /** Dragging a left handle keeps the right edge where it was, while the minimum size does not bind. */
  lemma LeftHandleKeepsRightEdge(si: Shape, handle: Handle, delta: Point)
    requires MovesLeft(Some(handle))
    requires si.x.Num? && ExtentX(si).Num? && ExtentX(si).v - delta.x >= MinShapeSize
    ensures var r := SetShapeByHandleDrag(si, Some(handle), delta, false);
      r.x.Num? && r.width.Num? && r.x.v + r.width.v == si.x.v + ExtentX(si).v
  {
    var normal := si.(width := ExtentX(si), height := ExtentY(si));
    NormalExtents(si);
    var moved := ApplyHandle(normal, Some(handle), delta);
    assert moved.x == Num(si.x.v + delta.x);
    assert moved.width == Num(ExtentX(si).v - delta.x);
  }

  /** Dragging a top handle keeps the bottom edge where it was, while the minimum size does not bind. */
  lemma TopHandleKeepsBottomEdge(si: Shape, handle: Handle, delta: Point)
    requires MovesTop(Some(handle))
    requires si.y.Num? && ExtentY(si).Num? && ExtentY(si).v - delta.y >= MinShapeSize
    ensures var r := SetShapeByHandleDrag(si, Some(handle), delta, false);
      r.y.Num? && r.height.Num? && r.y.v + r.height.v == si.y.v + ExtentY(si).v
  {
    var normal := si.(width := ExtentX(si), height := ExtentY(si));
    NormalExtents(si);
    var moved := ApplyHandle(normal, Some(handle), delta);
    assert moved.y == Num(si.y.v + delta.y);
    assert moved.height == Num(ExtentY(si).v - delta.y);
  }

  /** Writing `width || size` into the width leaves `width || size` as it was. */
  lemma NormalExtents(si: Shape)
    ensures var normal := si.(width := ExtentX(si), height := ExtentY(si));
      ExtentX(normal) == ExtentX(si) && ExtentY(normal) == ExtentY(si)
  {
  }

  /** Whenever the shape has its own width and height, the corrected resize is the source's. */
  lemma DragAgreesWithExplicitSides(si: Shape, handle: Option<Handle>, delta: Point, ctrl: bool)
    requires Truthy(si.width) && Truthy(si.height)
    ensures SetShapeByHandleDrag(si, handle, delta, ctrl) == SetShapeByHandleDragAsWritten(si, handle, delta, ctrl)
  {
    assert si.(width := ExtentX(si), height := ExtentY(si)) == si;
  }

  // ---- util getBounds ---------------------------------------------------

  /** The fields of a node or a shape that getBounds reads. */
  datatype BoundsItem = BoundsItem(x: JsNum, y: JsNum, destination: Option<Point>, width: JsNum, height: JsNum, size: JsNum)

  /** Number-typed bounding box: NaN when the first item's coordinate is not a number. */
  datatype JsBox = JsBox(minX: JsNum, minY: JsNum, maxX: JsNum, maxY: JsNum, width: JsNum, height: JsNum)

  const DefaultBox: JsBox := JsBox(Num(0.0), Num(0.0), Num(100.0), Num(100.0), Num(100.0), Num(100.0))
  const ItemMargin: real := 30.0

  function NodeItem(n: Nodes.Node): BoundsItem {
    BoundsItem(Num(n.x), Num(n.y), n.destination, Undef, Undef, Num(n.size))
  }

  function ShapeItem(s: Shape): BoundsItem {
    BoundsItem(s.x, s.y, None, s.width, s.height, s.size)
  }

  /** `destination?.x || x || 0`: the position an item is heading to, else where it is. */
  function ItemX(n: BoundsItem): real {
    if n.destination.Some? && n.destination.value.x != 0.0 then n.destination.value.x
    else if Truthy(n.x) then n.x.v else 0.0
  }

  function ItemY(n: BoundsItem): real {
    if n.destination.Some? && n.destination.value.y != 0.0 then n.destination.value.y
    else if Truthy(n.y) then n.y.v else 0.0
  }

  /** `width || size || 30`. */
  function ItemW(n: BoundsItem): real {
    if Truthy(n.width) then n.width.v else if Truthy(n.size) then n.size.v else ItemMargin
  }

  /** `height || size || 30`. */
  function ItemH(n: BoundsItem): real {
    if Truthy(n.height) then n.height.v else if Truthy(n.size) then n.size.v else ItemMargin
  }

  /** The shapes whose boundsIgnore is undefined, in their order. */
  function Kept(shapes: seq<Shape>): (r: seq<Shape>)
    ensures forall s :: s in r <==> s in shapes && !s.boundsIgnoreDefined
    ensures |r| <= |shapes|
  {
    if shapes == [] then []
    else
      var last := shapes[|shapes| - 1];
      assert forall s :: s in shapes <==> s in shapes[..|shapes| - 1] || s == last;
      Kept(shapes[..|shapes| - 1]) + (if last.boundsIgnoreDefined then [] else [last])
  }

  /**
   * The items getBounds combines: every node, then the shapes whose
   * boundsIgnore is undefined, in order; an ignored shape contributes nothing.
   */
  function Combined(nodes: seq<Nodes.Node>, shapes: seq<Shape>): (r: seq<BoundsItem>)
    ensures |r| == |nodes| + |Kept(shapes)|
    ensures forall i :: 0 <= i < |nodes| ==> r[i] == NodeItem(nodes[i])
    ensures forall i :: 0 <= i < |Kept(shapes)| ==> r[|nodes| + i] == ShapeItem(Kept(shapes)[i])
    ensures forall s :: s in shapes && !s.boundsIgnoreDefined ==> ShapeItem(s) in r
    ensures forall x :: x in r[|nodes|..] ==> exists s :: s in shapes && !s.boundsIgnoreDefined && x == ShapeItem(s)
    decreases |shapes|
  {
    var r := if shapes == [] then seq(|nodes|, i requires 0 <= i < |nodes| => NodeItem(nodes[i]))
      else
        var prev := Combined(nodes, shapes[..|shapes| - 1]);
        var last := shapes[|shapes| - 1];
        if last.boundsIgnoreDefined then prev else prev + [ShapeItem(last)];
    CombinedMembers(nodes, shapes, r);
    r
  }

  /** The shape part laid out as the kept shapes holds exactly the kept shapes' items. */
  lemma CombinedMembers(nodes: seq<Nodes.Node>, shapes: seq<Shape>, r: seq<BoundsItem>)
    requires |r| == |nodes| + |Kept(shapes)|
    requires forall i :: 0 <= i < |Kept(shapes)| ==> r[|nodes| + i] == ShapeItem(Kept(shapes)[i])
    ensures forall s :: s in shapes && !s.boundsIgnoreDefined ==> ShapeItem(s) in r
    ensures forall x :: x in r[|nodes|..] ==> exists s :: s in shapes && !s.boundsIgnoreDefined && x == ShapeItem(s)
  {
    var k := Kept(shapes);
    forall s | s in shapes && !s.boundsIgnoreDefined
      ensures ShapeItem(s) in r
    {
      var i :| 0 <= i < |k| && k[i] == s;
      assert r[|nodes| + i] == ShapeItem(s);
    }
    forall x | x in r[|nodes|..]
      ensures exists s :: s in shapes && !s.boundsIgnoreDefined && x == ShapeItem(s)
    {
      var j :| 0 <= j < |r| - |nodes| && r[|nodes|..][j] == x;
      assert x == ShapeItem(k[j]) && k[j] in k;
    }
  }

  /**
   * The box accumulated over `items`, starting from `first`'s position:
   * each item widens it to [x - 30, x + width] by [y - 30, y + height].
   * The result is the least box containing `first` and every item's span,
   * and it is NaN throughout when `first` has no numeric coordinate.
   */
  function Accumulate(items: seq<BoundsItem>, first: BoundsItem): (r: JsBox)
    ensures r.minX.Num? <==> first.x.Num?
    ensures r.maxX.Num? <==> first.x.Num?
    ensures r.minY.Num? <==> first.y.Num?
    ensures r.maxY.Num? <==> first.y.Num?
    ensures first.x.Num? ==> r.minX.v <= first.x.v <= r.maxX.v
    ensures first.y.Num? ==> r.minY.v <= first.y.v <= r.maxY.v
    ensures first.x.Num? ==> forall i :: 0 <= i < |items| ==>
      r.minX.v <= ItemX(items[i]) - ItemMargin && ItemX(items[i]) + ItemW(items[i]) <= r.maxX.v
    ensures first.y.Num? ==> forall i :: 0 <= i < |items| ==>
      r.minY.v <= ItemY(items[i]) - ItemMargin && ItemY(items[i]) + ItemH(items[i]) <= r.maxY.v
    ensures first.x.Num? ==>
      (r.minX.v == first.x.v || exists i :: 0 <= i < |items| && r.minX.v == ItemX(items[i]) - ItemMargin)
    ensures first.x.Num? ==>
      (r.maxX.v == first.x.v || exists i :: 0 <= i < |items| && r.maxX.v == ItemX(items[i]) + ItemW(items[i]))
    ensures |items| > 0 ==> r.width == JsSubNum(r.maxX, r.minX) && r.height == JsSubNum(r.maxY, r.minY)
  {
    if items == [] then JsBox(first.x, first.y, first.x, first.y, Undef, Undef)
    else
      var prev := Accumulate(items[..|items| - 1], first);
      var n := items[|items| - 1];
      assert forall i :: 0 <= i < |items| - 1 ==> items[..|items| - 1][i] == items[i];
      var maxX := JsMax(prev.maxX, Num(ItemX(n) + ItemW(n)));
      var maxY := JsMax(prev.maxY, Num(ItemY(n) + ItemH(n)));
      var minX := JsMin(prev.minX, Num(ItemX(n) - ItemMargin));
      var minY := JsMin(prev.minY, Num(ItemY(n) - ItemMargin));
      JsBox(minX, minY, maxX, maxY, JsSubNum(maxX, minX), JsSubNum(maxY, minY))
  }

  /**
   * util getBounds: the default 0..100 box when there is nothing to bound,
   * otherwise the box accumulated from the first item.
   */
  function GetBounds(nodes: seq<Nodes.Node>, shapes: seq<Shape>): (r: JsBox)
    ensures Combined(nodes, shapes) == [] ==> r == DefaultBox
    ensures Combined(nodes, shapes) != [] ==> r == Accumulate(Combined(nodes, shapes), Combined(nodes, shapes)[0])
  {
    var combined := Combined(nodes, shapes);
    if combined == [] then DefaultBox else Accumulate(combined, combined[0])
  }

  /**
   * With at least one node, the bounds are numbers, ordered, with width and
   * height their differences, and contain every node's span.
   */
  lemma {:induction false} BoundsOfNodes(nodes: seq<Nodes.Node>, shapes: seq<Shape>)
    requires |nodes| > 0
    ensures var r := GetBounds(nodes, shapes);
      && r.minX.Num? && r.maxX.Num? && r.minY.Num? && r.maxY.Num?
      && r.minX.v <= r.maxX.v && r.minY.v <= r.maxY.v
      && r.width == Num(r.maxX.v - r.minX.v) && r.height == Num(r.maxY.v - r.minY.v)
      && forall i :: 0 <= i < |nodes| ==>
           r.minX.v <= ItemX(NodeItem(nodes[i])) - ItemMargin &&
           ItemX(NodeItem(nodes[i])) + ItemW(NodeItem(nodes[i])) <= r.maxX.v
  {
    var combined := Combined(nodes, shapes);
    assert combined[0] == NodeItem(nodes[0]);
    var r := Accumulate(combined, combined[0]);
    forall i | 0 <= i < |nodes|
      ensures r.minX.v <= ItemX(NodeItem(nodes[i])) - ItemMargin &&
              ItemX(NodeItem(nodes[i])) + ItemW(NodeItem(nodes[i])) <= r.maxX.v
    {
      assert combined[i] == NodeItem(nodes[i]);
    }
  }

  /**
   * An entry of the live node map taken as an item: a `[key, node]` pair,
   * which has no `x`, `y`, `destination`, `width`, `height` or `size`.
   */
  const EntryItem: BoundsItem := BoundsItem(Undef, Undef, None, Undef, Undef, Undef)

  /**
   * The bounds as the network component computes them, over the entries of
   * its live node map (`nodeCount` of them) and the shapes: with no node it
   * is getBounds over the shapes alone, and with any node every side is NaN,
   * because the first item is an entry pair without coordinates.
   */
  function MemoBoundsAsWritten(nodeCount: nat, shapes: seq<Shape>): (r: JsBox)
    ensures nodeCount == 0 ==> r == GetBounds([], shapes)
    ensures nodeCount > 0 ==> !r.minX.Num? && !r.maxX.Num? && !r.minY.Num? && !r.maxY.Num?
    ensures nodeCount > 0 ==> !r.width.Num? && !r.height.Num?
  {
    var items := seq(nodeCount, _ => EntryItem) + Combined([], shapes);
    assert nodeCount == 0 ==> items == Combined([], shapes);
    if items == [] then DefaultBox else Accumulate(items, items[0])
  }

  /** A shape whose boundsIgnore is set does not change the bounds. */
  lemma IgnoredShapeDoesNotMatter(nodes: seq<Nodes.Node>, shapes: seq<Shape>, s: Shape)
    requires s.boundsIgnoreDefined
    ensures GetBounds(nodes, shapes + [s]) == GetBounds(nodes, shapes)
  {
    assert (shapes + [s])[..|shapes + [s]| - 1] == shapes;
  }
}
